=== FILE: README.md ===
# DRM/KMS display diagnostic — a Dafny model

This project models the deterministic core of a Linux display diagnostic. The diagnostic walks the state the kernel exports for its graphics stack and reports why the screen is or is not lit. That state is:

- `/sys/class/drm` cards and connectors;
- `/dev/dri` nodes;
- module parameters;
- the debugfs `dri/<N>` directories;
- tracefs.

It comes in two near-identical variants, `gfx.py` and `drm.py`. Both run the same normal-KMS flow, `run_flow_kms`:

1. Six hard gates run in order, and the first one that fails ends the run with exit code 2:
   - `/sys/class/drm` is empty;
   - no `cardN`;
   - no card with a bound driver;
   - `/dev/dri` is empty;
   - no `/dev/dri/card*`;
   - `nvidia_drm.modeset=0`.
2. The connectors are classified by status, EDID size, mode count and link status. This never changes the exit code.
3. The primary debugfs card is picked. If there is none, the run ends with code 2. Otherwise the runtime probes run on it:
   - framebuffer flips;
   - vblank counters or a DRM trace capture;
   - PSR/ALPM state.

Here `run_flow_kms` is the pure function `Pipeline.RunFlowKms` from a `Snapshot` of the exported state to an exit code and a list of evidence items (severity plus subject). The two variants are one function under two severity policies:

- `Evidence.GfxPolicy` (`gfx.py`) only warns about soft problems and prints the probe results as information.
- `Evidence.DrmPolicy` (`drm.py`) fails soft problems, skips cards without connectors, probes only debugfs cards whose `state` says `active=1`, and judges the probes.

Module layout, following the source:

| module | models |
|---|---|
| `Wrappers`, `Text`, `Assoc`, `Seqs` | Python's `Optional`, the `str` methods the code relies on (`strip`, `splitlines`, `split`, `lower`, `in`), dict assignment, `sorted(set(...))` |
| `Reader` | `read_text` with its truncation marker |
| `Cmdline` | `parse_cmdline` |
| `Grep` | `grep_lines` |
| `Topology` | the sysfs helpers: cards, drivers, identity, connectors, runtime PM, module parameters |
| `Evidence`, `Connectors` | the evidence vocabulary, the two policies, connector classification |
| `DebugCards` | `list_dri_debug_cards`, `pick_primary_card` |
| `VBlank`, `Flips`, `Psr`, `Trace` | the runtime probes |
| `Pipeline` | `run_flow_kms` |

Text is modelled as a sequence of characters, one per byte. Python's whitespace and line-break sets are modelled in full, while `lower` and the regex classes `\d` and `\w` are modelled on ASCII.

## Model

| member | source | states |
|---|---|---|
| Pipeline.RunFlow | gfx.py:418-532 | the exit code is 0 or 2, and 0 exactly when all gates pass and a primary debugfs card exists. A stopped run ends with the FAIL of the first failing gate and has classified no connector. A run past the gates without a debugfs card ends with the policy's item for that. Under `gfx.py`'s policy only the last item can be a FAIL, and it is one exactly when a gate stopped the run |
| Pipeline.FlowOpens | gfx.py:419-420 | every run opens with the item naming the flow and reports at least one more item |
| Pipeline.FlowRc | gfx.py:418-532 | the flow's exit code is 0 or 2, and it is 0 exactly when all six gates pass and a primary debugfs card exists |
| Pipeline.FlowStops | gfx.py:423-485 | when a gate is the first failing one, the run ends with code 2 and its last item is that gate's FAIL; no connector was classified before it |
| Pipeline.FirstFailing | gfx.py:423-485 | whenever some gate fails, there is a first failing gate, at which the run stops |
| Pipeline.GateStopLast | gfx.py:423-485 | under either policy, a run where some gate fails ends with a FAIL item |
| Pipeline.SysDrmGateIff | gfx.py:285-289 | the first gate fails exactly when the `/sys/class/drm` listing has no directory |
| Pipeline.CardGateIff | gfx.py:429-432 | the card gate fails exactly when no directory is named `card` followed by digits |
| Pipeline.DriverGateIff | gfx.py:436-455 | the driver gate fails exactly when no card has a driver symlink |
| Pipeline.CardNodeGateIff | gfx.py:464-468 | the KMS-node gate fails exactly when no `/dev/dri` name starts with `card` |
| Pipeline.NvidiaGateFlow | gfx.py:477-485 | the NVIDIA gate fails exactly when the listed parameter settings contain one starting with `nvidia_drm.modeset=0` |
| Pipeline.EarlyGatesFlow | gfx.py:423-455 | the first three gates pass exactly when the flow finds directories, cards and a bound driver |
| Pipeline.LateGatesFlow | gfx.py:458-485 | the last three gates pass exactly when `/dev/dri` is non-empty, has a KMS node and NVIDIA KMS is not off |
| Pipeline.AllGatesPassFlow | gfx.py:423-485 | all gates pass exactly when every check the flow makes before the connectors succeeds |
| Pipeline.AfterDriversRc | gfx.py:453-532 | from the driver verdict on, the code is 0 exactly when a driver is bound, `/dev/dri` has a KMS node, NVIDIA KMS is on and a primary card exists |
| Pipeline.AfterNodesRc | gfx.py:477-532 | from the parameters on, the code is 0 exactly when NVIDIA KMS is on and a primary card exists |
| Pipeline.StopDriver | gfx.py:453-455 | with cards but no bound driver, the run ends with code 2 and the "none bound" FAIL |
| Pipeline.StopDevDri | gfx.py:458-461 | with a bound driver but an empty `/dev/dri`, the run ends with code 2 and the "/dev/dri empty" FAIL |
| Pipeline.StopCardNode | gfx.py:464-468 | with `/dev/dri` entries but no `card*` node, the run ends with code 2 and the "no KMS node" FAIL |
| Pipeline.StopNvidia | gfx.py:477-485 | when `nvidia_drm.modeset` reads as starting with 0, the run ends with code 2 and the NVIDIA FAIL |
| Pipeline.FlowAfterCards | gfx.py:423-455 | once directories and cards exist, the run continues from the driver verdict after the entry, card and per-card driver items |
| Pipeline.FlowPasses | gfx.py:488-532 | when all gates pass, the run reports one state line per connector of every card, and its evidence list ends with either the no-debugfs-card item or the three probe reports of the primary card (gfx.py prints these before the returned lines; see Left out) |
| Pipeline.FlowPassesShape | gfx.py:458-514 | when all gates pass, the evidence is the node items, then the connector section, then the runtime step, and it includes the render-node verdict |
| Pipeline.RuntimeTail | gfx.py:516-532 | step 6 adds no connector state and leaves the run ending as the primary-card choice dictates |
| Pipeline.Probes | drm.py:562-584 | the runtime probes yield three reports and no connector state; under a policy that does not judge them, all three are information |
| Pipeline.DriversPass | gfx.py:457-474 | past the driver and node gates, the flow adds the node list and the render-node verdict before the parameters |
| Pipeline.NodesPass | gfx.py:477-514 | past the NVIDIA gate, the connector section adds exactly one state line per connector before step 6 |
| Pipeline.CardDriverItems | gfx.py:437-451 | each card contributes its driver verdict first, then only information items |
| Pipeline.CardExtras | gfx.py:445-451 | the identity and runtime-PM lines of a card are information and never connector states |
| Pipeline.DriverSection | gfx.py:436-451 | the per-card driver section reports no connector state |
| Pipeline.DriverItemReported | gfx.py:437-451 | every item a card's driver block produces appears in the flow's evidence |
| Pipeline.CardDriverReported | gfx.py:440-444 | every card gets a PASS naming its bound driver, or the policy's unbound-card severity when it has none |
| Pipeline.RenderReported | gfx.py:471-474 | past the node gates, the run reports the render node as present, or missing with the policy's severity |
| Pipeline.ConnectorReported | gfx.py:494-509 | when all gates pass, every item classifying a connector of a card appears in the run's evidence |
| Pipeline.ConnectionReported | gfx.py:511-514 | when all gates pass, the run reports that some connector is connected, or that none is, with the policy's severity |
| Pipeline.AfterDriversKeeps | gfx.py:436-532 | nothing reported before the driver verdict is dropped by later steps |
| Pipeline.AfterNodesKeeps | gfx.py:477-532 | nothing reported before the parameter step is dropped by later steps |
| Pipeline.DriverStop | gfx.py:453-455 | from any prefix without connector states, no bound driver ends the run with code 2 and the driver gate's FAIL |
| Pipeline.DevDriStop | gfx.py:458-461 | from any such prefix, an empty `/dev/dri` ends the run with code 2 and its FAIL |
| Pipeline.CardNodeStop | gfx.py:464-468 | from any such prefix, a `/dev/dri` without `card*` ends the run with code 2 and its FAIL |
| Pipeline.NvidiaStop | gfx.py:483-485 | from any such prefix, NVIDIA KMS being off ends the run with code 2 and its FAIL |
| Pipeline.AfterNodesStops | gfx.py:477-485 | the parameter step ends the run with the NVIDIA FAIL whenever the NVIDIA setting is off |
| Pipeline.PreambleStates | gfx.py:423-451 | the items before the driver verdict contain no connector state |
| Pipeline.SoftFailsOnlyAtGates | gfx.py:418-532 | under `gfx.py`'s policy, no item but the last is a FAIL, and the last is a FAIL exactly when some gate fails |
| Pipeline.SoftPassLast | gfx.py:488-532 | under `gfx.py`'s policy, a run where all gates pass does not end with a FAIL |
| Pipeline.AfterDriversSoft | gfx.py:436-532 | under a soft policy, from the driver verdict on, only the final item can be a FAIL, and it is one exactly when a later gate fails |
| Pipeline.AfterNodesSoft | gfx.py:477-532 | under a soft policy, from the parameters on, only the final item can be a FAIL, and it is one exactly when NVIDIA KMS is off |
| Pipeline.NodeItemsSoft | gfx.py:462-474 | under a soft policy, the node items contain no FAIL |
| Pipeline.RuntimeSoft | gfx.py:516-532 | under a soft policy, step 6 adds no FAIL |
| Pipeline.DriverSectionSoft | gfx.py:436-451 | under a soft policy, the driver section contains no FAIL |
| Pipeline.PreambleSoft | gfx.py:423-451 | under a soft policy, the items before the driver verdict contain no FAIL |
| Pipeline.NoCardsSoft | gfx.py:429-432 | when there are no cards, only the final item is a FAIL |
| Pipeline.CardsSoft | gfx.py:433-532 | under a soft policy with cards present, only the final item can be a FAIL |
| Pipeline.GfxIsSoft | gfx.py:440-514 | `gfx.py`'s policy never fails a soft problem, and `drm.py`'s does |
| Connectors.ConnectorEvidence | gfx.py:494-509 | a connector yields exactly one state line. A disconnected connector yields only that line. A connected one adds the no-modes item exactly when it has no modes, the EDID warning exactly when the size text is `0`, empty or `?`, and the link item exactly when the link status is non-empty and not `good` |
| Connectors.SuspiciousEdidIff | gfx.py:339-344 | the EDID size text is suspicious exactly when there is no EDID file, its size is 0, or its size could not be read |
| Connectors.EdidBytes | gfx.py:339-344 | the EDID size text is never empty; a missing file reads as `0` |
| Connectors.ConnectorSection | gfx.py:488-514 | the connector section ends with "some connected" exactly when a connector of some card reports `connected`, and with the policy's "none connected" otherwise |
| Connectors.SectionStates | gfx.py:489-501 | the connector section has one state line per connector of each card |
| Connectors.EmptyCardLine | gfx.py:491-493 | a card without connectors yields the policy's no-connectors line, or nothing (`drm.py`) |
| Connectors.CardInSection | gfx.py:489-509 | every item of a card's connector block appears in the section |
| Connectors.ConnectorInCard | gfx.py:494-509 | every item of a connector appears in its card's block |
| Connectors.SectionSoft | gfx.py:488-514 | under a soft policy, the connector section contains no FAIL |
| Topology.DrmDirs | gfx.py:285-289 | the listed entries are exactly the directories of `/sys/class/drm` |
| Topology.DrmCards | gfx.py:291-292 | the cards are exactly the directories whose names are `card` followed by one or more digits |
| Topology.ConnectorsOf | gfx.py:324-331 | a card's connectors are exactly the directories named `<card>-…` that have a `status` file |
| Topology.ConnectorOwnerUnique | gfx.py:326-329 | no connector name carries the prefix of two different cards, since `card1-` never begins `card10-…` |
| Topology.NoShorterOwner | gfx.py:326-329 | two card prefixes of one connector name have the same length |
| Topology.UeventKeyOf | gfx.py:312-315 | a uevent line is used exactly when it starts with `DRIVER=`, `PCI_ID=` or `MODALIAS=` |
| Topology.IdentityAttr | gfx.py:306-309 | an identity attribute is present exactly when its file reads non-empty, and then has that text |
| Topology.IdentityUevent | gfx.py:310-315 | a uevent key takes the value after the first `=` of the last line that sets it |
| Topology.LastUeventLineWins | gfx.py:312-315 | among uevent lines, the last one for a key decides its value |
| Topology.AttrPart | gfx.py:306-309 | the attribute part holds exactly the attributes that read non-empty |
| Topology.DeviceIdentity | gfx.py:303-316 | the identity holds only the five attributes and the three uevent keys |
| Topology.RuntimePm | gfx.py:351-361 | without a power directory the map is empty; otherwise it holds exactly the five keys whose files are readable, with their text |
| Topology.Setting | gfx.py:478-481 | a parameter contributes one `<module>.<param>=<value>` setting exactly when it is readable |
| Topology.KmsValues | gfx.py:477-479 | the values read are, in this order, those of `nvidia_drm.modeset`, `i915.modeset`, `amdgpu.dc` and `radeon.modeset` |
| Topology.NvidiaGateIff | gfx.py:477-485 | some setting starts with `nvidia_drm.modeset=0` exactly when `nvidia_drm.modeset` is readable and its value starts with `0` |
| Topology.NvidiaSettingOff | gfx.py:481-483 | the NVIDIA setting starts with the off prefix exactly when its value starts with `0` |
| Topology.OffConcat | gfx.py:483 | an off setting exists in two lists together exactly when one exists in either |
| Topology.OtherSettingsOn | gfx.py:478-483 | the i915, amdgpu and radeon settings never trigger the NVIDIA gate |
| Reader.ReadText | gfx.py:47-54 | a file yields text exactly when it can be read; a file longer than the limit yields its head plus the truncation marker, leading whitespace stripped |
| Reader.ReadTextShort | gfx.py:47-54 | a file within the limit reads as its content with surrounding whitespace stripped |
| Reader.ReadTextRoundTrip | gfx.py:47-54 | content within the limit that has no surrounding whitespace reads back unchanged |
| Reader.ReadTextBounded | gfx.py:50-52 | the text read is at most the limit plus the marker |
| Reader.TruncatedStrip | gfx.py:51-52 | stripping a truncated head removes the final newline and the head's leading whitespace, and keeps the marker |
| Text.StripShape | gfx.py:52 | stripping keeps a contiguous middle of the text, drops only whitespace on both sides, and leaves no whitespace at either end |
| Text.StripStripped | gfx.py:52 | stripping is idempotent |
| Text.SplitJoinLines | gfx.py:68 | lines without line breaks, the last one non-empty, joined by newlines split back into the same lines |
| Text.TokensJoin | gfx.py:80 | splitting words without whitespace, joined by single spaces, gives the words back |
| Cmdline.ParseLine | gfx.py:78-89 | the result holds the raw line under `_raw` and has exactly `_raw` plus each token's key as keys |
| Cmdline.Entry | gfx.py:83-87 | a token with `=` splits at its first `=` into a key without `=` and a value; a bare token maps to `1` |
| Cmdline.LastOccurrenceWins | gfx.py:82-87 | a key takes its value from the last token that names it |
| Cmdline.ParseJoinedWords | drm.py:76-87 | for a command line written as space-separated words, each word's key holds the word's value, or `1` for a bare word, and `_raw` holds the line |
| Cmdline.BareWord | drm.py:81-85 | a token without `=` is a bare flag with value `1` |
| Grep.GrepLines | gfx.py:66-76 | the hits are the matching lines in order, capped at `max_hits` and followed by the truncation marker once the cap is reached; a cap below 1 keeps at most the first line's match plus the marker |
| Grep.MatchingAppend | gfx.py:68-72 | matching distributes over concatenated texts |
| Grep.Matching | gfx.py:68-72 | there are never more matching lines than lines |
| DebugCards.ListCards | drm.py:97-116 | the listing is None exactly when the dri directory itself is refused, or, in `drm.py`, when a card's state read is refused; a missing directory lists nothing; the list is sorted |
| DebugCards.IndicesListed | drm.py:102-112 | an index is listed exactly when its directory name is all digits and, for `drm.py`, its state says `active=1` |
| DebugCards.ListCardsMembers | gfx.py:99-106 | the listed indices are exactly the qualifying debugfs directories |
| DebugCards.PickPrimary | gfx.py:108-111 | there is no primary card exactly when the listing is None or empty; otherwise it is a listed index no larger than any other |
| DebugCards.PrimaryIsSmallest | drm.py:118-121 | the primary card is the smallest qualifying index, and there is none exactly when nothing qualifies or the listing was refused |
| VBlank.ReadInt | gfx.py:121-126 | an integer is read only from a readable file; no integer means the text has no digit; an integer read is the value of the text's first run of digits |
| VBlank.ReadIntOfRun | gfx.py:121-126 | a readable file whose text has a first run of digits, leading zeros included, reads as that run's value |
| Text.FirstInt | gfx.py:125-126 | the search for `(\d+)` finds nothing exactly when there is no digit, and otherwise yields the value of the first maximal run of digits |
| Text.FirstIntOfRun | gfx.py:125-126 | whatever the first run of digits is, the search yields its value |
| Text.FirstRunUnique | gfx.py:125 | a text has at most one first maximal run of digits, so the match is determined |
| VBlank.ReadIntOfDecimal | gfx.py:121-126 | a file holding a decimal number reads back as that number |
| VBlank.Pass | gfx.py:155-165 | a pass records exactly the counters that read as integers, with their values |
| VBlank.Deltas | gfx.py:167-171 | the deltas cover exactly the counters read on both passes, each the second value minus the first |
| VBlank.VBlankProbe | gfx.py:128-173 | the probe is supported exactly when the card directory exists and some CRTC has a counter file; the deltas are exactly the second read minus the first, for the counters readable both times |
| Flips.ExtractRendered | gfx.py:184-188 | the ids written as `fb=<n>` separated by spaces are extracted back in order |
| Flips.FbTextMatch | gfx.py:184 | `fb=<digits>` followed by a non-word character matches with its number |
| Flips.FbSetEq | gfx.py:203-211 | two states give equal sorted fb sets exactly when they mention the same ids |
| Flips.FlipProbe | gfx.py:190-214 | the probe is supported exactly when the first state read succeeds; it then reports the requested samples and counts at most one flip per later sample |
| Flips.FlipsAreChanges | gfx.py:203-213 | the flip count is the number of changes between consecutive fb sets of the readable samples |
| Flips.ScanIsChanges | gfx.py:204-213 | the sampling loop counts exactly the changes between consecutive sets |
| Flips.FlipsStopAtGap | gfx.py:207-209 | an unreadable sample ends the sampling, so later reads change nothing |
| Flips.Changes | gfx.py:210-213 | there are at most one fewer changes than sets |
| Psr.BoolFromLine | gfx.py:227-234 | a line reads False exactly when it holds a negative word, True exactly when it holds a positive word and no negative one, and None otherwise |
| Psr.AnyWords | gfx.py:230-232 | testing a line against the positive, veto and negative word lists with `any` is the same as the positive and negative tests |
| Psr.ProbeFindings | gfx.py:253-274 | `psr_enabled` comes from the first PSR-enable line that reads a boolean; `psr_active` and the ALPM hint come from the last line that sets each |
| Psr.ScanEnabled | gfx.py:257-260 | the first PSR-enable line with a boolean decides `psr_enabled` and later lines do not change it |
| Psr.ScanActive | gfx.py:261-266 | the last PSR line that sets "active" decides `psr_active` |
| Psr.ScanAlpm | gfx.py:269-274 | the last ALPM line that sets the hint decides it |
| Psr.EnabledSticks | gfx.py:259 | once `psr_enabled` is set, no later line changes it |
| Psr.ActiveSignal | gfx.py:261-266 | a PSR line sets "active" False exactly when it says inactive or not active, and True exactly when it says active and neither of those; any other line sets nothing, and a line passing only through "state" is one of them |
| Psr.AlpmSignal | gfx.py:269-274 | only a line mentioning `alpm` sets the hint: False exactly when it says disable or off, otherwise True exactly when it says enable, active or on |
| Psr.KeywordLines | gfx.py:277-278 | the excerpt candidates are lines of the file that mention one of the keywords, and every such line is one |
| Psr.KeywordLinesInOrder | gfx.py:277-278 | the candidates are every keyword line of the file, each once, in the file's order |
| Seqs.FilterInOrder | gfx.py:285-289 | a filtering comprehension keeps every element that passes, each once, in the order of the input |
| Psr.ExcerptLines | gfx.py:276-280 | the excerpt is the first 60 keyword lines, joined by newlines |
| Psr.PsrProbe | gfx.py:242-246 | the probe is supported exactly when the status file is readable, and it is all-unknown otherwise |
| Psr.FirstSome | gfx.py:259-260 | the first known value, None exactly when all are unknown |
| Psr.LastSome | gfx.py:264-274 | the last known value, None exactly when all are unknown |
| Psr.PsrOkIff | drm.py:292-330 | `drm.py` judges PSR/ALPM normal exactly when the file is missing or neither the last "active" line nor the last ALPM line sets its flag to True |
| Trace.ExistsEnableFile | drm.py:130-136 | a name without `:` names no event, and a found event is one whose enable file exists and whose `<category>:<name>` is the name |
| Trace.EnableFileOfName | drm.py:130-136 | `<category>:<name>` finds its event exactly when the enable file exists |
| Trace.DisableAll | drm.py:138-156 | the count is the number of drm enable files; afterwards every drm event is off unless its write is refused, and nothing else changes |
| Trace.CountTraceLines | drm.py:158-170 | the count is -1 exactly when `trace` cannot be read, and otherwise its number of lines |
| Trace.Run | drm.py:195-208 | a run of writes performs a prefix of the plan, and stops exactly at the first refused write, which raises PermissionError |
| Trace.RunSwitches | drm.py:199-203 | after the writes, an event is on exactly when it was on before or one of the performed writes switched it on |
| Trace.Existing | drm.py:198-203 | the events enabled are exactly the requested events whose enable file exists |
| Trace.ExistingInOrder | drm.py:198-203 | each such event is enabled once, in request order |
| Trace.EnableWrites | drm.py:199-203 | each existing event gets one write of `1` to its enable file, in order |
| Trace.Capture | drm.py:183-185 | the capture reports "not mounted" exactly when tracefs is absent |
| Trace.CaptureWrites | drm.py:187-228 | a completed capture performed the whole plan, left tracing off, and reports the number of lines of the trace; a refused one performed a prefix of the plan |
| Trace.CapturedCleansUp | drm.py:213-216 | after a completed capture with clean-up, every drm event whose switch can be written is off |
| Trace.CaptureDenied | drm.py:226-228 | a refused write ends the capture with the writes done and the switch state at that point |
| Trace.RunLeavesOn | drm.py:199-203 | an event a performed write switched on stays on after the run |
| Trace.LeakWitness | drm.py:195-228 | with two drm events where the second's switch is refused, the capture aborts with the first left switched on |
| Trace.CaptureDrmTrace | drm.py:172-228 | the capture with clean-up on every exit. It writes nothing when tracefs is absent. A refused write ends it after a prefix of the plan, and a completed capture performed the whole plan and left tracing off. With clean-up, whatever the exit, every drm event is off afterwards unless its enable file refuses writes |
| Trace.CaptureScoped | drm.py:172-228 | the corrected capture reports "not mounted" exactly when tracefs is absent |
| Trace.ScopedCleansUp | drm.py:213-216 | the corrected capture, which cleans up on every exit, leaves every drm event off unless its switch cannot be written and it was on before |
| Trace.VerdictAgrees | drm.py:568-572 | the pass/fail verdict on the corrected capture equals the verdict on the capture as written, for every tracefs state |
| Trace.ScopedAgrees | drm.py:172-224 | the corrected capture agrees with the original whenever the original completes |
| Assoc.LastWins | gfx.py:82-87 | assigning pairs into a dict in order leaves each key with the value of its last pair |
| Seqs.SortedSet | gfx.py:203 | `sorted(set(xs))` is strictly increasing and has exactly the elements of xs |
| Seqs.SortedSetEq | gfx.py:210-211 | two such lists are equal exactly when they have the same elements |
| Seqs.Sort | gfx.py:106 | `sorted` returns an ordered permutation |
| Evidence.CountStatesAppend | gfx.py:500-501 | connector-state lines add up across concatenated evidence |
| Evidence.ConcatStates | gfx.py:489-501 | the state lines of concatenated blocks sum the blocks' counts |

## Left out

- I/O is not modelled. Every file, directory listing, symlink and stat result is an input in the `Snapshot`, and every write to tracefs is a step of the `TraceFs` state. The order of a sysfs or `/dev/dri` listing is taken as given, already sorted.
- Byte decoding is not modelled: `decode(errors="replace")` and Unicode case and space rules are replaced by one character per byte and ASCII `lower`, `\d` and `\w`.
- Sleeps and timing (`interval_s`, `duration_s`) are left out. Successive reads of a file are separate inputs.
- The regular-expression engine is left out. `grep_lines` takes the search predicate as a parameter, and the fixed patterns (`card\d+`, `\bfb=([0-9]+)\b`, `(\d+)`) are written out by hand.
- The printed text is not modelled: the wording of lines, the `, `-joined lists, the identity "brief" and the details strings. Each evidence item keeps its severity and the data it reports.
- `run`, `which`, `is_root`, `bullet` and `ensure_debugfs_ready` are left out, as are `run_flow_nomodeset` and `main`. These are the nomodeset flow, `dmesg`/`journalctl` reading and argument parsing, and they lie outside the KMS core.
- Some paths in `drm.py` would raise `NameError`: the undefined `lines` in the gate returns, and `TraceCaptureResult` and `FlipResult` when tracefs is absent or the state file is unreadable. `drm.py` also returns a bare `2` and a bare `return` on two paths, and `gfx.py` a bare `return 2` (gfx.py:520), which `main` could not unpack. The model reads each as its evident intent: exit code 2 with the evidence so far, and a failed check for the unconstructible results. At gfx.py:518-520 that evidence also includes the no-debugfs-card warning printed just before the return.
- `gfx.py` never defines `DRI_DEBUGFS`, which it uses at gfx.py:95, 100, 137, 198 and 242, and never imports `time`, which it uses at gfx.py:160 and 206. As written, every `gfx.py` run that passes the gates stops with a `NameError` in `list_dri_debug_cards` (gfx.py:100) at step 6. The whole `gfx.py` runtime step of the model is therefore its evident intent, with `DRI_DEBUGFS` as `drm.py` defines it (`/sys/kernel/debug/dri`).
- Trace.Capture: only `PermissionError` is modelled among the write failures. Other exceptions in the trace writes and a failing `iterdir` in `gfx.py`'s card listing are not modelled. The `read_trace` excerpt and `max_chars` are also left out, because the flow uses only the line count.
- DebugCards.ListCards: `gfx.py` has no handler for a refused dri directory (debugfs is readable by root only), so there the `PermissionError` would end the run. The model gives both variants `drm.py`'s outcome, None, which means no primary card and exit code 2.
- Pipeline.FlowPasses: the model keeps one evidence list, in the order in which `drm.py` prints as it goes. In `gfx.py`, step 6 prints its items during the run: the no-debugfs-card warning (gfx.py:519) and the three probe reports (gfx.py:522-529). `main` prints the returned lines only afterwards (gfx.py:555-556), so in `gfx.py`'s output those step-6 items come first, not last. The interleaving of the two output channels is not modelled.
- Pipeline.Probes: debugfs card directories are looked up by `str(card)`, so a directory named `007` is listed as card 7 and then probed under `7`, which the model treats as absent.
- Flips.FlipProbe: `samples` is the argument. The flow passes 10, and the stated bounds hold for every value, including those below 1, where the loop does not run.

## Findings

The runtime step of the flow uses the corrected capture, `Trace.CaptureScoped`. Its verdict agrees with the capture as written on every input: both complete on the same inputs, and then they agree (`Trace.VerdictAgrees`).

| source | as written | input that shows it | evidently intended | confidence | as-written member | corrected member |
|---|---|---|---|---|---|---|
| drm.py:195-228 | a `PermissionError` raised by an enable write skips the clean-up `disable_all_drm_events`, so the events enabled so far stay switched on | mounted tracefs with events `drm:a` and `drm:b`, where writing `drm:b`'s enable file is refused: the capture aborts and `drm:a` remains enabled | clean-up runs on every exit once tracefs is mounted (a `finally`) | medium, not executed | Trace.LeakWitness | Trace.CaptureDrmTrace |

=== FILE: assoc.dfy ===
/**
  Building a dictionary by assigning key/value pairs in order, as the
  diagnostic does with `out[k] = v` inside a loop: a later assignment to
  the same key overwrites an earlier one.
*/
module Assoc {

  /** The dictionary left by assigning every pair in order. */
  function Assign<K, V>(pairs: seq<(K, V)>): (m: map<K, V>)
    ensures m.Keys == set i | 0 <= i < |pairs| :: pairs[i].0
    decreases |pairs|
  {
    if pairs == [] then map[]
    else
      var n := |pairs| - 1;
      var prefix := pairs[..n];
      assert forall i :: 0 <= i < n ==> prefix[i] == pairs[i];
      Assign(prefix)[pairs[n].0 := pairs[n].1]
  }

  /** The value a key ends with is the one its last assignment wrote. */
  lemma {:induction false} LastWins<K, V>(pairs: seq<(K, V)>, i: nat)
    requires i < |pairs|
    requires forall j :: i < j < |pairs| ==> pairs[j].0 != pairs[i].0
    ensures pairs[i].0 in Assign(pairs) && Assign(pairs)[pairs[i].0] == pairs[i].1
    decreases |pairs|
  {
    var n := |pairs| - 1;
    if i < n {
      var prefix := pairs[..n];
      assert prefix[i] == pairs[i];
      LastWins(prefix, i);
    }
  }
}

=== FILE: cmdline.dfy ===
/**
  Kernel command-line parsing: `parse_cmdline` (gfx.py:78-89,
  drm.py:76-87). The read of /proc/cmdline is an input.
*/
module Cmdline {
  import opened Wrappers
  import opened Text
  import opened Reader
  import Assoc

  /** The key reserved for the whole command line. */
  const RawKey: string := "_raw"

  /** The position of the first "=" in a token, or its length. */
  function EqualsAt(t: string): nat {
    FirstIn(t, Exactly('='))
  }

  /** One token as a dictionary entry: `k=v` splits at its first "=",
      a bare word stands for "1". */
  function Entry(t: string): (kv: (string, string))
    ensures EqualsAt(t) < |t| ==> t == kv.0 + "=" + kv.1 && !Contains(kv.0, "=")
    ensures EqualsAt(t) == |t| ==> kv == (t, "1")
  {
    if EqualsAt(t) < |t| then
      var kv := SplitFirst(t, '=');
      NoCharNotContained(kv.0, '=');
      kv
    else
      (t, "1")
  }

  /** A string without the character `c` does not contain "c". */
  lemma {:induction false} NoCharNotContained(s: string, c: char)
    requires forall j :: 0 <= j < |s| ==> s[j] != c
    ensures !Contains(s, [c])
    decreases |s|
  {
    if s != [] {
      assert s[..1] != [c] by { assert s[..1][0] == s[0]; }
      NoCharNotContained(s[1..], c);
    }
  }

  function Entries(toks: seq<string>): (kvs: seq<(string, string)>)
    ensures |kvs| == |toks|
    ensures forall i :: 0 <= i < |toks| ==> kvs[i] == Entry(toks[i])
  {
    seq(|toks|, i requires 0 <= i < |toks| => Entry(toks[i]))
  }

  /** The command line as read: empty when /proc/cmdline cannot be read. */
  function CmdlineText(procCmdline: FileRead): string {
    ReadText(procCmdline, MaxBytes).GetOr("")
  }

  /** The keys the tokens name. */
  function TokenKeys(toks: seq<string>): set<string> {
    set i | 0 <= i < |toks| :: Entry(toks[i]).0
  }

  /** The tokens' entries assigned left to right. */
  function AssignTokens(toks: seq<string>): (m: map<string, string>)
    ensures m.Keys == TokenKeys(toks)
  {
    var kvs := Entries(toks);
    var m := Assoc.Assign(kvs);
    assert forall i :: 0 <= i < |toks| ==> kvs[i].0 == Entry(toks[i]).0;
    m
  }

  /** A command line parsed: one entry per whitespace-separated token,
      assigned left to right, then "_raw" set to the whole line. */
  function ParseLine(raw: string): (m: map<string, string>)
    ensures RawKey in m && m[RawKey] == raw
    ensures m.Keys == {RawKey} + TokenKeys(Tokens(raw))
  {
    AssignTokens(Tokens(raw))[RawKey := raw]
  }

  /** `parse_cmdline`: the parsed text of /proc/cmdline. */
  function ParseCmdline(procCmdline: FileRead): map<string, string> {
    ParseLine(CmdlineText(procCmdline))
  }

  /** For duplicate keys the last occurrence wins; "_raw" is never
      overwritten by a token of that name. */
  lemma LastOccurrenceWins(raw: string, i: nat)
    requires i < |Tokens(raw)|
    requires Entry(Tokens(raw)[i]).0 != RawKey
    requires forall j :: i < j < |Tokens(raw)| ==> Entry(Tokens(raw)[j]).0 != Entry(Tokens(raw)[i]).0
    ensures var kv := Entry(Tokens(raw)[i]);
            kv.0 in ParseLine(raw) && ParseLine(raw)[kv.0] == kv.1
  {
    var toks := Tokens(raw);
    var kvs := Entries(toks);
    assert forall j :: i < j < |kvs| ==> kvs[j].0 != kvs[i].0;
    Assoc.LastWins(kvs, i);
  }

  /** A command line written as space-separated words parses word by word:
      the last `k=v` word for a key gives its value, a bare word maps to "1". */
  lemma ParseJoinedWords(words: seq<string>, i: nat)
    requires Words(words)
    requires |Join(words, " ")| <= MaxBytes
    requires i < |words|
    requires Entry(words[i]).0 != RawKey
    requires forall j :: i < j < |words| ==> Entry(words[j]).0 != Entry(words[i]).0
    ensures var m := ParseCmdline(Content(Join(words, " ")));
            && m[RawKey] == Join(words, " ")
            && Entry(words[i]).0 in m
            && m[Entry(words[i]).0] == (if Contains(words[i], "=") then Entry(words[i]).1 else "1")
  {
    var line := Join(words, " ");
    JoinedWordsStripped(words);
    ReadTextRoundTrip(line, MaxBytes);
    TokensJoin(words);
    assert CmdlineText(Content(line)) == line;
    LastOccurrenceWins(line, i);
    BareWord(words[i]);
  }

  /** A word reads as a bare flag exactly when it holds no "=". */
  lemma BareWord(t: string)
    ensures !Contains(t, "=") ==> Entry(t) == (t, "1")
    ensures Contains(t, "=") ==> EqualsAt(t) < |t|
  {
    if EqualsAt(t) < |t| {
      ContainsAt(t, "=", EqualsAt(t));
    } else {
      NoCharNotContained(t, '=');
    }
  }

  /** Space-joined words neither begin nor end with whitespace. */
  lemma {:induction false} JoinedWordsStripped(words: seq<string>)
    requires Words(words)
    ensures var s := Join(words, " ");
            s == [] || (!IsSpace(s[0]) && !IsSpace(s[|s| - 1]))
    decreases |words|
  {
    if |words| > 1 {
      var rest := Join(words[1..], " ");
      JoinedWordsStripped(words[1..]);
      JoinNonEmpty(words[1..]);
      var s := words[0] + " " + rest;
      assert s[0] == words[0][0];
      assert s[|s| - 1] == rest[|rest| - 1];
    }
  }

  /** Joining at least one non-empty word gives a non-empty line. */
  lemma JoinNonEmpty(words: seq<string>)
    requires |words| >= 1 && words[0] != []
    ensures Join(words, " ") != []
  {
  }
}

=== FILE: connectors.dfy ===
/**
  Step 5 of the KMS flow: `connector_info` and the classification of
  every connector of every card (gfx.py:333-345, gfx.py:487-514,
  drm.py:382-394, drm.py:533-560).
*/
module Connectors {
  import opened Wrappers
  import opened Text
  import opened Reader
  import opened Topology
  import opened Evidence

  /** What the classification looks at: the trimmed status, the mode
      lines, the reported EDID size and the trimmed link status. A file
      that cannot be read counts as empty. */
  datatype ConnInfo = ConnInfo(name: string, status: string, modes: seq<string>, edidBytes: string, link: string)

  /** `edid_bytes`: the size of `edid`, "?" when `stat` fails, and "0"
      (the default of the lookup) when there is no `edid`. */
  function EdidBytes(e: Edid): (r: string)
    ensures r != ""
  {
    match e
    case NoEdid => "0"
    case EdidSize(n) => DecimalString(n)
    case EdidStatError => "?"
  }

  /** The EDID sizes the flow warns about. */
  const SuspiciousEdids: set<string> := {"0", "", "?"}

  /** The EDID warning fires exactly for a missing or empty `edid` or a
      failed `stat`: a size is never rendered as "" or "?", and only zero
      renders as "0". */
  lemma SuspiciousEdidIff(e: Edid)
    ensures EdidBytes(e) in SuspiciousEdids <==> e == NoEdid || e == EdidSize(0) || e == EdidStatError
  {
    if e.EdidSize? {
      var d := DecimalString(e.bytes);
      assert IsDigit(d[0]);
      if d == "0" {
        assert d[0] == '0';
      }
    }
  }

  /** `connector_info` followed by the normalisation the flow applies. */
  function ConnectorInfo(c: SysEntry): ConnInfo {
    ConnInfo(
      c.name,
      Strip(TextOf(c.files, "status").GetOr("")),
      SplitLines(TextOf(c.files, "modes").GetOr("")),
      EdidBytes(c.edid),
      Strip(TextOf(c.files, "link_status").GetOr("")))
  }

  predicate Connected(ci: ConnInfo) {
    ci.status == "connected"
  }

  /** A link status that is reported and not "good" in any case. */
  predicate LinkBad(link: string) {
    link != "" && Lower(link) != "good"
  }

  /** The items for one connector: its state, then for a connected one
      the missing modes, the suspicious EDID size and the bad link. */
  function ConnectorEvidence(p: Policy, ci: ConnInfo): (ev: seq<Evidence>)
    ensures 1 <= |ev| <= 4
    ensures ev[0] == Evidence(Info, ConnectorState(ci.name, ci.status, ci.edidBytes, |ci.modes|, ci.link))
    ensures CountStates(ev) == 1
    ensures !Connected(ci) ==> |ev| == 1
    ensures Evidence(p.noModes, NoModes(ci.name)) in ev <==> Connected(ci) && |ci.modes| == 0
    ensures Evidence(Warn, SuspiciousEdid(ci.name, ci.edidBytes)) in ev <==>
      Connected(ci) && ci.edidBytes in SuspiciousEdids
    ensures Evidence(p.badLink, LinkNotGood(ci.name, ci.link)) in ev <==> Connected(ci) && LinkBad(ci.link)
  {
    var state := Evidence(Info, ConnectorState(ci.name, ci.status, ci.edidBytes, |ci.modes|, ci.link));
    if !Connected(ci) then [state]
    else
      var noModes := if |ci.modes| == 0 then [Evidence(p.noModes, NoModes(ci.name))] else [];
      var edid := if ci.edidBytes in SuspiciousEdids then [Evidence(Warn, SuspiciousEdid(ci.name, ci.edidBytes))] else [];
      var link := if LinkBad(ci.link) then [Evidence(p.badLink, LinkNotGood(ci.name, ci.link))] else [];
      var tail := noModes + edid + link;
      assert CountStates(tail) == 0;
      [state] + tail
  }

  /** The information of each connector, in listing order. */
  function Infos(conns: seq<SysEntry>): (r: seq<ConnInfo>)
    ensures |r| == |conns|
    ensures forall j :: 0 <= j < |conns| ==> r[j] == ConnectorInfo(conns[j])
  {
    seq(|conns|, j requires 0 <= j < |conns| => ConnectorInfo(conns[j]))
  }

  /** The items for a card's connectors, in listing order. */
  function ConnsEvidence(p: Policy, infos: seq<ConnInfo>): (ev: seq<Evidence>) {
    Concat(seq(|infos|, j requires 0 <= j < |infos| => ConnectorEvidence(p, infos[j])))
  }

  /** The items for one card: its connectors, or the empty-card line the
      policy asks for. */
  function CardConnectors(p: Policy, listing: seq<SysEntry>, card: SysEntry): seq<Evidence> {
    var conns := ConnectorsOf(listing, card.name);
    if conns == [] then
      if p.emptyCard.Some? then [Evidence(p.emptyCard.value, NoConnectors(card.name))] else []
    else ConnsEvidence(p, Infos(conns))
  }

  /** The items of each card, in card order. */
  function CardBlocks(p: Policy, listing: seq<SysEntry>, cards: seq<SysEntry>): (r: seq<seq<Evidence>>)
    ensures |r| == |cards|
    ensures forall i :: 0 <= i < |cards| ==> r[i] == CardConnectors(p, listing, cards[i])
  {
    seq(|cards|, i requires 0 <= i < |cards| => CardConnectors(p, listing, cards[i]))
  }

  /** The items for every card, in card order. */
  function CardsEvidence(p: Policy, listing: seq<SysEntry>, cards: seq<SysEntry>): seq<Evidence> {
    Concat(CardBlocks(p, listing, cards))
  }

  /** Some connector of the card reports "connected". */
  predicate CardConnected(listing: seq<SysEntry>, card: SysEntry) {
    exists c :: c in ConnectorsOf(listing, card.name) && Connected(ConnectorInfo(c))
  }

  /** Some connector of some card reports "connected". */
  predicate AnyConnected(listing: seq<SysEntry>, cards: seq<SysEntry>) {
    exists i :: 0 <= i < |cards| && CardConnected(listing, cards[i])
  }

  /** Step 5: the per-card items and the overall connection verdict. */
  function ConnectorSection(p: Policy, listing: seq<SysEntry>, cards: seq<SysEntry>): (ev: seq<Evidence>)
    ensures ev != []
    ensures ev[|ev| - 1] ==
      if AnyConnected(listing, cards) then Evidence(Pass, SomeConnected) else Evidence(p.noneConnected, NoneConnected)
  {
    CardsEvidence(p, listing, cards)
      + [if AnyConnected(listing, cards) then Evidence(Pass, SomeConnected) else Evidence(p.noneConnected, NoneConnected)]
  }

  // ------------------------------------------------------------------
  // One state line per connector
  // ------------------------------------------------------------------

  /** The number of connectors of each card. */
  function ConnectorCounts(listing: seq<SysEntry>, cards: seq<SysEntry>): (r: seq<nat>)
    ensures |r| == |cards|
    ensures forall i :: 0 <= i < |cards| ==> r[i] == |ConnectorsOf(listing, cards[i].name)|
  {
    seq(|cards|, i requires 0 <= i < |cards| => |ConnectorsOf(listing, cards[i].name)|)
  }

  /** A connector list gives one state line per connector. */
  lemma ConnsStates(p: Policy, infos: seq<ConnInfo>)
    ensures CountStates(ConnsEvidence(p, infos)) == |infos|
  {
    var blocks := seq(|infos|, j requires 0 <= j < |infos| => ConnectorEvidence(p, infos[j]));
    var ones := seq(|infos|, j => 1);
    ConcatStates(blocks, ones);
    SumOnes(ones);
  }

  lemma {:induction false} SumOnes(ones: seq<nat>)
    requires forall j :: 0 <= j < |ones| ==> ones[j] == 1
    ensures Sum(ones) == |ones|
    decreases |ones|
  {
    if ones != [] {
      SumOnes(ones[1..]);
    }
  }

  /** A card's state lines number its connectors. */
  lemma CardStates(p: Policy, listing: seq<SysEntry>, card: SysEntry)
    ensures CountStates(CardConnectors(p, listing, card)) == |ConnectorsOf(listing, card.name)|
  {
    var conns := ConnectorsOf(listing, card.name);
    if conns != [] {
      ConnsStates(p, Infos(conns));
    }
  }

  /** Every connector gets exactly one state line, whatever the policy;
      a card without connectors gets none. */
  lemma SectionStates(p: Policy, listing: seq<SysEntry>, cards: seq<SysEntry>)
    ensures CountStates(ConnectorSection(p, listing, cards)) == Sum(ConnectorCounts(listing, cards))
  {
    var blocks := CardBlocks(p, listing, cards);
    forall i | 0 <= i < |cards| ensures CountStates(blocks[i]) == ConnectorCounts(listing, cards)[i] {
      CardStates(p, listing, cards[i]);
    }
    ConcatStates(blocks, ConnectorCounts(listing, cards));
    var last := if AnyConnected(listing, cards) then Evidence(Pass, SomeConnected) else Evidence(p.noneConnected, NoneConnected);
    CountStatesAppend(CardsEvidence(p, listing, cards), [last]);
    assert CountStates([last]) == 0;
  }

  /** Every connector of a card contributes its items to the card's
      items, the connected-only warnings included. */
  lemma ConnectorInCard(p: Policy, listing: seq<SysEntry>, card: SysEntry, j: nat, e: Evidence)
    requires j < |ConnectorsOf(listing, card.name)|
    requires e in ConnectorEvidence(p, ConnectorInfo(ConnectorsOf(listing, card.name)[j]))
    ensures e in CardConnectors(p, listing, card)
  {
    ConnectorInConns(p, Infos(ConnectorsOf(listing, card.name)), j, e);
  }

  lemma ConnectorInConns(p: Policy, infos: seq<ConnInfo>, j: nat, e: Evidence)
    requires j < |infos| && e in ConnectorEvidence(p, infos[j])
    ensures e in ConnsEvidence(p, infos)
  {
    ConcatHas(seq(|infos|, k requires 0 <= k < |infos| => ConnectorEvidence(p, infos[k])), j, e);
  }

  /** Every card contributes its items to the section. */
  lemma CardInSection(p: Policy, listing: seq<SysEntry>, cards: seq<SysEntry>, i: nat, e: Evidence)
    requires i < |cards| && e in CardConnectors(p, listing, cards[i])
    ensures e in ConnectorSection(p, listing, cards)
  {
    ConcatHas(CardBlocks(p, listing, cards), i, e);
  }

  /** A card without connectors adds the policy's empty-card line, and
      nothing when the policy skips such cards. */
  lemma EmptyCardLine(p: Policy, listing: seq<SysEntry>, card: SysEntry)
    requires ConnectorsOf(listing, card.name) == []
    ensures CardConnectors(p, listing, card) ==
      if p.emptyCard.Some? then [Evidence(p.emptyCard.value, NoConnectors(card.name))] else []
  {
  }

  /** Under a soft policy no connector item is a failure. */
  lemma ConnectorSoft(p: Policy, ci: ConnInfo)
    requires SoftPolicy(p)
    ensures Avoids(ConnectorEvidence(p, ci), Fail)
  {
  }

  lemma CardSoft(p: Policy, listing: seq<SysEntry>, card: SysEntry)
    requires SoftPolicy(p)
    ensures Avoids(CardConnectors(p, listing, card), Fail)
  {
    var infos := Infos(ConnectorsOf(listing, card.name));
    var blocks := seq(|infos|, j requires 0 <= j < |infos| => ConnectorEvidence(p, infos[j]));
    forall j | 0 <= j < |blocks| ensures Avoids(blocks[j], Fail) {
      ConnectorSoft(p, infos[j]);
    }
    ConcatAvoids(blocks, Fail);
  }

  /** Under a soft policy the connector section fails nothing: a missing
      mode, a bad link or no connection at all only warn. */
  lemma SectionSoft(p: Policy, listing: seq<SysEntry>, cards: seq<SysEntry>)
    requires SoftPolicy(p)
    ensures Avoids(ConnectorSection(p, listing, cards), Fail)
  {
    var blocks := CardBlocks(p, listing, cards);
    forall i | 0 <= i < |blocks| ensures Avoids(blocks[i], Fail) {
      CardSoft(p, listing, cards[i]);
    }
    ConcatAvoids(blocks, Fail);
  }
}

=== FILE: debugcards.dfy ===
/**
  The debugfs card listing and the primary-card choice:
  `list_dri_debug_cards` and `pick_primary_card` (gfx.py:99-111,
  drm.py:97-121).

  The listing of `/sys/kernel/debug/dri` is an input: absent, refused
  (debugfs is readable by root only, so testing or listing the directory
  fails for lack of permission), or its entries with the outcome of
  reading each entry's `state` file. `gfx.py` keeps every directory with
  an all-digit name; `drm.py` keeps only those whose `state` mentions
  `active=1`, and gives up on the whole listing (returns None) when the
  directory or a `state` file cannot be opened for lack of permission.
*/
module DebugCards {
  import opened Wrappers
  import opened Text
  import Seqs
  import opened Reader

  /** An entry of the dri debugfs directory. */
  datatype DebugEntry = DebugEntry(name: string, isDir: bool, state: FileRead)

  /** The dri debugfs directory as the listing finds it. */
  datatype DriListing =
    | DriAbsent                            // not a directory
    | DriRefused                           // testing or listing it is refused
    | DriEntries(entries: seq<DebugEntry>) // its entries, in directory order

  /** `str.isdigit` on a name (ASCII digits). */
  predicate IsIndexName(name: string) {
    name != [] && AllDigits(name)
  }

  /** A `state` text marking the card active. */
  predicate IsActive(state: FileRead) {
    state.Content? && Contains(state.data, "active=1")
  }

  /** An entry that names a card index. */
  predicate IsCardDir(e: DebugEntry) {
    e.isDir && IsIndexName(e.name)
  }

  /** An entry the listing keeps; `activeOnly` selects the `drm.py`
      variant. A missing `state` file counts as inactive. */
  predicate Kept(e: DebugEntry, activeOnly: bool) {
    IsCardDir(e) && (!activeOnly || IsActive(e.state))
  }

  /** A card directory whose `state` cannot be opened: the `drm.py`
      variant stops there. */
  predicate Denied(e: DebugEntry) {
    IsCardDir(e) && e.state.Unreadable?
  }

  /** `int(name)` of a kept entry. */
  function IndexOf(e: DebugEntry): nat
    requires IsCardDir(e)
  {
    DigitsValue(e.name)
  }

  /** The index is listed by some kept entry. */
  predicate Listed(entries: seq<DebugEntry>, activeOnly: bool, n: nat) {
    exists i :: 0 <= i < |entries| && Kept(entries[i], activeOnly) && IndexOf(entries[i]) == n
  }

  /** The indices of the kept entries, in directory order. */
  function Indices(entries: seq<DebugEntry>, activeOnly: bool): (r: seq<nat>)
    ensures |r| <= |entries|
    decreases |entries|
  {
    if entries == [] then []
    else
      var n := |entries| - 1;
      Indices(entries[..n], activeOnly) + (if Kept(entries[n], activeOnly) then [IndexOf(entries[n])] else [])
  }

  /** The collected indices are exactly those of the kept entries. */
  lemma {:induction false} IndicesListed(entries: seq<DebugEntry>, activeOnly: bool, x: nat)
    ensures x in Indices(entries, activeOnly) <==> Listed(entries, activeOnly, x)
    decreases |entries|
  {
    if entries != [] {
      var n := |entries| - 1;
      var front := entries[..n];
      IndicesListed(front, activeOnly, x);
      if Listed(front, activeOnly, x) {
        var i :| 0 <= i < |front| && Kept(front[i], activeOnly) && IndexOf(front[i]) == x;
        assert entries[i] == front[i];
      }
      if Listed(entries, activeOnly, x) {
        var i :| 0 <= i < |entries| && Kept(entries[i], activeOnly) && IndexOf(entries[i]) == x;
        if i < n {
          assert front[i] == entries[i];
        }
      }
    }
  }

  /** Some card directory of the listing cannot be opened. */
  predicate AnyDenied(entries: seq<DebugEntry>) {
    exists i :: 0 <= i < |entries| && Denied(entries[i])
  }

  /** `list_dri_debug_cards`: the sorted indices, `[]` without the
      directory, and None when the directory is refused or `activeOnly`
      meets a card directory whose `state` cannot be opened. */
  function ListCards(listing: DriListing, activeOnly: bool): (r: Option<seq<nat>>)
    ensures r.None? <==> listing.DriRefused? || (activeOnly && listing.DriEntries? && AnyDenied(listing.entries))
    ensures listing.DriAbsent? ==> r == Some([])
    ensures r.Some? ==> Seqs.Sorted(r.value)
  {
    match listing
    case DriAbsent => Some([])
    case DriRefused => None
    case DriEntries(entries) =>
      if activeOnly && AnyDenied(entries) then None
      else Some(Seqs.Sort(Indices(entries, activeOnly)))
  }

  /** A successful listing holds exactly the indices of the kept
      entries. */
  lemma ListCardsMembers(entries: seq<DebugEntry>, activeOnly: bool, x: nat)
    requires ListCards(DriEntries(entries), activeOnly).Some?
    ensures x in ListCards(DriEntries(entries), activeOnly).value <==> Listed(entries, activeOnly, x)
  {
    var ids := Indices(entries, activeOnly);
    IndicesListed(entries, activeOnly, x);
    assert x in Seqs.Sort(ids) <==> x in multiset(Seqs.Sort(ids));
    assert x in ids <==> x in multiset(ids);
  }

  /** `pick_primary_card`: the first listed index, or None for an empty
      or failed listing. */
  function PickPrimary(cards: Option<seq<nat>>): (r: Option<nat>)
    ensures r.None? <==> cards.None? || cards.value == []
    ensures r.Some? ==> r.value in cards.value
    ensures r.Some? && Seqs.Sorted(cards.value) ==> forall n :: n in cards.value ==> r.value <= n
  {
    if cards.Some? && cards.value != [] then Some(cards.value[0]) else None
  }

  /** The primary card is the smallest index the listing keeps, and there
      is none exactly when nothing is kept or the listing failed. */
  lemma PrimaryIsSmallest(listing: DriListing, activeOnly: bool)
    ensures var p := PickPrimary(ListCards(listing, activeOnly));
      && (p.None? <==> !listing.DriEntries? || (activeOnly && AnyDenied(listing.entries))
                       || forall x: nat :: !Listed(listing.entries, activeOnly, x))
      && (p.Some? ==> listing.DriEntries? && Listed(listing.entries, activeOnly, p.value)
                      && forall x: nat :: Listed(listing.entries, activeOnly, x) ==> p.value <= x)
  {
    var cards := ListCards(listing, activeOnly);
    if cards.Some? && listing.DriEntries? {
      var entries := listing.entries;
      forall x: nat ensures x in cards.value <==> Listed(entries, activeOnly, x) {
        ListCardsMembers(entries, activeOnly, x);
      }
    }
  }
}

=== FILE: evidence.dfy ===
/**
  The tagged evidence the KMS flow reports, and the two severity
  policies: `gfx.py`'s, which warns about soft problems and reports the
  runtime probes as information, and `drm.py`'s, which fails them and
  judges the probes (gfx.py:418-532, drm.py:466-587).

  Each evidence item is a severity and the thing it is about; the wording
  of the printed lines is not modelled.
*/
module Evidence {
  import opened Wrappers
  import Flips
  import VBlank
  import Psr
  import Trace

  /** `[OK]`/`[PASS]`, `[FAIL]`, `[WARN]` and `[INFO]`. */
  datatype Severity = Pass | Fail | Warn | Info

  /** What an evidence item is about. */
  datatype Subject =
    // the opening line naming the flow
    | FlowKms
    // step 1: /sys/class/drm and the cards
    | SysDrmEmpty
    | SysDrmEntries(names: seq<string>)
    | NoCards
    | CardsFound(names: seq<string>)
    // step 2: drivers, identity, runtime power
    | DriverBound(card: string, driver: string)
    | DriverUnbound(card: string)
    | Identity(card: string, ident: map<string, string>)
    | RuntimePower(card: string, pm: map<string, string>)
    | NoneBound
    // step 3: /dev/dri
    | DevDriEmpty
    | DevDriNodes(nodes: seq<string>)
    | NoCardNode
    | CardNodePresent
    | RenderNodePresent
    | NoRenderNode
    // step 4: module parameters
    | ModesetParams(settings: seq<string>)
    | NvidiaKmsDisabled
    // step 5: connectors
    | NoConnectors(card: string)
    | ConnectorState(conn: string, status: string, edidBytes: string, modes: nat, link: string)
    | NoModes(conn: string)
    | SuspiciousEdid(conn: string, edidBytes: string)
    | LinkNotGood(conn: string, link: string)
    | SomeConnected
    | NoneConnected
    // step 6: runtime probes on the primary debugfs card
    | NoDebugCard
    | TraceReport(capture: Trace.Outcome)
    | FlipsReport(flips: Flips.FlipResult)
    | VBlankReport(vblank: VBlank.VBlankResult)
    | PsrReport(psr: Psr.PsrResult)

  datatype Evidence = Evidence(severity: Severity, subject: Subject)

  /** The severities and choices in which the two variants differ. */
  datatype Policy = Policy(
    unboundCard: Severity,
    missingRender: Severity,
    noModes: Severity,
    badLink: Severity,
    noneConnected: Severity,
    noDebugCard: Severity,
    emptyCard: Option<Severity>,  // None: no line at all
    activeOnly: bool,
    judgeProbes: bool)

  /** `gfx.py`: soft problems warn, every card is probed, probe results
      are printed as information. */
  const GfxPolicy: Policy := Policy(Warn, Warn, Warn, Warn, Warn, Warn, Some(Warn), false, false)

  /** `drm.py`: soft problems fail, cards without connectors are skipped,
      only active debugfs cards are probed and the probes are judged. */
  const DrmPolicy: Policy := Policy(Fail, Fail, Fail, Fail, Fail, Fail, None, true, true)

  /** A policy that fails nothing but the hard gates, as `gfx.py`'s. */
  predicate SoftPolicy(p: Policy) {
    p.unboundCard != Fail && p.missingRender != Fail && p.noModes != Fail && p.badLink != Fail
    && p.noneConnected != Fail && p.noDebugCard != Fail && p.emptyCard != Some(Fail) && !p.judgeProbes
  }

  /** A pass/fail verdict as a severity. */
  function Verdict(ok: bool): Severity {
    if ok then Pass else Fail
  }

  /** Whether an item reports a connector's state. */
  predicate IsConnectorState(e: Evidence) {
    e.subject.ConnectorState?
  }

  /** The number of connector-state items. */
  function CountStates(ev: seq<Evidence>): (n: nat)
    ensures n <= |ev|
    ensures n == 0 <==> forall i :: 0 <= i < |ev| ==> !IsConnectorState(ev[i])
    decreases |ev|
  {
    if ev == [] then 0
    else (if IsConnectorState(ev[0]) then 1 else 0) + CountStates(ev[1..])
  }

  /** Counting distributes over concatenation. */
  lemma {:induction false} CountStatesAppend(a: seq<Evidence>, b: seq<Evidence>)
    ensures CountStates(a + b) == CountStates(a) + CountStates(b)
    decreases |a|
  {
    if a == [] {
      assert a + b == b;
    } else {
      assert (a + b)[0] == a[0];
      assert (a + b)[1..] == a[1..] + b;
      CountStatesAppend(a[1..], b);
    }
  }

  /** The items of consecutive blocks, in block order. */
  function Concat(blocks: seq<seq<Evidence>>): seq<Evidence>
    decreases |blocks|
  {
    if blocks == [] then [] else blocks[0] + Concat(blocks[1..])
  }

  /** An item of a block is an item of the concatenation. */
  lemma {:induction false} ConcatHas(blocks: seq<seq<Evidence>>, i: nat, e: Evidence)
    requires i < |blocks| && e in blocks[i]
    ensures e in Concat(blocks)
    decreases |blocks|
  {
    if i > 0 {
      assert blocks[1..][i - 1] == blocks[i];
      ConcatHas(blocks[1..], i - 1, e);
    }
  }

  function Sum(xs: seq<nat>): nat
    decreases |xs|
  {
    if xs == [] then 0 else xs[0] + Sum(xs[1..])
  }

  /** Blocks whose connector-state counts are `counts` hold their sum. */
  lemma {:induction false} ConcatStates(blocks: seq<seq<Evidence>>, counts: seq<nat>)
    requires |blocks| == |counts|
    requires forall i :: 0 <= i < |blocks| ==> CountStates(blocks[i]) == counts[i]
    ensures CountStates(Concat(blocks)) == Sum(counts)
    decreases |blocks|
  {
    if blocks != [] {
      CountStatesAppend(blocks[0], Concat(blocks[1..]));
      assert forall i :: 0 <= i < |blocks[1..]| ==> blocks[1..][i] == blocks[i + 1] && counts[1..][i] == counts[i + 1];
      ConcatStates(blocks[1..], counts[1..]);
    }
  }

  /** No item has the severity. */
  predicate Avoids(ev: seq<Evidence>, sev: Severity) {
    forall e :: e in ev ==> e.severity != sev
  }

  /** Blocks that avoid a severity concatenate to items that avoid it. */
  lemma {:induction false} ConcatAvoids(blocks: seq<seq<Evidence>>, sev: Severity)
    requires forall i :: 0 <= i < |blocks| ==> Avoids(blocks[i], sev)
    ensures Avoids(Concat(blocks), sev)
    decreases |blocks|
  {
    if blocks != [] {
      assert forall i :: 0 <= i < |blocks[1..]| ==> blocks[1..][i] == blocks[i + 1];
      ConcatAvoids(blocks[1..], sev);
      assert Avoids(blocks[0], sev);
    }
  }
}

=== FILE: flips.dfy ===
/**
  The framebuffer-flip probe: `_extract_fb_ids_from_state` and
  `check_framebuffer_flips` (gfx.py:184-214, drm.py:232-262).

  The successive reads of `dri/<N>/state` are an input: `obs[k]` is what
  `read_text` returned at the k-th read, and a read past the end of the
  sequence is unreadable. The waits between reads are not modelled.
*/
module Flips {
  import opened Wrappers
  import opened Text
  import Seqs

  // ------------------------------------------------------------------
  // The `\bfb=([0-9]+)\b` scanner
  // ------------------------------------------------------------------

  /** The match of `\bfb=([0-9]+)\b` at the start of `r`, if any: the id
      and the length of the match. `afterWord` says whether the character
      before `r` is a word character, which rules out the leading `\b`.
      Backtracking into the digit run cannot help, since no boundary falls
      between two digits, so the longest run decides. */
  function FbMatch(afterWord: bool, r: string): (m: Option<(nat, nat)>)
    ensures m.Some? ==> 3 < m.value.1 <= |r|
  {
    if !afterWord && StartsWith(r, "fb=") then
      var e := DigitRunEnd(r, 3);
      if 3 < e && (e == |r| || !IsWordChar(r[e])) then Some((DigitsValue(r[3..e]), e))
      else None
    else None
  }

  /** `finditer` over `r`: after a match the scan resumes at its end (just
      after a digit), otherwise one character later. */
  function FbIdsAfter(afterWord: bool, r: string): (ids: seq<nat>)
    decreases |r|
  {
    if r == [] then []
    else
      match FbMatch(afterWord, r)
      case Some((id, e)) => [id] + FbIdsAfter(true, r[e..])
      case None => FbIdsAfter(IsWordChar(r[0]), r[1..])
  }

  /** `_extract_fb_ids_from_state`: every `fb=<id>` in order. */
  function ExtractFbIds(s: string): seq<nat> {
    FbIdsAfter(false, s)
  }

  /** The rendering of a framebuffer reference. */
  function FbText(n: nat): string {
    "fb=" + DecimalString(n)
  }

  /** A state text made of framebuffer references separated by spaces. */
  function RenderFbIds(ids: seq<nat>): string
    decreases |ids|
  {
    if ids == [] then ""
    else if |ids| == 1 then FbText(ids[0])
    else FbText(ids[0]) + " " + RenderFbIds(ids[1..])
  }

  /** The end of a digit run is pinned down by the digits and the
      character after them. */
  lemma {:induction false} DigitRunEndAt(s: string, i: nat, j: nat)
    requires i <= j <= |s|
    requires AllDigits(s[i..j])
    requires j < |s| ==> !IsDigit(s[j])
    ensures DigitRunEnd(s, i) == j
    decreases j - i
  {
    if i < j {
      assert s[i] == s[i..j][0];
      assert s[i + 1..j] == s[i..j][1..];
      DigitRunEndAt(s, i + 1, j);
    }
  }

  /** One reference followed by a space and more text: its id comes
      first, then the ids of the rest. */
  lemma FbTextThen(n: nat, rest: string)
    ensures ExtractFbIds(FbText(n) + " " + rest) == [n] + ExtractFbIds(rest)
  {
    var f := FbText(n);
    var s := f + " " + rest;
    FbTextMatch(n, " " + rest);
    assert s == f + (" " + rest);
    var r := s[|f|..];
    assert r == " " + rest;
    assert FbIdsAfter(false, s) == [n] + FbIdsAfter(true, r);
    assert r[1..] == rest;
  }

  /** A reference alone is its id. */
  lemma FbTextAlone(n: nat)
    ensures ExtractFbIds(FbText(n)) == [n]
  {
    var f := FbText(n);
    FbTextMatch(n, "");
    assert f + "" == f;
    assert FbIdsAfter(false, f) == [n] + FbIdsAfter(true, f[|f|..]);
  }

  /** A reference followed by end of text or a non-word character
      matches at the start, up to its end. */
  lemma FbTextMatch(n: nat, q: string)
    requires q == [] || !IsWordChar(q[0])
    ensures FbMatch(false, FbText(n) + q) == Some((n, |FbText(n)|))
  {
    var dec := DecimalString(n);
    var s := FbText(n) + q;
    assert s == "fb=" + dec + q;
    assert s[..3] == "fb=";
    var e := 3 + |dec|;
    assert s[3..e] == dec;
    if e < |s| {
      assert s[e] == q[0];
    }
    DigitRunEndAt(s, 3, e);
  }

  /** Extracting from a rendered list gives the list back. */
  lemma {:induction false} ExtractRendered(ids: seq<nat>)
    ensures ExtractFbIds(RenderFbIds(ids)) == ids
    decreases |ids|
  {
    if |ids| == 1 {
      FbTextAlone(ids[0]);
    } else if |ids| > 1 {
      FbTextThen(ids[0], RenderFbIds(ids[1..]));
      ExtractRendered(ids[1..]);
      assert ids == [ids[0]] + ids[1..];
    }
  }

  // ------------------------------------------------------------------
  // The probe
  // ------------------------------------------------------------------

  /** The probe's report: whether the state file could be read, the
      number of changes seen, and the sample count asked for. */
  datatype FlipResult = FlipResult(supported: bool, flipsSeen: nat, samples: int)

  /** The framebuffers a state text references: `sorted(set(ids))`. */
  function FbSet(text: string): seq<nat> {
    Seqs.SortedSet(ExtractFbIds(text))
  }

  /** Two texts give the same framebuffer set exactly when they reference
      the same ids, whatever the order and the repetitions. */
  lemma FbSetEq(a: string, b: string)
    ensures FbSet(a) == FbSet(b) <==>
      (forall n :: n in ExtractFbIds(a) <==> n in ExtractFbIds(b))
  {
    Seqs.SortedSetEq(ExtractFbIds(a), ExtractFbIds(b));
  }

  /** The k-th read; reads past the observations are unreadable. */
  function Sample(obs: seq<Option<string>>, k: nat): Option<string> {
    if k < |obs| then obs[k] else None
  }

  /** The sampling loop as written: up to `left` more reads from `k`,
      stopping at the first unreadable one, counting a flip whenever the
      set differs from the previous one. */
  function Scan(obs: seq<Option<string>>, k: nat, left: int, prev: seq<nat>, flips: nat): (r: nat)
    ensures flips <= r <= flips + (if left < 0 then 0 else left)
    decreases if left < 0 then 0 else left
  {
    if left <= 0 then flips
    else
      match Sample(obs, k)
      case None => flips
      case Some(t) =>
        var cur := FbSet(t);
        if cur != prev then Scan(obs, k + 1, left - 1, cur, flips + 1)
        else Scan(obs, k + 1, left - 1, prev, flips)
  }

  /** `check_framebuffer_flips` with its result: unsupported with zero
      counts when the first read fails, otherwise the number of changes
      over at most `samples - 1` further reads. */
  function FlipProbe(obs: seq<Option<string>>, samples: int): (r: FlipResult)
    ensures r.supported <==> Sample(obs, 0).Some?
    ensures !r.supported ==> r == FlipResult(false, 0, 0)
    ensures r.supported ==> r.samples == samples
    ensures r.supported && samples >= 1 ==> r.flipsSeen <= samples - 1
    ensures samples <= 1 ==> r.flipsSeen == 0
  {
    match Sample(obs, 0)
    case None => FlipResult(false, 0, 0)
    case Some(t0) => FlipResult(true, Scan(obs, 1, samples - 1, FbSet(t0), 0), samples)
  }

  // ------------------------------------------------------------------
  // Reference definition: changes between adjacent readable samples
  // ------------------------------------------------------------------

  /** The texts read from `k` on: at most `left` of them, up to the first
      unreadable one. */
  function Readable(obs: seq<Option<string>>, k: nat, left: int): (texts: seq<string>)
    ensures |texts| <= (if left < 0 then 0 else left)
    decreases if left < 0 then 0 else left
  {
    if left <= 0 || Sample(obs, k).None? then []
    else [Sample(obs, k).value] + Readable(obs, k + 1, left - 1)
  }

  /** The framebuffer sets of texts. */
  function Sets(texts: seq<string>): (r: seq<seq<nat>>)
    ensures |r| == |texts|
    ensures forall i :: 0 <= i < |texts| ==> r[i] == FbSet(texts[i])
  {
    seq(|texts|, i requires 0 <= i < |texts| => FbSet(texts[i]))
  }

  /** The number of adjacent positions whose sets differ. */
  function Changes(sets: seq<seq<nat>>): (n: nat)
    ensures |sets| >= 1 ==> n <= |sets| - 1
    ensures |sets| <= 1 ==> n == 0
    decreases |sets|
  {
    if |sets| < 2 then 0
    else (if sets[0] != sets[1] then 1 else 0) + Changes(sets[1..])
  }

  /** The loop counts the changes along the readable samples. */
  lemma {:induction false} ScanIsChanges(obs: seq<Option<string>>, k: nat, left: int, prev: seq<nat>, flips: nat)
    ensures Scan(obs, k, left, prev, flips) == flips + Changes([prev] + Sets(Readable(obs, k, left)))
    decreases if left < 0 then 0 else left
  {
    var texts := Readable(obs, k, left);
    if left > 0 && Sample(obs, k).Some? {
      var t := Sample(obs, k).value;
      var cur := FbSet(t);
      var rest := Readable(obs, k + 1, left - 1);
      assert texts == [t] + rest;
      assert Sets(texts) == [cur] + Sets(rest);
      var all := [prev] + Sets(texts);
      assert all[1..] == [cur] + Sets(rest);
      if cur != prev {
        ScanIsChanges(obs, k + 1, left - 1, cur, flips + 1);
      } else {
        ScanIsChanges(obs, k + 1, left - 1, prev, flips);
      }
    }
  }

  /** The probe reports the number of changes between adjacent readable
      samples, the first sample included. */
  lemma FlipsAreChanges(obs: seq<Option<string>>, samples: int)
    requires Sample(obs, 0).Some?
    ensures FlipProbe(obs, samples).flipsSeen ==
      Changes(Sets([Sample(obs, 0).value] + Readable(obs, 1, samples - 1)))
  {
    var t0 := Sample(obs, 0).value;
    ScanIsChanges(obs, 1, samples - 1, FbSet(t0), 0);
    assert Sets([t0] + Readable(obs, 1, samples - 1)) == [FbSet(t0)] + Sets(Readable(obs, 1, samples - 1));
  }

  /** Sampling stops at the first unreadable read: what would have been
      read after it does not matter. */
  lemma {:induction false} ReadableStopsAtGap(obs: seq<Option<string>>, k: nat, left: int, g: nat)
    requires k <= g < |obs| && obs[g].None?
    ensures Readable(obs, k, left) == Readable(obs[..g], k, left)
    decreases if left < 0 then 0 else left
  {
    if left > 0 && Sample(obs, k).Some? {
      assert k != g;
      assert Sample(obs[..g], k) == Sample(obs, k);
      ReadableStopsAtGap(obs, k + 1, left - 1, g);
    }
  }

  /** The probe result depends only on the observations before the first
      unreadable one. */
  lemma FlipsStopAtGap(obs: seq<Option<string>>, samples: int, g: nat)
    requires 1 <= g < |obs| && obs[g].None?
    ensures FlipProbe(obs, samples) == FlipProbe(obs[..g], samples)
  {
    assert Sample(obs[..g], 0) == Sample(obs, 0);
    if Sample(obs, 0).Some? {
      FlipsAreChanges(obs, samples);
      FlipsAreChanges(obs[..g], samples);
      ReadableStopsAtGap(obs, 1, samples - 1, g);
    }
  }

  /** `drm.py` judges the probe by its return value: the count when the
      state file was readable (true when non-zero). The unsupported case
      constructs a result the source never defines, read here as a
      failed check. */
  predicate FlipsPass(r: FlipResult) {
    r.supported && r.flipsSeen != 0
  }
}

=== FILE: grep.dfy ===
/**
  `grep_lines` (gfx.py:66-76, drm.py:64-74): the lines of a text that match
  any of a list of patterns, capped at `max_hits` with a marker. Whether a
  line matches a pattern (a case-insensitive regular-expression search) is
  the parameter `search`.
*/
module Grep {
  import opened Text

  /** Appended once the cap is reached. */
  const MoreMarker: string := "<...more matches truncated...>"

  predicate AnyMatch<P>(line: string, pats: seq<P>, search: (P, string) -> bool) {
    exists k | 0 <= k < |pats| :: search(pats[k], line)
  }

  /** Every matching line, in order: the uncapped reference. */
  function Matching<P>(lines: seq<string>, pats: seq<P>, search: (P, string) -> bool): (r: seq<string>)
    ensures |r| <= |lines|
    decreases |lines|
  {
    if lines == [] then []
    else
      var n := |lines| - 1;
      Matching(lines[..n], pats, search) + (if AnyMatch(lines[n], pats, search) then [lines[n]] else [])
  }

  /** Matching distributes over concatenation of the input. */
  lemma {:induction false} MatchingAppend<P>(a: seq<string>, b: seq<string>, pats: seq<P>, search: (P, string) -> bool)
    ensures Matching(a + b, pats, search) == Matching(a, pats, search) + Matching(b, pats, search)
    decreases |b|
  {
    if b == [] {
      assert a + b == a;
    } else {
      var n := |b| - 1;
      assert (a + b)[..|a + b| - 1] == a + b[..n];
      assert (a + b)[|a + b| - 1] == b[n];
      MatchingAppend(a, b[..n], pats, search);
    }
  }

  /** Each hit is one matching line, in original order, at most once per
      input line. With `maxHits` >= 1 the hits stop at the `maxHits`-th
      match, and exactly then the marker is appended as the last element.
      With `maxHits` < 1 the cap fires after the first line. */
  method GrepLines<P>(text: string, pats: seq<P>, search: (P, string) -> bool, maxHits: int)
    returns (hits: seq<string>)
    ensures var all := Matching(SplitLines(text), pats, search);
            maxHits >= 1 ==>
              if |all| < maxHits then hits == all
              else hits == all[..maxHits] + [MoreMarker]
    ensures var lines := SplitLines(text);
            maxHits < 1 ==>
              hits == if lines == [] then [] else Matching(lines[..1], pats, search) + [MoreMarker]
    ensures maxHits >= 1 ==> |hits| <= maxHits + 1
  {
    var lines := SplitLines(text);
    hits := [];
    var i := 0;
    while i < |lines|
      invariant 0 <= i <= |lines|
      invariant hits == Matching(lines[..i], pats, search)
      invariant maxHits >= 1 ==> |hits| < maxHits
      invariant maxHits < 1 ==> i == 0
    {
      var line := lines[i];
      var matched := false;
      var j := 0;
      while j < |pats| && !matched
        invariant 0 <= j <= |pats|
        invariant matched ==> AnyMatch(line, pats, search)
        invariant !matched ==> forall k :: 0 <= k < j ==> !search(pats[k], line)
      {
        if search(pats[j], line) {
          matched := true;
        }
        j := j + 1;
      }
      if matched {
        hits := hits + [line];
      }
      assert lines[..i + 1][..i] == lines[..i];
      i := i + 1;
      if |hits| >= maxHits {
        assert lines[..i] + lines[i..] == lines;
        MatchingAppend(lines[..i], lines[i..], pats, search);
        hits := hits + [MoreMarker];
        return;
      }
    }
    assert lines[..i] == lines;
  }
}

=== FILE: pipeline.dfy ===
/**
  The normal DRM/KMS flow, `run_flow_kms` (gfx.py:418-532,
  drm.py:466-587), as a function from a snapshot of the kernel-exported
  state to a return code and the evidence reported.

  The flow runs six hard gates in order, each ending the run with code 2;
  then it classifies the connectors, which never changes the code; then
  it picks the primary debugfs card, whose absence ends the run with
  code 2, and runs the runtime probes on it. The two variants differ only
  in the severities and choices of their `Policy`.
*/
module Pipeline {
  import opened Wrappers
  import opened Text
  import opened Reader
  import opened Topology
  import opened Evidence
  import opened Connectors
  import DebugCards
  import VBlank
  import Flips
  import Psr
  import Trace

  /** What the probes read under `/sys/kernel/debug/dri/<N>`: the
      successive reads of `state`, the CRTC directory with the first reads
      of its counters (None when the card directory is absent), the
      second reads of the counters, and `i915_edp_psr_status`. */
  datatype CardDebug = CardDebug(
    stateReads: seq<Option<string>>,
    crtcs: Option<map<string, VBlank.CrtcEntry>>,
    laterCounters: map<VBlank.CounterId, FileRead>,
    psrStatus: Option<string>)

  /** A card directory that is not there. */
  const AbsentCard: CardDebug := CardDebug([], None, map[], None)

  /** The kernel-exported state the flow reads. */
  datatype Snapshot = Snapshot(
    sysDrm: seq<SysEntry>,                       // /sys/class/drm, sorted
    devDri: seq<string>,                         // /dev/dri entry names, sorted
    params: map<Param, FileRead>,                // /sys/module/<m>/parameters/<p>
    debugDri: DebugCards.DriListing,             // /sys/kernel/debug/dri
    cardDebug: map<string, CardDebug>,           // by debugfs directory name
    tracefs: Trace.TraceFs)

  datatype Outcome = Outcome(rc: int, evidence: seq<Evidence>)

  /** The number of samples both variants ask the flip probe for. */
  const FlipSamples: int := 10

  // ------------------------------------------------------------------
  // The hard gates, stated on the snapshot
  // ------------------------------------------------------------------

  datatype Gate = SysDrmGate | CardGate | DriverGate | DevDriGate | CardNodeGate | NvidiaGate

  /** The position of each gate in the order they run. */
  function Rank(g: Gate): nat {
    match g
    case SysDrmGate => 0
    case CardGate => 1
    case DriverGate => 2
    case DevDriGate => 3
    case CardNodeGate => 4
    case NvidiaGate => 5
  }

  /** When each gate stops the run. */
  predicate GateFails(g: Gate, s: Snapshot) {
    match g
    case SysDrmGate => forall e :: e in s.sysDrm ==> !e.isDir
    case CardGate => forall e :: e in s.sysDrm && e.isDir ==> !IsCardName(e.name)
    case DriverGate => forall e :: e in s.sysDrm && e.isDir && IsCardName(e.name) ==> !Bound(e.device)
    case DevDriGate => s.devDri == []
    case CardNodeGate => forall i :: 0 <= i < |s.devDri| ==> !StartsWith(s.devDri[i], "card")
    case NvidiaGate =>
      var v := ParamValue(s.params, NvidiaModeset);
      v.Some? && StartsWith(v.value, "0")
  }

  /** The evidence a failing gate ends the run with. */
  function GateSubject(g: Gate): Subject {
    match g
    case SysDrmGate => SysDrmEmpty
    case CardGate => NoCards
    case DriverGate => NoneBound
    case DevDriGate => DevDriEmpty
    case CardNodeGate => NoCardNode
    case NvidiaGate => NvidiaKmsDisabled
  }

  /** The gate that stops the run: the first failing one. */
  predicate StopsAt(g: Gate, s: Snapshot) {
    GateFails(g, s)
    && (Rank(g) > 0 ==> !GateFails(SysDrmGate, s))
    && (Rank(g) > 1 ==> !GateFails(CardGate, s))
    && (Rank(g) > 2 ==> !GateFails(DriverGate, s))
    && (Rank(g) > 3 ==> !GateFails(DevDriGate, s))
    && (Rank(g) > 4 ==> !GateFails(CardNodeGate, s))
  }

  predicate AllGatesPass(s: Snapshot) {
    !GateFails(SysDrmGate, s) && !GateFails(CardGate, s) && !GateFails(DriverGate, s)
    && !GateFails(DevDriGate, s) && !GateFails(CardNodeGate, s) && !GateFails(NvidiaGate, s)
  }

  // ------------------------------------------------------------------
  // Step 2: drivers
  // ------------------------------------------------------------------

  predicate AnyBound(cards: seq<SysEntry>) {
    exists i :: 0 <= i < |cards| && Bound(cards[i].device)
  }

  /** The driver line of a card. */
  function DriverLine(p: Policy, c: SysEntry): Evidence {
    if Bound(c.device) then Evidence(Pass, DriverBound(c.name, c.device.driver.value))
    else Evidence(p.unboundCard, DriverUnbound(c.name))
  }

  /** The identity line when there is an identity, and the runtime power
      line when there are power attributes. */
  function CardExtras(name: string, ident: map<string, string>, pm: map<string, string>): (ev: seq<Evidence>)
    ensures CountStates(ev) == 0
    ensures forall i :: 0 <= i < |ev| ==> ev[i].severity == Info
  {
    var ev := (if ident != map[] then [Evidence(Info, Identity(name, ident))] else [])
      + (if pm != map[] then [Evidence(Info, RuntimePower(name, pm))] else []);
    assert forall i :: 0 <= i < |ev| ==> !IsConnectorState(ev[i]);
    ev
  }

  /** The items for one card: its driver, then its identity and runtime
      power attributes. */
  function CardDriverItems(p: Policy, c: SysEntry): (ev: seq<Evidence>)
    ensures ev != [] && ev[0] == DriverLine(p, c)
    ensures CountStates(ev) == 0
    ensures forall i :: 1 <= i < |ev| ==> ev[i].severity == Info
  {
    var extras := CardExtras(c.name, DeviceIdentity(c.device), RuntimePm(c.device));
    CountStatesAppend([DriverLine(p, c)], extras);
    [DriverLine(p, c)] + extras
  }

  function DriverBlocks(p: Policy, cards: seq<SysEntry>): (r: seq<seq<Evidence>>)
    ensures |r| == |cards|
    ensures forall i :: 0 <= i < |cards| ==> r[i] == CardDriverItems(p, cards[i])
  {
    seq(|cards|, i requires 0 <= i < |cards| => CardDriverItems(p, cards[i]))
  }

  /** The driver items of every card, in card order. */
  function DriverSection(p: Policy, cards: seq<SysEntry>): (ev: seq<Evidence>)
    ensures CountStates(ev) == 0
  {
    var blocks := DriverBlocks(p, cards);
    ConcatStates(blocks, seq(|cards|, i => 0));
    SumZeros(seq(|cards|, i => 0));
    Concat(blocks)
  }

  lemma {:induction false} SumZeros(zs: seq<nat>)
    requires forall j :: 0 <= j < |zs| ==> zs[j] == 0
    ensures Sum(zs) == 0
    decreases |zs|
  {
    if zs != [] {
      SumZeros(zs[1..]);
    }
  }

  // ------------------------------------------------------------------
  // The flow, stage by stage
  // ------------------------------------------------------------------

  function Names(es: seq<SysEntry>): seq<string> {
    seq(|es|, i requires 0 <= i < |es| => es[i].name)
  }

  /** The probe inputs of a debugfs card index, looked up by the name
      `str(card)`. */
  function DebugOf(s: Snapshot, card: nat): CardDebug {
    var name := DecimalString(card);
    if name in s.cardDebug then s.cardDebug[name] else AbsentCard
  }

  /** The primary debugfs card of the variant. */
  function Primary(p: Policy, s: Snapshot): Option<nat> {
    DebugCards.PickPrimary(DebugCards.ListCards(s.debugDri, p.activeOnly))
  }

  /** Step 6 on the primary card: `gfx.py` prints the flip, vblank and
      PSR reports; `drm.py` judges a trace capture, the flips and the
      reduced PSR verdict. */
  function Probes(p: Policy, s: Snapshot, card: nat): (ev: seq<Evidence>)
    ensures |ev| == 3 && CountStates(ev) == 0
    ensures !p.judgeProbes ==> forall i :: 0 <= i < 3 ==> ev[i].severity == Info
  {
    var d := DebugOf(s, card);
    var flips := Flips.FlipProbe(d.stateReads, FlipSamples);
    var psr := Psr.PsrProbe(d.psrStatus);
    var ev :=
      if p.judgeProbes then
        var capture := Trace.CaptureScoped(s.tracefs, None, true);
        [Evidence(Verdict(Trace.TracePass(capture)), TraceReport(capture)),
         Evidence(Verdict(Flips.FlipsPass(flips)), FlipsReport(flips)),
         Evidence(Verdict(Psr.PsrOk(psr)), PsrReport(psr))]
      else
        [Evidence(Info, FlipsReport(flips)),
         Evidence(Info, VBlankReport(VBlank.VBlankProbe(d.crtcs, d.laterCounters))),
         Evidence(Info, PsrReport(psr))];
    assert forall i :: 0 <= i < 3 ==> !IsConnectorState(ev[i]);
    ev
  }

  /** Step 6: code 2 without a primary card, 0 after the probes. */
  function Runtime(p: Policy, s: Snapshot, pre: seq<Evidence>): (o: Outcome)
    ensures |o.evidence| > |pre|
    ensures o.rc == (if Primary(p, s).None? then 2 else 0)
    ensures Primary(p, s).None? ==> o.evidence == pre + [Evidence(p.noDebugCard, NoDebugCard)]
    ensures Primary(p, s).Some? ==> o.evidence == pre + Probes(p, s, Primary(p, s).value)
  {
    match Primary(p, s)
    case None => Outcome(2, pre + [Evidence(p.noDebugCard, NoDebugCard)])
    case Some(card) => Outcome(0, pre + Probes(p, s, card))
  }

  /** Step 4 and what follows it. */
  function AfterNodes(p: Policy, s: Snapshot, cards: seq<SysEntry>, pre: seq<Evidence>): (o: Outcome)
    ensures |o.evidence| > |pre|
  {
    var settings := ParamSettings(s.params);
    var pre2 := pre + [Evidence(Info, ModesetParams(settings))];
    if NvidiaKmsOff(settings) then Outcome(2, pre2 + [Evidence(Fail, NvidiaKmsDisabled)])
    else Runtime(p, s, pre2 + ConnectorSection(p, s.sysDrm, cards))
  }

  /** The render-node item. */
  function RenderItem(p: Policy, nodes: seq<string>): Evidence {
    if HasRenderNode(nodes) then Evidence(Pass, RenderNodePresent) else Evidence(p.missingRender, NoRenderNode)
  }

  /** Steps 2 (the verdict) and 3, and what follows them. */
  function AfterDrivers(p: Policy, s: Snapshot, cards: seq<SysEntry>, pre: seq<Evidence>): (o: Outcome)
    ensures |o.evidence| > |pre|
  {
    if !AnyBound(cards) then Outcome(2, pre + [Evidence(Fail, NoneBound)])
    else if s.devDri == [] then Outcome(2, pre + [Evidence(Fail, DevDriEmpty)])
    else
      var pre2 := pre + [Evidence(Info, DevDriNodes(s.devDri))];
      if !HasCardNode(s.devDri) then Outcome(2, pre2 + [Evidence(Fail, NoCardNode)])
      else AfterNodes(p, s, cards, NodeItems(p, s, pre))
  }

  /** The items of steps 1 and 2 up to the driver verdict. */
  function Preamble(p: Policy, s: Snapshot): seq<Evidence> {
    var cards := DrmCards(s.sysDrm);
    [FlowStart, Evidence(Info, SysDrmEntries(Names(DrmDirs(s.sysDrm)))), Evidence(Pass, CardsFound(Names(cards)))]
      + DriverSection(p, cards)
  }

  /** The item every run opens with, naming the flow. */
  const FlowStart: Evidence := Evidence(Info, FlowKms)

  /** `run_flow_kms`. */
  function RunFlowKms(p: Policy, s: Snapshot): (o: Outcome) {
    if DrmDirs(s.sysDrm) == [] then Outcome(2, [FlowStart, Evidence(Fail, SysDrmEmpty)])
    else if DrmCards(s.sysDrm) == [] then
      Outcome(2, [FlowStart, Evidence(Info, SysDrmEntries(Names(DrmDirs(s.sysDrm)))), Evidence(Fail, NoCards)])
    else AfterDrivers(p, s, DrmCards(s.sysDrm), Preamble(p, s))
  }

  /** Steps 2 to 6 keep the first item of what came before them. */
  lemma AfterDriversOpens(p: Policy, s: Snapshot, cards: seq<SysEntry>, pre: seq<Evidence>)
    requires pre != []
    ensures var ev := AfterDrivers(p, s, cards, pre).evidence; ev != [] && ev[0] == pre[0]
  {
    if AnyBound(cards) && s.devDri != [] && HasCardNode(s.devDri) {
      var nodes := NodeItems(p, s, pre);
      var pre2 := nodes + [Evidence(Info, ModesetParams(ParamSettings(s.params)))];
      assert pre2[0] == pre[0];
      if !NvidiaKmsOff(ParamSettings(s.params)) {
        var pre3 := pre2 + ConnectorSection(p, s.sysDrm, cards);
        assert pre3[0] == pre[0];
        var o := Runtime(p, s, pre3);
        assert o.evidence[0] == pre3[0];
      }
    }
  }

  /** Every run, however far it gets, opens with the item naming the
      flow and reports at least one more item after it. */
  lemma FlowOpens(p: Policy, s: Snapshot)
    ensures var ev := RunFlowKms(p, s).evidence; |ev| >= 2 && ev[0] == FlowStart
  {
    if DrmDirs(s.sysDrm) != [] && DrmCards(s.sysDrm) != [] {
      AfterDriversOpens(p, s, DrmCards(s.sysDrm), Preamble(p, s));
    }
  }

  // ------------------------------------------------------------------
  // The gates as the flow tests them
  // ------------------------------------------------------------------

  lemma SysDrmGateIff(s: Snapshot)
    ensures DrmDirs(s.sysDrm) == [] <==> GateFails(SysDrmGate, s)
  {
    var sys := DrmDirs(s.sysDrm);
    if sys != [] {
      assert sys[0] in sys;
    }
    if !GateFails(SysDrmGate, s) {
      var e :| e in s.sysDrm && e.isDir;
      assert e in sys;
    }
  }

  lemma CardGateIff(s: Snapshot)
    ensures DrmCards(s.sysDrm) == [] <==> GateFails(CardGate, s)
  {
    var cards := DrmCards(s.sysDrm);
    if cards != [] {
      assert cards[0] in cards;
    }
    if !GateFails(CardGate, s) {
      var e :| e in s.sysDrm && e.isDir && IsCardName(e.name);
      assert e in cards;
    }
  }

  lemma DriverGateIff(s: Snapshot)
    ensures !AnyBound(DrmCards(s.sysDrm)) <==> GateFails(DriverGate, s)
  {
    var cards := DrmCards(s.sysDrm);
    if AnyBound(cards) {
      var i :| 0 <= i < |cards| && Bound(cards[i].device);
      assert cards[i] in cards;
    }
    if !GateFails(DriverGate, s) {
      var e :| e in s.sysDrm && e.isDir && IsCardName(e.name) && Bound(e.device);
      assert e in cards;
      var i :| 0 <= i < |cards| && cards[i] == e;
    }
  }

  lemma CardNodeGateIff(s: Snapshot)
    ensures !HasCardNode(s.devDri) <==> GateFails(CardNodeGate, s)
  {
  }

  // ------------------------------------------------------------------
  // The return code
  // ------------------------------------------------------------------

  lemma AfterNodesRc(p: Policy, s: Snapshot, cards: seq<SysEntry>, pre: seq<Evidence>)
    ensures var o := AfterNodes(p, s, cards, pre);
      (o.rc == 0 || o.rc == 2)
      && (o.rc == 0 <==> !NvidiaKmsOff(ParamSettings(s.params)) && Primary(p, s).Some?)
  {
  }

  lemma AfterDriversRc(p: Policy, s: Snapshot, cards: seq<SysEntry>, pre: seq<Evidence>)
    ensures var o := AfterDrivers(p, s, cards, pre);
      (o.rc == 0 || o.rc == 2)
      && (o.rc == 0 <==> AnyBound(cards) && s.devDri != [] && HasCardNode(s.devDri)
                         && !NvidiaKmsOff(ParamSettings(s.params)) && Primary(p, s).Some?)
  {
    if AnyBound(cards) && s.devDri != [] && HasCardNode(s.devDri) {
      var pre2 := pre + [Evidence(Info, DevDriNodes(s.devDri))];
      AfterNodesRc(p, s, cards, pre2 + [Evidence(Pass, CardNodePresent), RenderItem(p, s.devDri)]);
    }
  }

  lemma EarlyGatesFlow(s: Snapshot)
    ensures !GateFails(SysDrmGate, s) && !GateFails(CardGate, s) && !GateFails(DriverGate, s) <==>
      DrmDirs(s.sysDrm) != [] && DrmCards(s.sysDrm) != [] && AnyBound(DrmCards(s.sysDrm))
  {
    SysDrmGateIff(s);
    CardGateIff(s);
    DriverGateIff(s);
  }

  lemma LateGatesFlow(s: Snapshot)
    ensures !GateFails(DevDriGate, s) && !GateFails(CardNodeGate, s) && !GateFails(NvidiaGate, s) <==>
      s.devDri != [] && HasCardNode(s.devDri) && !NvidiaKmsOff(ParamSettings(s.params))
  {
    NvidiaGateFlow(s);
    CardNodeGateIff(s);
  }

  lemma NvidiaGateFlow(s: Snapshot)
    ensures NvidiaKmsOff(ParamSettings(s.params)) <==> GateFails(NvidiaGate, s)
  {
    NvidiaGateIff(s.params);
  }

  /** The gates in the terms the flow tests them. */
  lemma AllGatesPassFlow(s: Snapshot)
    ensures AllGatesPass(s) <==>
      DrmDirs(s.sysDrm) != [] && DrmCards(s.sysDrm) != [] && AnyBound(DrmCards(s.sysDrm))
      && s.devDri != [] && HasCardNode(s.devDri) && !NvidiaKmsOff(ParamSettings(s.params))
  {
    EarlyGatesFlow(s);
    LateGatesFlow(s);
  }

  /** The flow returns 0 or 2, and 0 exactly when every gate passes and a
      primary debugfs card exists; the connector checks, the render node
      and the probe results never change the code. */
  lemma FlowRc(p: Policy, s: Snapshot)
    ensures RunFlowKms(p, s).rc == 0 || RunFlowKms(p, s).rc == 2
    ensures RunFlowKms(p, s).rc == 0 <==> AllGatesPass(s) && Primary(p, s).Some?
  {
    AllGatesPassFlow(s);
    if DrmDirs(s.sysDrm) != [] && DrmCards(s.sysDrm) != [] {
      AfterDriversRc(p, s, DrmCards(s.sysDrm), Preamble(p, s));
    }
  }

  // ------------------------------------------------------------------
  // A failing gate ends the run
  // ------------------------------------------------------------------

  /** Appending a gate failure adds no connector state. */
  lemma StopStates(pre: seq<Evidence>, g: Gate)
    requires CountStates(pre) == 0
    ensures CountStates(pre + [Evidence(Fail, GateSubject(g))]) == 0
  {
    CountStatesAppend(pre, [Evidence(Fail, GateSubject(g))]);
  }

  lemma InfoStates(pre: seq<Evidence>, items: seq<Evidence>)
    requires CountStates(pre) == 0
    requires forall i :: 0 <= i < |items| ==> !IsConnectorState(items[i])
    ensures CountStates(pre + items) == 0
  {
    CountStatesAppend(pre, items);
  }

  lemma AfterNodesStops(p: Policy, s: Snapshot, cards: seq<SysEntry>, pre: seq<Evidence>)
    requires CountStates(pre) == 0 && NvidiaKmsOff(ParamSettings(s.params))
    ensures var o := AfterNodes(p, s, cards, pre);
      o.rc == 2 && o.evidence[|o.evidence| - 1] == Evidence(Fail, GateSubject(NvidiaGate))
      && CountStates(o.evidence) == 0
  {
    var pre2 := pre + [Evidence(Info, ModesetParams(ParamSettings(s.params)))];
    InfoStates(pre, [Evidence(Info, ModesetParams(ParamSettings(s.params)))]);
    StopStates(pre2, NvidiaGate);
  }

  lemma DriverStop(p: Policy, s: Snapshot, cards: seq<SysEntry>, pre: seq<Evidence>)
    requires CountStates(pre) == 0 && !AnyBound(cards)
    ensures var o := AfterDrivers(p, s, cards, pre);
      o.rc == 2 && o.evidence[|o.evidence| - 1] == Evidence(Fail, GateSubject(DriverGate))
      && CountStates(o.evidence) == 0
  {
    StopStates(pre, DriverGate);
  }

  lemma DevDriStop(p: Policy, s: Snapshot, cards: seq<SysEntry>, pre: seq<Evidence>)
    requires CountStates(pre) == 0 && AnyBound(cards) && s.devDri == []
    ensures var o := AfterDrivers(p, s, cards, pre);
      o.rc == 2 && o.evidence[|o.evidence| - 1] == Evidence(Fail, GateSubject(DevDriGate))
      && CountStates(o.evidence) == 0
  {
    StopStates(pre, DevDriGate);
  }

  lemma CardNodeStop(p: Policy, s: Snapshot, cards: seq<SysEntry>, pre: seq<Evidence>)
    requires CountStates(pre) == 0 && AnyBound(cards) && s.devDri != [] && !HasCardNode(s.devDri)
    ensures var o := AfterDrivers(p, s, cards, pre);
      o.rc == 2 && o.evidence[|o.evidence| - 1] == Evidence(Fail, GateSubject(CardNodeGate))
      && CountStates(o.evidence) == 0
  {
    var pre2 := pre + [Evidence(Info, DevDriNodes(s.devDri))];
    InfoStates(pre, [Evidence(Info, DevDriNodes(s.devDri))]);
    StopStates(pre2, CardNodeGate);
  }

  lemma NvidiaStop(p: Policy, s: Snapshot, cards: seq<SysEntry>, pre: seq<Evidence>)
    requires CountStates(pre) == 0 && AnyBound(cards) && s.devDri != [] && HasCardNode(s.devDri)
    requires NvidiaKmsOff(ParamSettings(s.params))
    ensures var o := AfterDrivers(p, s, cards, pre);
      o.rc == 2 && o.evidence[|o.evidence| - 1] == Evidence(Fail, GateSubject(NvidiaGate))
      && CountStates(o.evidence) == 0
  {
    var pre2 := pre + [Evidence(Info, DevDriNodes(s.devDri))];
    InfoStates(pre, [Evidence(Info, DevDriNodes(s.devDri))]);
    var items := [Evidence(Pass, CardNodePresent), RenderItem(p, s.devDri)];
    InfoStates(pre2, items);
    AfterNodesStops(p, s, cards, pre2 + items);
  }

  lemma PreambleStates(p: Policy, s: Snapshot)
    ensures CountStates(Preamble(p, s)) == 0
  {
    var cards := DrmCards(s.sysDrm);
    var head := [FlowStart, Evidence(Info, SysDrmEntries(Names(DrmDirs(s.sysDrm)))), Evidence(Pass, CardsFound(Names(cards)))];
    InfoStates(head, DriverSection(p, cards));
  }

  /** Once steps 1 and 2 have listed cards, the flow goes on with the
      driver verdict. */
  lemma FlowAfterCards(p: Policy, s: Snapshot)
    requires DrmDirs(s.sysDrm) != [] && DrmCards(s.sysDrm) != []
    ensures RunFlowKms(p, s) == AfterDrivers(p, s, DrmCards(s.sysDrm), Preamble(p, s))
    ensures CountStates(Preamble(p, s)) == 0
  {
    PreambleStates(p, s);
  }

  lemma StopDriver(p: Policy, s: Snapshot)
    requires DrmDirs(s.sysDrm) != [] && DrmCards(s.sysDrm) != [] && !AnyBound(DrmCards(s.sysDrm))
    ensures var o := RunFlowKms(p, s);
      o.rc == 2 && o.evidence[|o.evidence| - 1] == Evidence(Fail, NoneBound) && CountStates(o.evidence) == 0
  {
    FlowAfterCards(p, s);
    DriverStop(p, s, DrmCards(s.sysDrm), Preamble(p, s));
  }

  lemma StopDevDri(p: Policy, s: Snapshot)
    requires DrmDirs(s.sysDrm) != [] && DrmCards(s.sysDrm) != [] && AnyBound(DrmCards(s.sysDrm))
    requires s.devDri == []
    ensures var o := RunFlowKms(p, s);
      o.rc == 2 && o.evidence[|o.evidence| - 1] == Evidence(Fail, DevDriEmpty) && CountStates(o.evidence) == 0
  {
    FlowAfterCards(p, s);
    DevDriStop(p, s, DrmCards(s.sysDrm), Preamble(p, s));
  }

  lemma StopCardNode(p: Policy, s: Snapshot)
    requires DrmDirs(s.sysDrm) != [] && DrmCards(s.sysDrm) != [] && AnyBound(DrmCards(s.sysDrm))
    requires s.devDri != [] && !HasCardNode(s.devDri)
    ensures var o := RunFlowKms(p, s);
      o.rc == 2 && o.evidence[|o.evidence| - 1] == Evidence(Fail, NoCardNode) && CountStates(o.evidence) == 0
  {
    FlowAfterCards(p, s);
    CardNodeStop(p, s, DrmCards(s.sysDrm), Preamble(p, s));
  }

  lemma StopNvidia(p: Policy, s: Snapshot)
    requires DrmDirs(s.sysDrm) != [] && DrmCards(s.sysDrm) != [] && AnyBound(DrmCards(s.sysDrm))
    requires s.devDri != [] && HasCardNode(s.devDri) && NvidiaKmsOff(ParamSettings(s.params))
    ensures var o := RunFlowKms(p, s);
      o.rc == 2 && o.evidence[|o.evidence| - 1] == Evidence(Fail, NvidiaKmsDisabled) && CountStates(o.evidence) == 0
  {
    FlowAfterCards(p, s);
    NvidiaStop(p, s, DrmCards(s.sysDrm), Preamble(p, s));
  }

  /** The first failing gate ends the run with code 2 and that gate's
      failure as the last item, before any connector is reported. */
  lemma FlowStops(p: Policy, s: Snapshot, g: Gate)
    requires StopsAt(g, s)
    ensures var o := RunFlowKms(p, s);
      o.rc == 2 && o.evidence != []
      && o.evidence[|o.evidence| - 1] == Evidence(Fail, GateSubject(g))
      && CountStates(o.evidence) == 0
  {
    SysDrmGateIff(s);
    CardGateIff(s);
    match g
    case SysDrmGate =>
    case CardGate =>
      StopStates([FlowStart, Evidence(Info, SysDrmEntries(Names(DrmDirs(s.sysDrm))))], CardGate);
    case _ =>
      FlowStopsPastCards(p, s, g);
  }

  /** The same for the gates after the card scan. */
  lemma FlowStopsPastCards(p: Policy, s: Snapshot, g: Gate)
    requires StopsAt(g, s) && g != SysDrmGate && g != CardGate
    ensures var o := RunFlowKms(p, s);
      o.rc == 2 && o.evidence != []
      && o.evidence[|o.evidence| - 1] == Evidence(Fail, GateSubject(g))
      && CountStates(o.evidence) == 0
  {
    SysDrmGateIff(s);
    CardGateIff(s);
    DriverGateIff(s);
    match g
    case DriverGate =>
      StopDriver(p, s);
    case DevDriGate =>
      StopDevDri(p, s);
    case CardNodeGate =>
      CardNodeGateIff(s);
      StopCardNode(p, s);
    case NvidiaGate =>
      CardNodeGateIff(s);
      NvidiaGateIff(s.params);
      StopNvidia(p, s);
  }

  // ------------------------------------------------------------------
  // A run past the gates
  // ------------------------------------------------------------------

  /** The later steps keep what the earlier ones reported. */
  lemma AfterNodesKeeps(p: Policy, s: Snapshot, cards: seq<SysEntry>, pre: seq<Evidence>, x: Evidence)
    requires x in pre
    ensures x in AfterNodes(p, s, cards, pre).evidence
  {
    var pre2 := pre + [Evidence(Info, ModesetParams(ParamSettings(s.params)))];
    assert x in pre2;
  }

  lemma AfterDriversKeeps(p: Policy, s: Snapshot, cards: seq<SysEntry>, pre: seq<Evidence>, x: Evidence)
    requires x in pre
    ensures x in AfterDrivers(p, s, cards, pre).evidence
  {
    if AnyBound(cards) && s.devDri != [] && HasCardNode(s.devDri) {
      assert x in NodeItems(p, s, pre);
      AfterNodesKeeps(p, s, cards, NodeItems(p, s, pre), x);
    }
  }

  /** The items of steps 3 and 4 up to the NVIDIA gate. */
  function NodeItems(p: Policy, s: Snapshot, pre: seq<Evidence>): seq<Evidence> {
    pre + [Evidence(Info, DevDriNodes(s.devDri))] + [Evidence(Pass, CardNodePresent), RenderItem(p, s.devDri)]
  }

  /** The items before the runtime probes. */
  function SectionItems(p: Policy, s: Snapshot, cards: seq<SysEntry>, pre: seq<Evidence>): seq<Evidence> {
    pre + [Evidence(Info, ModesetParams(ParamSettings(s.params)))] + ConnectorSection(p, s.sysDrm, cards)
  }

  lemma DriversPass(p: Policy, s: Snapshot, cards: seq<SysEntry>, pre: seq<Evidence>)
    requires AnyBound(cards) && s.devDri != [] && HasCardNode(s.devDri)
    ensures AfterDrivers(p, s, cards, pre) == AfterNodes(p, s, cards, NodeItems(p, s, pre))
    ensures CountStates(pre) == 0 ==> CountStates(NodeItems(p, s, pre)) == 0
    ensures RenderItem(p, s.devDri) in NodeItems(p, s, pre)
  {
    if CountStates(pre) == 0 {
      InfoStates(pre, [Evidence(Info, DevDriNodes(s.devDri))]);
      InfoStates(pre + [Evidence(Info, DevDriNodes(s.devDri))], [Evidence(Pass, CardNodePresent), RenderItem(p, s.devDri)]);
    }
  }

  lemma NodesPass(p: Policy, s: Snapshot, cards: seq<SysEntry>, pre: seq<Evidence>)
    requires !NvidiaKmsOff(ParamSettings(s.params))
    ensures AfterNodes(p, s, cards, pre) == Runtime(p, s, SectionItems(p, s, cards, pre))
    ensures CountStates(pre) == 0 ==>
      CountStates(SectionItems(p, s, cards, pre)) == Sum(ConnectorCounts(s.sysDrm, cards))
  {
    if CountStates(pre) == 0 {
      var mid := pre + [Evidence(Info, ModesetParams(ParamSettings(s.params)))];
      InfoStates(pre, [Evidence(Info, ModesetParams(ParamSettings(s.params)))]);
      CountStatesAppend(mid, ConnectorSection(p, s.sysDrm, cards));
      SectionStates(p, s.sysDrm, cards);
    }
  }

  /** When every gate passes, the run goes through the connector section
      to the runtime step. */
  lemma FlowPassesShape(p: Policy, s: Snapshot)
    requires AllGatesPass(s)
    ensures DrmCards(s.sysDrm) != []
    ensures RunFlowKms(p, s) == Runtime(p, s, SectionItems(p, s, DrmCards(s.sysDrm), NodeItems(p, s, Preamble(p, s))))
    ensures CountStates(SectionItems(p, s, DrmCards(s.sysDrm), NodeItems(p, s, Preamble(p, s))))
      == Sum(ConnectorCounts(s.sysDrm, DrmCards(s.sysDrm)))
    ensures RenderItem(p, s.devDri) in NodeItems(p, s, Preamble(p, s))
  {
    AllGatesPassFlow(s);
    FlowAfterCards(p, s);
    var cards := DrmCards(s.sysDrm);
    DriversPass(p, s, cards, Preamble(p, s));
    NodesPass(p, s, cards, NodeItems(p, s, Preamble(p, s)));
  }

  /** How a run past the gates ends: with the missing debugfs card, or
      with the three probe reports of the primary card. */
  predicate EndsWithProbes(p: Policy, s: Snapshot, ev: seq<Evidence>) {
    && (Primary(p, s).None? ==> ev != [] && ev[|ev| - 1] == Evidence(p.noDebugCard, NoDebugCard))
    && (Primary(p, s).Some? ==> |ev| >= 3 && ev[|ev| - 3..] == Probes(p, s, Primary(p, s).value))
  }

  /** The runtime step adds no connector state and ends the run. */
  lemma RuntimeTail(p: Policy, s: Snapshot, pre: seq<Evidence>)
    ensures var o := Runtime(p, s, pre);
      CountStates(o.evidence) == CountStates(pre) && EndsWithProbes(p, s, o.evidence)
  {
    match Primary(p, s)
    case None =>
      CountStatesAppend(pre, [Evidence(p.noDebugCard, NoDebugCard)]);
    case Some(card) =>
      var probes := Probes(p, s, card);
      CountStatesAppend(pre, probes);
      assert (pre + probes)[|pre + probes| - 3..] == probes;
  }

  /** Past the gates, every connector of every card has exactly one state
      line, and the run ends with the missing debugfs card or with the
      three probe reports of the primary card. */
  lemma FlowPasses(p: Policy, s: Snapshot)
    requires AllGatesPass(s)
    ensures var o := RunFlowKms(p, s);
      CountStates(o.evidence) == Sum(ConnectorCounts(s.sysDrm, DrmCards(s.sysDrm)))
      && EndsWithProbes(p, s, o.evidence)
  {
    FlowPassesShape(p, s);
    RuntimeTail(p, s, SectionItems(p, s, DrmCards(s.sysDrm), NodeItems(p, s, Preamble(p, s))));
  }

  // ------------------------------------------------------------------
  // What a run reports
  // ------------------------------------------------------------------

  /** Every item of a card's driver block is reported once steps 1 and 2
      have listed the card. */
  lemma DriverItemReported(p: Policy, s: Snapshot, c: SysEntry, x: Evidence)
    requires c in DrmCards(s.sysDrm) && x in CardDriverItems(p, c)
    ensures x in RunFlowKms(p, s).evidence
  {
    var cards := DrmCards(s.sysDrm);
    assert c in DrmDirs(s.sysDrm);
    FlowAfterCards(p, s);
    var i :| 0 <= i < |cards| && cards[i] == c;
    ConcatHas(DriverBlocks(p, cards), i, x);
    assert x in Preamble(p, s);
    AfterDriversKeeps(p, s, cards, Preamble(p, s), x);
  }

  /** Every card is reported with its driver, or as unbound with the
      policy's severity; an unbound card alone does not stop the run. */
  lemma CardDriverReported(p: Policy, s: Snapshot, c: SysEntry)
    requires c in s.sysDrm && c.isDir && IsCardName(c.name)
    ensures Bound(c.device) ==> Evidence(Pass, DriverBound(c.name, c.device.driver.value)) in RunFlowKms(p, s).evidence
    ensures !Bound(c.device) ==> Evidence(p.unboundCard, DriverUnbound(c.name)) in RunFlowKms(p, s).evidence
  {
    DriverItemReported(p, s, c, CardDriverItems(p, c)[0]);
  }

  /** Once the card node is there, the render node is reported: present,
      or missing with the policy's severity; its absence never stops the
      run. */
  lemma RenderReported(p: Policy, s: Snapshot)
    requires !GateFails(SysDrmGate, s) && !GateFails(CardGate, s) && !GateFails(DriverGate, s)
    requires !GateFails(DevDriGate, s) && !GateFails(CardNodeGate, s)
    ensures HasRenderNode(s.devDri) ==> Evidence(Pass, RenderNodePresent) in RunFlowKms(p, s).evidence
    ensures !HasRenderNode(s.devDri) ==> Evidence(p.missingRender, NoRenderNode) in RunFlowKms(p, s).evidence
  {
    SysDrmGateIff(s);
    CardGateIff(s);
    DriverGateIff(s);
    CardNodeGateIff(s);
    FlowAfterCards(p, s);
    var cards, pre := DrmCards(s.sysDrm), NodeItems(p, s, Preamble(p, s));
    DriversPass(p, s, cards, Preamble(p, s));
    AfterNodesKeeps(p, s, cards, pre, RenderItem(p, s.devDri));
  }

  /** Past the gates, every item about every connector of every card is
      reported, the connected-only warnings included. */
  lemma ConnectorReported(p: Policy, s: Snapshot, card: SysEntry, conn: SysEntry, x: Evidence)
    requires AllGatesPass(s)
    requires card in DrmCards(s.sysDrm) && conn in ConnectorsOf(s.sysDrm, card.name)
    requires x in ConnectorEvidence(p, ConnectorInfo(conn))
    ensures x in RunFlowKms(p, s).evidence
  {
    FlowPassesShape(p, s);
    var cards := DrmCards(s.sysDrm);
    var conns := ConnectorsOf(s.sysDrm, card.name);
    var i :| 0 <= i < |cards| && cards[i] == card;
    var j :| 0 <= j < |conns| && conns[j] == conn;
    ConnectorInCard(p, s.sysDrm, card, j, x);
    CardInSection(p, s.sysDrm, cards, i, x);
    var pre := SectionItems(p, s, cards, NodeItems(p, s, Preamble(p, s)));
    assert x in pre;
  }

  /** Past the gates, the run says whether any connector is connected. */
  lemma ConnectionReported(p: Policy, s: Snapshot)
    requires AllGatesPass(s)
    ensures AnyConnected(s.sysDrm, DrmCards(s.sysDrm)) ==> Evidence(Pass, SomeConnected) in RunFlowKms(p, s).evidence
    ensures !AnyConnected(s.sysDrm, DrmCards(s.sysDrm)) ==> Evidence(p.noneConnected, NoneConnected) in RunFlowKms(p, s).evidence
  {
    FlowPassesShape(p, s);
    var cards := DrmCards(s.sysDrm);
    var section := ConnectorSection(p, s.sysDrm, cards);
    assert section[|section| - 1] in section;
    var pre := SectionItems(p, s, cards, NodeItems(p, s, Preamble(p, s)));
    assert section[|section| - 1] in pre;
  }

  // ------------------------------------------------------------------
  // gfx.py fails only at a hard gate
  // ------------------------------------------------------------------

  lemma DriverSectionSoft(p: Policy, cards: seq<SysEntry>)
    requires SoftPolicy(p)
    ensures Avoids(DriverSection(p, cards), Fail)
  {
    var blocks := DriverBlocks(p, cards);
    forall i | 0 <= i < |blocks| ensures Avoids(blocks[i], Fail) {
      assert forall j :: 0 <= j < |blocks[i]| ==> blocks[i][j].severity != Fail;
    }
    ConcatAvoids(blocks, Fail);
  }

  lemma RuntimeSoft(p: Policy, s: Snapshot, pre: seq<Evidence>)
    requires SoftPolicy(p) && Avoids(pre, Fail)
    ensures Avoids(Runtime(p, s, pre).evidence, Fail)
  {
  }

  lemma AfterNodesSoft(p: Policy, s: Snapshot, cards: seq<SysEntry>, pre: seq<Evidence>)
    requires SoftPolicy(p) && Avoids(pre, Fail)
    ensures var ev := AfterNodes(p, s, cards, pre).evidence;
      Avoids(ev[..|ev| - 1], Fail) && (ev[|ev| - 1].severity == Fail <==> NvidiaKmsOff(ParamSettings(s.params)))
  {
    var pre2 := pre + [Evidence(Info, ModesetParams(ParamSettings(s.params)))];
    if NvidiaKmsOff(ParamSettings(s.params)) {
      assert (pre2 + [Evidence(Fail, NvidiaKmsDisabled)])[..|pre2|] == pre2;
    } else {
      SectionSoft(p, s.sysDrm, cards);
      RuntimeSoft(p, s, pre2 + ConnectorSection(p, s.sysDrm, cards));
    }
  }

  /** Items that avoid failure, followed by one more. */
  lemma LastAfter(pre: seq<Evidence>, x: Evidence)
    requires Avoids(pre, Fail)
    ensures var ev := pre + [x];
      Avoids(ev[..|ev| - 1], Fail) && ev[|ev| - 1] == x
  {
    assert (pre + [x])[..|pre|] == pre;
  }

  lemma NodeItemsSoft(p: Policy, s: Snapshot, pre: seq<Evidence>)
    requires SoftPolicy(p) && Avoids(pre, Fail)
    ensures Avoids(NodeItems(p, s, pre), Fail)
    ensures Avoids(pre + [Evidence(Info, DevDriNodes(s.devDri))], Fail)
  {
  }

  /** The gates from the driver verdict on pass. */
  predicate PassesDrivers(s: Snapshot, cards: seq<SysEntry>) {
    AnyBound(cards) && s.devDri != [] && HasCardNode(s.devDri) && !NvidiaKmsOff(ParamSettings(s.params))
  }

  lemma AfterDriversSoft(p: Policy, s: Snapshot, cards: seq<SysEntry>, pre: seq<Evidence>)
    requires SoftPolicy(p) && Avoids(pre, Fail)
    ensures var ev := AfterDrivers(p, s, cards, pre).evidence;
      Avoids(ev[..|ev| - 1], Fail)
      && (ev[|ev| - 1].severity == Fail <==>
            !PassesDrivers(s, cards))
  {
    if !AnyBound(cards) {
      LastAfter(pre, Evidence(Fail, NoneBound));
    } else if s.devDri == [] {
      LastAfter(pre, Evidence(Fail, DevDriEmpty));
    } else {
      NodeItemsSoft(p, s, pre);
      if !HasCardNode(s.devDri) {
        LastAfter(pre + [Evidence(Info, DevDriNodes(s.devDri))], Evidence(Fail, NoCardNode));
      } else {
        AfterNodesSoft(p, s, cards, NodeItems(p, s, pre));
      }
    }
  }

  /** Under `gfx.py`'s policy the only failure a run reports is its last
      item, and that item fails exactly when a hard gate stopped the run:
      missing drivers, render nodes, modes, links, connections and
      debugfs cards only warn. */
  lemma SoftFailsOnlyAtGates(p: Policy, s: Snapshot)
    requires SoftPolicy(p)
    ensures var ev := RunFlowKms(p, s).evidence;
      ev != [] && Avoids(ev[..|ev| - 1], Fail)
      && (ev[|ev| - 1].severity == Fail <==> !AllGatesPass(s))
  {
    if AllGatesPass(s) {
      SoftPassLast(p, s);
    } else {
      GateStopLast(p, s);
    }
    if DrmDirs(s.sysDrm) != [] {
      if DrmCards(s.sysDrm) == [] {
        NoCardsSoft(p, s);
      } else {
        CardsSoft(p, s);
      }
    }
  }

  /** The first gate that fails, in the order the flow tests them. */
  function FirstFailing(s: Snapshot): (g: Gate)
    requires !AllGatesPass(s)
    ensures StopsAt(g, s)
  {
    if GateFails(SysDrmGate, s) then SysDrmGate
    else if GateFails(CardGate, s) then CardGate
    else if GateFails(DriverGate, s) then DriverGate
    else if GateFails(DevDriGate, s) then DevDriGate
    else if GateFails(CardNodeGate, s) then CardNodeGate
    else NvidiaGate
  }

  /** A run that some gate stops ends with a failure. */
  lemma GateStopLast(p: Policy, s: Snapshot)
    requires !AllGatesPass(s)
    ensures var ev := RunFlowKms(p, s).evidence; ev != [] && ev[|ev| - 1].severity == Fail
  {
    FlowStops(p, s, FirstFailing(s));
  }

  /** A run past the gates does not end with a failure under a soft
      policy. */
  lemma SoftPassLast(p: Policy, s: Snapshot)
    requires SoftPolicy(p) && AllGatesPass(s)
    ensures var ev := RunFlowKms(p, s).evidence; ev != [] && ev[|ev| - 1].severity != Fail
  {
    FlowPasses(p, s);
    var ev := RunFlowKms(p, s).evidence;
    if Primary(p, s).Some? {
      assert ev[|ev| - 1] == ev[|ev| - 3..][2];
    }
  }

  lemma NoCardsSoft(p: Policy, s: Snapshot)
    requires DrmDirs(s.sysDrm) != [] && DrmCards(s.sysDrm) == []
    ensures var ev := RunFlowKms(p, s).evidence; ev != [] && Avoids(ev[..|ev| - 1], Fail)
  {
    LastAfter([FlowStart, Evidence(Info, SysDrmEntries(Names(DrmDirs(s.sysDrm))))], Evidence(Fail, NoCards));
  }

  lemma CardsSoft(p: Policy, s: Snapshot)
    requires SoftPolicy(p) && DrmDirs(s.sysDrm) != [] && DrmCards(s.sysDrm) != []
    ensures var ev := RunFlowKms(p, s).evidence; ev != [] && Avoids(ev[..|ev| - 1], Fail)
  {
    FlowAfterCards(p, s);
    PreambleSoft(p, s);
    AfterDriversSoft(p, s, DrmCards(s.sysDrm), Preamble(p, s));
  }

  lemma PreambleSoft(p: Policy, s: Snapshot)
    requires SoftPolicy(p)
    ensures Avoids(Preamble(p, s), Fail)
  {
    DriverSectionSoft(p, DrmCards(s.sysDrm));
  }

  /** `run_flow_kms` as the caller sees it: the exit code and the
      evidence. The code is 2 exactly when a gate stops the run or no
      debugfs card is found; a stopped run ends with the FAIL of the
      first failing gate before any connector is classified; a run past
      the gates without a debugfs card ends with the policy's item for
      that; under a soft policy only the last item can fail. The
      connector count and the probe reports of a run past the gates are
      stated by `FlowPasses`. */
  method RunFlow(p: Policy, s: Snapshot) returns (rc: int, evidence: seq<Evidence>)
    ensures rc == 0 || rc == 2
    ensures rc == 0 <==> AllGatesPass(s) && Primary(p, s).Some?
    ensures !AllGatesPass(s) ==>
      evidence != [] && evidence[|evidence| - 1] == Evidence(Fail, GateSubject(FirstFailing(s)))
    ensures !AllGatesPass(s) ==> CountStates(evidence) == 0
    ensures AllGatesPass(s) && Primary(p, s).None? ==>
      evidence != [] && evidence[|evidence| - 1] == Evidence(p.noDebugCard, NoDebugCard)
    ensures SoftPolicy(p) ==>
      && evidence != []
      && Avoids(evidence[..|evidence| - 1], Fail)
      && (evidence[|evidence| - 1].severity == Fail <==> !AllGatesPass(s))
  {
    var o := RunFlowKms(p, s);
    rc, evidence := o.rc, o.evidence;
    FlowRc(p, s);
    if AllGatesPass(s) {
      FlowPasses(p, s);
      assert EndsWithProbes(p, s, evidence);
    } else {
      FlowStops(p, s, FirstFailing(s));
    }
    if SoftPolicy(p) {
      SoftFailsOnlyAtGates(p, s);
      assert evidence[|evidence| - 1].severity == Fail <==> !AllGatesPass(s);
    }
  }

  /** `gfx.py`'s policy is such a policy. */
  lemma GfxIsSoft()
    ensures SoftPolicy(GfxPolicy) && !SoftPolicy(DrmPolicy)
  {
  }
}

=== FILE: psr.dfy ===
/**
  The PSR/ALPM probe: the keyword heuristic `_bool_from_line`, the line
  scanner `check_psr_alpm_state` (gfx.py:227-281, drm.py:275-330) and the
  reduced verdict `drm.py` draws from it (drm.py:330).

  The probe's input is what `read_text` returned for
  `dri/<N>/i915_edp_psr_status`.
*/
module Psr {
  import opened Wrappers
  import opened Text
  import Seqs

  // ------------------------------------------------------------------
  // `_bool_from_line`
  // ------------------------------------------------------------------

  /** The words read as "on", in the source's order. */
  const YesWords: seq<string> := ["yes", "enabled", ": 1", "=1"]

  /** The words that veto "on", in the order of the first test. */
  const VetoWords: seq<string> := ["no", ": 0", "=0", "disabled"]

  /** The words read as "off", in the order of the second test. */
  const NoWords: seq<string> := ["no", "disabled", ": 0", "=0"]

  /** Some "off" word occurs. */
  predicate SaysNo(l: string) {
    Contains(l, "no") || Contains(l, "disabled") || Contains(l, ": 0") || Contains(l, "=0")
  }

  /** Some "on" word occurs. */
  predicate SaysYes(l: string) {
    Contains(l, "yes") || Contains(l, "enabled") || Contains(l, ": 1") || Contains(l, "=1")
  }

  /** The line as the heuristic sees it: stripped, then lower-cased. */
  function Normal(line: string): string {
    Lower(Strip(line))
  }

  /** `_bool_from_line`. Both tests look for the same "off" words, so an
      "off" word always wins: True needs an "on" word and no "off" word,
      False needs an "off" word, and anything else is unknown. */
  function BoolFromLine(line: string): (r: Option<bool>)
    ensures r == Some(false) <==> SaysNo(Normal(line))
    ensures r == Some(true) <==> !SaysNo(Normal(line)) && SaysYes(Normal(line))
    ensures r == None <==> !SaysNo(Normal(line)) && !SaysYes(Normal(line))
  {
    var l := Normal(line);
    AnyWords(l);
    if ContainsAny(l, YesWords) && !ContainsAny(l, VetoWords) then Some(true)
    else if ContainsAny(l, NoWords) then Some(false)
    else None
  }

  /** The three word lists, tested with `any`, are the disjunctions. */
  lemma AnyWords(l: string)
    ensures ContainsAny(l, YesWords) == SaysYes(l)
    ensures ContainsAny(l, VetoWords) == SaysNo(l)
    ensures ContainsAny(l, NoWords) == SaysNo(l)
  {
    if SaysYes(l) {
      if Contains(l, "yes") { assert Contains(l, YesWords[0]); }
      else if Contains(l, "enabled") { assert Contains(l, YesWords[1]); }
      else if Contains(l, ": 1") { assert Contains(l, YesWords[2]); }
      else { assert Contains(l, YesWords[3]); }
    }
    if SaysNo(l) {
      if Contains(l, "no") { assert Contains(l, VetoWords[0]) && Contains(l, NoWords[0]); }
      else if Contains(l, "disabled") { assert Contains(l, VetoWords[3]) && Contains(l, NoWords[1]); }
      else if Contains(l, ": 0") { assert Contains(l, VetoWords[1]) && Contains(l, NoWords[2]); }
      else { assert Contains(l, VetoWords[2]) && Contains(l, NoWords[3]); }
    }
  }

  // ------------------------------------------------------------------
  // What one line says
  // ------------------------------------------------------------------

  /** The `psr_enabled` reading of a line: lines naming PSR and
      "enable" are read by the heuristic. */
  function EnableSignal(line: string): Option<bool> {
    var l := Lower(line);
    if Contains(l, "psr") && (Contains(l, "enabled") || Contains(l, "enable")) then BoolFromLine(line)
    else None
  }

  /** The `psr_active` setting of a line: a PSR line with "active" or
      "state" sets True when it says "active", then False when it says
      "inactive" or "not active". */
  function ActiveSignal(line: string): (r: Option<bool>)
    ensures var l := Lower(line);
      r == Some(false) <==> Contains(l, "psr") && (Contains(l, "inactive") || Contains(l, "not active"))
    ensures var l := Lower(line);
      r == Some(true) <==> Contains(l, "psr") && Contains(l, "active")
                           && !(Contains(l, "inactive") || Contains(l, "not active"))
    ensures var l := Lower(line); r.None? <==> !(Contains(l, "psr") && Contains(l, "active"))
  {
    var l := Lower(line);
    NegationsSayActive(l);
    // A line that passes only through "state" sets nothing: both settings
    // need "active", which "inactive" and "not active" contain too.
    if Contains(l, "psr") && (Contains(l, "active") || Contains(l, "state")) then
      var first := if Contains(l, "active") && (Contains(l, "yes") || Contains(l, "active")) then Some(true) else None;
      if Contains(l, "inactive") || Contains(l, "not active") then Some(false) else first
    else None
  }

  /** "inactive" and "not active" both contain "active". */
  lemma NegationsSayActive(l: string)
    ensures Contains(l, "inactive") || Contains(l, "not active") ==> Contains(l, "active")
  {
    if Contains(l, "inactive") { ContainsPiece(l, "inactive", "active", 2); }
    if Contains(l, "not active") { ContainsPiece(l, "not active", "active", 4); }
  }

  /** The ALPM setting of a line: True for "enable", "active" or "on",
      then False for "disable" or "off". */
  function AlpmSignal(line: string): (r: Option<bool>)
    ensures r.Some? ==> Contains(Lower(line), "alpm")
    ensures var l := Lower(line);
      r == Some(false) <==> Contains(l, "alpm") && (Contains(l, "disable") || Contains(l, "off"))
    ensures var l := Lower(line);
      r == Some(true) <==> Contains(l, "alpm") && !(Contains(l, "disable") || Contains(l, "off"))
                           && (Contains(l, "enable") || Contains(l, "active") || Contains(l, "on"))
  {
    var l := Lower(line);
    if Contains(l, "alpm") then
      var first := if Contains(l, "enable") || Contains(l, "active") || Contains(l, "on") then Some(true) else None;
      if Contains(l, "disable") || Contains(l, "off") then Some(false) else first
    else None
  }

  /** The keywords that put a line into the excerpt. */
  const ExcerptWords: seq<string> := ["psr", "alpm", "sink", "source", "dc3", "link"]

  predicate IsExcerptLine(line: string) {
    ContainsAny(Lower(line), ExcerptWords)
  }

  // ------------------------------------------------------------------
  // The scan as written
  // ------------------------------------------------------------------

  /** The three findings carried along the lines. */
  datatype Findings = Findings(psrEnabled: Option<bool>, psrActive: Option<bool>, alpmHint: Option<bool>)

  /** One line's effect: `psr_enabled` is only ever set once, the other
      two take whatever the line sets. */
  function Step(f: Findings, line: string): Findings {
    var e := EnableSignal(line);
    var a := ActiveSignal(line);
    var h := AlpmSignal(line);
    Findings(
      if e.Some? && f.psrEnabled.None? then e else f.psrEnabled,
      if a.Some? then a else f.psrActive,
      if h.Some? then h else f.alpmHint)
  }

  /** The loop over the lines, first to last. */
  function Scan(f: Findings, lines: seq<string>): Findings
    decreases |lines|
  {
    if lines == [] then f else Scan(Step(f, lines[0]), lines[1..])
  }

  /** The excerpt lines in input order. */
  function KeywordLines(lines: seq<string>): (r: seq<string>)
    ensures |r| <= |lines|
    ensures forall k :: 0 <= k < |r| ==> r[k] in lines && IsExcerptLine(r[k])
    ensures forall k :: 0 <= k < |lines| && IsExcerptLine(lines[k]) ==> lines[k] in r
  {
    Seqs.Filter(lines, IsExcerptLine)
  }

  /** The kept lines are the keyword lines of the file, each taken once
      and in the file's order. */
  lemma KeywordLinesInOrder(lines: seq<string>)
    ensures exists idx :: Seqs.TakenAt(lines, KeywordLines(lines), idx, IsExcerptLine)
  {
    Seqs.FilterInOrder(lines, IsExcerptLine);
    var idx :| Seqs.TakenAt(lines, Seqs.Filter(lines, IsExcerptLine), idx, IsExcerptLine);
    assert Seqs.TakenAt(lines, KeywordLines(lines), idx, IsExcerptLine);
  }

  /** The excerpt keeps the first 60 keyword lines. */
  const MaxExcerptLines: nat := 60

  /** The report of the probe. */
  datatype PsrResult = PsrResult(
    supported: bool,
    psrEnabled: Option<bool>,
    psrActive: Option<bool>,
    alpmHint: Option<bool>,
    excerpt: string)

  /** `check_psr_alpm_state`: unsupported with no findings when the
      status file cannot be read, otherwise the findings of the scan and
      the first 60 keyword lines joined by newlines. */
  function PsrProbe(status: Option<string>): (r: PsrResult)
    ensures r.supported <==> status.Some?
    ensures !r.supported ==> r == PsrResult(false, None, None, None, "")
  {
    match status
    case None => PsrResult(false, None, None, None, "")
    case Some(txt) =>
      var lines := SplitLines(txt);
      var f := Scan(Findings(None, None, None), lines);
      var kept := KeywordLines(lines);
      var excerpt := Join(kept[..if |kept| < MaxExcerptLines then |kept| else MaxExcerptLines], "\n");
      PsrResult(true, f.psrEnabled, f.psrActive, f.alpmHint, excerpt)
  }

  // ------------------------------------------------------------------
  // Reference definitions: the first and the last setting
  // ------------------------------------------------------------------

  /** The first defined value. */
  function FirstSome(xs: seq<Option<bool>>): (r: Option<bool>)
    ensures r.Some? ==> r in xs
    ensures r.None? <==> forall i :: 0 <= i < |xs| ==> xs[i].None?
    decreases |xs|
  {
    if xs == [] then None
    else if xs[0].Some? then xs[0]
    else FirstSome(xs[1..])
  }

  /** The last defined value. */
  function LastSome(xs: seq<Option<bool>>): (r: Option<bool>)
    ensures r.Some? ==> r in xs
    ensures r.None? <==> forall i :: 0 <= i < |xs| ==> xs[i].None?
    decreases |xs|
  {
    if xs == [] then None
    else
      var later := LastSome(xs[1..]);
      if later.Some? then later else xs[0]
  }

  function EnableSignals(lines: seq<string>): (r: seq<Option<bool>>)
    ensures |r| == |lines| && forall i :: 0 <= i < |lines| ==> r[i] == EnableSignal(lines[i])
  {
    seq(|lines|, i requires 0 <= i < |lines| => EnableSignal(lines[i]))
  }

  function ActiveSignals(lines: seq<string>): (r: seq<Option<bool>>)
    ensures |r| == |lines| && forall i :: 0 <= i < |lines| ==> r[i] == ActiveSignal(lines[i])
  {
    seq(|lines|, i requires 0 <= i < |lines| => ActiveSignal(lines[i]))
  }

  function AlpmSignals(lines: seq<string>): (r: seq<Option<bool>>)
    ensures |r| == |lines| && forall i :: 0 <= i < |lines| ==> r[i] == AlpmSignal(lines[i])
  {
    seq(|lines|, i requires 0 <= i < |lines| => AlpmSignal(lines[i]))
  }

  /** Peeling the first line off the signal sequences. */
  lemma SignalsCons(lines: seq<string>)
    requires lines != []
    ensures EnableSignals(lines)[0] == EnableSignal(lines[0]) && EnableSignals(lines)[1..] == EnableSignals(lines[1..])
    ensures ActiveSignals(lines)[0] == ActiveSignal(lines[0]) && ActiveSignals(lines)[1..] == ActiveSignals(lines[1..])
    ensures AlpmSignals(lines)[0] == AlpmSignal(lines[0]) && AlpmSignals(lines)[1..] == AlpmSignals(lines[1..])
  {
  }

  /** The scan keeps a `psr_enabled` already found, and otherwise finds
      the first defined reading. */
  lemma {:induction false} ScanEnabled(f: Findings, lines: seq<string>)
    ensures Scan(f, lines).psrEnabled ==
      (if f.psrEnabled.Some? then f.psrEnabled else FirstSome(EnableSignals(lines)))
    decreases |lines|
  {
    if lines != [] {
      ScanEnabled(Step(f, lines[0]), lines[1..]);
      SignalsCons(lines);
    }
  }

  /** `psr_active` ends with the last line that sets it, or keeps its
      value when none does. */
  lemma {:induction false} ScanActive(f: Findings, lines: seq<string>)
    ensures Scan(f, lines).psrActive ==
      (var a := LastSome(ActiveSignals(lines)); if a.Some? then a else f.psrActive)
    decreases |lines|
  {
    if lines != [] {
      ScanActive(Step(f, lines[0]), lines[1..]);
      SignalsCons(lines);
    }
  }

  /** The ALPM hint ends with the last line that sets it, or keeps its
      value when none does. */
  lemma {:induction false} ScanAlpm(f: Findings, lines: seq<string>)
    ensures Scan(f, lines).alpmHint ==
      (var h := LastSome(AlpmSignals(lines)); if h.Some? then h else f.alpmHint)
    decreases |lines|
  {
    if lines != [] {
      ScanAlpm(Step(f, lines[0]), lines[1..]);
      SignalsCons(lines);
    }
  }

  /** The probe's findings are the first PSR-enable reading and the last
      PSR-active and ALPM settings of the status text. */
  lemma ProbeFindings(txt: string)
    ensures var r := PsrProbe(Some(txt));
      var lines := SplitLines(txt);
      && r.psrEnabled == FirstSome(EnableSignals(lines))
      && r.psrActive == LastSome(ActiveSignals(lines))
      && r.alpmHint == LastSome(AlpmSignals(lines))
  {
    var f := Findings(None, None, None);
    ScanEnabled(f, SplitLines(txt));
    ScanActive(f, SplitLines(txt));
    ScanAlpm(f, SplitLines(txt));
  }

  /** Once a PSR-enable reading is found, no later line changes it. */
  lemma {:induction false} EnabledSticks(f: Findings, lines: seq<string>)
    requires f.psrEnabled.Some?
    ensures Scan(f, lines).psrEnabled == f.psrEnabled
  {
    ScanEnabled(f, lines);
  }

  /** The excerpt lists, one per line, the first keyword lines in input
      order, at most 60 of them. */
  lemma ExcerptLines(txt: string)
    ensures var kept := KeywordLines(SplitLines(txt));
      var n := if |kept| < MaxExcerptLines then |kept| else MaxExcerptLines;
      SplitLines(PsrProbe(Some(txt)).excerpt) == kept[..n]
  {
    var lines := SplitLines(txt);
    var kept := KeywordLines(lines);
    var n := if |kept| < MaxExcerptLines then |kept| else MaxExcerptLines;
    var top := kept[..n];
    forall k | 0 <= k < |top| ensures NoBreak(top[k]) && top[k] != [] {
      assert top[k] == kept[k];
      KeywordLineNonEmpty(kept[k]);
    }
    SplitJoinLines(top);
  }

  /** A keyword line is not empty. */
  lemma KeywordLineNonEmpty(line: string)
    requires IsExcerptLine(line)
    ensures line != []
  {
    var k :| 0 <= k < |ExcerptWords| && Contains(Lower(line), ExcerptWords[k]);
    assert |ExcerptWords[k]| >= 3;
  }

  // ------------------------------------------------------------------
  // The reduced verdict of drm.py
  // ------------------------------------------------------------------

  /** `drm.py`'s verdict: `not psr_active and not alpm_hint` for a parsed
      file; a missing file returns the (truthy) unsupported report. */
  predicate PsrOk(r: PsrResult) {
    if !r.supported then true
    else !(r.psrActive == Some(true)) && !(r.alpmHint == Some(true))
  }

  /** A readable status file passes exactly when neither the last PSR
      line that sets "active" nor the last ALPM line that sets the hint
      sets it to True; a missing file passes. */
  lemma PsrOkIff(status: Option<string>)
    ensures PsrOk(PsrProbe(status)) <==>
      status.None? ||
      (LastSome(ActiveSignals(SplitLines(status.value))) != Some(true)
       && LastSome(AlpmSignals(SplitLines(status.value))) != Some(true))
  {
    if status.Some? {
      ProbeFindings(status.value);
    }
  }
}

=== FILE: reader.dfy ===
/**
  The state reader: `read_text` on a kernel-exported file
  (gfx.py:47-54, drm.py:45-52). The file system is replaced by the
  outcome of opening the file, so absence and unreadability are inputs.
*/
module Reader {
  import opened Wrappers
  import opened Text

  /** What opening a path yields: nothing there, an error while reading
      (permission, I/O), or the content. Content is text in which every
      character stands for one byte. */
  datatype FileRead = Missing | Unreadable | Content(data: string)

  /** Python's `Path.exists()`: an unreadable file still exists. */
  predicate Exists(f: FileRead) {
    !f.Missing?
  }

  /** The default read bound (`max_bytes`). */
  const MaxBytes: nat := 200000

  /** The marker appended to an over-long read. */
  const Truncated: string := "<...truncated...>"

  /** A read bounded by `maxBytes`, stripped of surrounding whitespace. A
      longer file is cut to its first `maxBytes` bytes, followed by a line
      holding the truncation marker. A missing or unreadable file gives None;
      the read never fails. */
  function ReadText(f: FileRead, maxBytes: nat): (r: Option<string>)
    ensures r.Some? <==> f.Content?
    ensures f.Content? && |f.data| > maxBytes ==>
              r.value == LStrip(f.data[..maxBytes] + "\n") + Truncated
  {
    match f
    case Content(data) =>
      if |data| > maxBytes then
        var head := data[..maxBytes] + "\n";
        TruncatedStrip(head);
        Some(Strip(head + Truncated + "\n"))
      else
        Some(Strip(data))
    case _ => None
  }

  /** Stripping a cut-off read keeps the marker as its last line. */
  lemma TruncatedStrip(head: string)
    ensures Strip(head + Truncated + "\n") == LStrip(head) + Truncated
  {
    var c := LStrip(head) + Truncated;
    MarkerLineLStrip(head);
    MarkerLast(LStrip(head));
    LineRStrip(c);
  }

  lemma LineRStrip(c: string)
    requires c != [] && !IsSpace(c[|c| - 1])
    ensures RStrip(c + "\n") == c
  {
    RStripAppendSpace(c, "\n");
  }

  lemma MarkerLast(p: string)
    ensures var c := p + Truncated; c != [] && !IsSpace(c[|c| - 1])
  {
    var c := p + Truncated;
    assert c[|c| - 1] == Truncated[|Truncated| - 1] == '>';
  }

  lemma MarkerLineLStrip(head: string)
    ensures LStrip(head + Truncated + "\n") == LStrip(head) + Truncated + "\n"
  {
    var tail := Truncated + "\n";
    assert head + Truncated + "\n" == head + tail;
    assert tail[0] == '<';
    LStripAppend(head, tail);
  }

  /** A read is never longer than the bound plus the marker line. */
  lemma ReadTextBounded(f: FileRead, maxBytes: nat)
    requires f.Content?
    ensures |ReadText(f, maxBytes).value| <= maxBytes + 1 + |Truncated|
  {
  }

  /** A file no longer than the bound reads back as its stripped content. */
  lemma ReadTextShort(s: string, maxBytes: nat)
    requires |s| <= maxBytes
    ensures ReadText(Content(s), maxBytes) == Some(Strip(s))
  {
  }

  /** Text that is already stripped and short enough reads back unchanged. */
  lemma ReadTextRoundTrip(s: string, maxBytes: nat)
    requires |s| <= maxBytes
    requires s == [] || (!IsSpace(s[0]) && !IsSpace(s[|s| - 1]))
    ensures ReadText(Content(s), maxBytes) == Some(s)
  {
    StripStripped(s);
  }
}

=== FILE: seqs.dfy ===
/**
  Sequence utilities shared by the enumerators and probes: order-keeping
  filters, ascending sort (Python's `sorted`) and the sorted list of
  distinct elements (Python's `sorted(set(xs))`).
*/
module Seqs {

  /** The elements satisfying `p`, in their original order. */
  function Filter<T(!new)>(s: seq<T>, p: T -> bool): (r: seq<T>)
    ensures |r| <= |s|
    ensures forall x :: x in r <==> x in s && p(x)
    decreases |s|
  {
    if s == [] then []
    else
      var n := |s| - 1;
      var r := Filter(s[..n], p) + (if p(s[n]) then [s[n]] else []);
      assert forall x :: x in s <==> x in s[..n] || x == s[n];
      r
  }

  /** `idx` lists the positions of `s` that `r` takes: increasing, each
      holding the element of `r` at the same place, and covering every
      position whose element satisfies `p`. */
  ghost predicate TakenAt<T>(s: seq<T>, r: seq<T>, idx: seq<nat>, p: T -> bool) {
    && |idx| == |r|
    && (forall k :: 0 <= k < |idx| ==> idx[k] < |s| && r[k] == s[idx[k]])
    && (forall k1, k2 :: 0 <= k1 < k2 < |idx| ==> idx[k1] < idx[k2])
    && (forall i :: 0 <= i < |s| && p(s[i]) ==> i in idx)
  }

  /** A filter that every element passes keeps the whole sequence. */
  lemma {:induction false} FilterAll<T(!new)>(s: seq<T>, p: T -> bool)
    requires forall k :: 0 <= k < |s| ==> p(s[k])
    ensures Filter(s, p) == s
    decreases |s|
  {
    if s != [] {
      var n := |s| - 1;
      FilterAll(s[..n], p);
      assert s[..n] + [s[n]] == s;
    }
  }

  /** Taking the positions of `front` and then, when it satisfies `p`,
      the element appended to it. */
  lemma TakenAtSnoc<T>(front: seq<T>, r: seq<T>, idx: seq<nat>, p: T -> bool, x: T)
    requires TakenAt(front, r, idx, p)
    ensures p(x) ==> TakenAt(front + [x], r + [x], idx + [|front|], p)
    ensures !p(x) ==> TakenAt(front + [x], r, idx, p)
  {
    var s := front + [x];
    assert forall i :: 0 <= i < |front| ==> s[i] == front[i];
    if p(x) {
      var idx2 := idx + [|front|];
      assert forall k :: 0 <= k < |idx| ==> idx2[k] == idx[k];
      assert idx2[|idx|] == |front|;
    }
  }

  /** `Filter` keeps every element satisfying `p`, each once, in the
      order of `s`. */
  lemma {:induction false} FilterInOrder<T(!new)>(s: seq<T>, p: T -> bool)
    ensures exists idx :: TakenAt(s, Filter(s, p), idx, p)
    decreases |s|
  {
    if s == [] {
      assert Filter(s, p) == [];
      assert TakenAt(s, [], [], p);
    } else {
      var n := |s| - 1;
      var front := s[..n];
      assert s == front + [s[n]];
      FilterInOrder(front, p);
      var idx :| TakenAt(front, Filter(front, p), idx, p);
      TakenAtSnoc(front, Filter(front, p), idx, p, s[n]);
      if p(s[n]) {
        assert TakenAt(s, Filter(s, p), idx + [n], p);
      } else {
        assert TakenAt(s, Filter(s, p), idx, p);
      }
    }
  }

  predicate Sorted(s: seq<int>) {
    forall i, j :: 0 <= i < j < |s| ==> s[i] <= s[j]
  }

  predicate StrictlySorted(s: seq<int>) {
    forall i, j :: 0 <= i < j < |s| ==> s[i] < s[j]
  }

  /** Inserts `x` into a sorted sequence before the first larger element. */
  function Insert(x: nat, s: seq<nat>): (r: seq<nat>)
    requires Sorted(s)
    ensures Sorted(r)
    ensures multiset(r) == multiset(s) + multiset{x}
    decreases |s|
  {
    if s == [] then [x]
    else if x <= s[0] then
      ConsSorted(x, s);
      [x] + s
    else
      var t := Insert(x, s[1..]);
      forall i | 0 <= i < |t| ensures s[0] <= t[i] {
        assert t[i] in multiset(t);
        if t[i] != x {
          assert t[i] in s[1..];
        }
      }
      ConsSorted(s[0], t);
      assert s == [s[0]] + s[1..];
      [s[0]] + t
  }

  /** A sorted sequence stays sorted behind a lower bound of it. */
  lemma ConsSorted(a: nat, t: seq<nat>)
    requires Sorted(t) && forall i :: 0 <= i < |t| ==> a <= t[i]
    ensures Sorted([a] + t)
  {
    var r := [a] + t;
    forall i, j | 0 <= i < j < |r| ensures r[i] <= r[j] {
      assert r[j] == t[j - 1];
      if i > 0 {
        assert r[i] == t[i - 1];
      }
    }
  }

  /** Python's `sorted(xs)` on naturals: an ascending permutation. */
  function Sort(s: seq<nat>): (r: seq<nat>)
    ensures Sorted(r) && multiset(r) == multiset(s)
    decreases |s|
  {
    if s == [] then []
    else
      var n := |s| - 1;
      assert s == s[..n] + [s[n]];
      Insert(s[n], Sort(s[..n]))
  }

  /** Adds `x` to a strictly ascending sequence unless it is already there. */
  function InsertDistinct(x: nat, s: seq<nat>): (r: seq<nat>)
    requires StrictlySorted(s)
    ensures StrictlySorted(r)
    ensures forall y :: y in r <==> y in s || y == x
    decreases |s|
  {
    if s == [] then [x]
    else if x < s[0] then [x] + s
    else if x == s[0] then s
    else
      var t := InsertDistinct(x, s[1..]);
      assert forall y :: y in s <==> y == s[0] || y in s[1..];
      forall i | 0 <= i < |t| ensures s[0] < t[i] {
        assert t[i] in t;
      }
      var r := [s[0]] + t;
      assert forall i :: 1 <= i < |r| ==> r[i] == t[i - 1];
      r
  }

  /** Python's `sorted(set(xs))`: the distinct elements, ascending. */
  function SortedSet(s: seq<nat>): (r: seq<nat>)
    ensures StrictlySorted(r)
    ensures forall y :: y in r <==> y in s
    decreases |s|
  {
    if s == [] then []
    else
      var n := |s| - 1;
      assert forall y :: y in s <==> y in s[..n] || y == s[n];
      InsertDistinct(s[n], SortedSet(s[..n]))
  }

  /** A strictly ascending sequence is determined by its elements. */
  lemma {:induction false} StrictlySortedUnique(a: seq<nat>, b: seq<nat>)
    requires StrictlySorted(a) && StrictlySorted(b)
    requires forall y :: y in a <==> y in b
    ensures a == b
    decreases |a|
  {
    assert a != [] ==> a[0] in b;
    assert b != [] ==> b[0] in a;
    if a != [] && b != [] {
      assert a[0] in b;
      assert b[0] in a;
      assert a[0] == b[0];
      forall y ensures y in a[1..] <==> y in b[1..] {
        if y in a[1..] {
          assert y in b && y != b[0];
        }
        if y in b[1..] {
          assert y in a && y != a[0];
        }
      }
      StrictlySortedUnique(a[1..], b[1..]);
      assert a == [a[0]] + a[1..] && b == [b[0]] + b[1..];
    }
  }

  /** Two lists have the same sorted distinct form exactly when they hold
      the same elements: order and duplicates do not matter. */
  lemma SortedSetEq(a: seq<nat>, b: seq<nat>)
    ensures SortedSet(a) == SortedSet(b) <==> (forall y :: y in a <==> y in b)
  {
    if forall y :: y in a <==> y in b {
      StrictlySortedUnique(SortedSet(a), SortedSet(b));
    }
  }
}

=== FILE: text.dfy ===
/**
  Character classes and the handful of Python `str` operations the
  diagnostic relies on: `strip`, `lower`, `splitlines`, `split()`,
  `startswith`, `in` (substring), `join`, and decimal digit runs.

  Whitespace and line breaks follow Python's `str.isspace` and
  `str.splitlines`; case folding and `\d` / `\w` are ASCII-only.
*/
module Text {
  import opened Wrappers

  // ------------------------------------------------------------------
  // Character classes
  // ------------------------------------------------------------------

  /** Python's `str.isspace`. */
  predicate IsSpace(c: char) {
    || c == ' '
    || ('\t' <= c <= '\r')
    || ('\U{1C}' <= c <= '\U{1F}')
    || c == '\U{85}' || c == '\U{A0}' || c == '\U{1680}'
    || ('\U{2000}' <= c <= '\U{200A}')
    || c == '\U{2028}' || c == '\U{2029}' || c == '\U{202F}'
    || c == '\U{205F}' || c == '\U{3000}'
  }

  /** The characters at which Python's `str.splitlines` ends a line. */
  predicate IsLineBreak(c: char) {
    || ('\n' <= c <= '\r')
    || ('\U{1C}' <= c <= '\U{1E}')
    || c == '\U{85}' || c == '\U{2028}' || c == '\U{2029}'
  }

  predicate IsDigit(c: char) {
    '0' <= c <= '9'
  }

  /** The regular-expression word class `\w`, restricted to ASCII. */
  predicate IsWordChar(c: char) {
    IsDigit(c) || ('a' <= c <= 'z') || ('A' <= c <= 'Z') || c == '_'
  }

  predicate AllSpace(s: string) {
    forall i :: 0 <= i < |s| ==> IsSpace(s[i])
  }

  predicate NoSpace(s: string) {
    forall i :: 0 <= i < |s| ==> !IsSpace(s[i])
  }

  predicate NoBreak(s: string) {
    forall i :: 0 <= i < |s| ==> !IsLineBreak(s[i])
  }

  predicate AllDigits(s: string) {
    forall i :: 0 <= i < |s| ==> IsDigit(s[i])
  }

  predicate NoDigits(s: string) {
    forall i :: 0 <= i < |s| ==> !IsDigit(s[i])
  }

  // ------------------------------------------------------------------
  // Prefixes and substrings
  // ------------------------------------------------------------------

  /** Python's `s.startswith(p)`. */
  predicate StartsWith(s: string, p: string) {
    |p| <= |s| && s[..|p|] == p
  }

  /** Python's `sub in s`. */
  predicate Contains(s: string, sub: string)
    decreases |s|
  {
    StartsWith(s, sub) || (|s| > 0 && Contains(s[1..], sub))
  }

  /** True when any of the keywords occurs in `s`. */
  predicate ContainsAny(s: string, keywords: seq<string>) {
    exists k | 0 <= k < |keywords| :: Contains(s, keywords[k])
  }

  /** A substring found at position `i` is found by `Contains`. */
  lemma {:induction false} ContainsAt(s: string, sub: string, i: nat)
    requires i <= |s| && StartsWith(s[i..], sub)
    ensures Contains(s, sub)
    decreases i
  {
    if i > 0 {
      assert s[1..][i - 1..] == s[i..];
      ContainsAt(s[1..], sub, i - 1);
    }
  }

  /** A text containing `w` contains every piece of `w`. */
  lemma {:induction false} ContainsPiece(s: string, w: string, sub: string, j: nat)
    requires Contains(s, w) && j + |sub| <= |w| && w[j..j + |sub|] == sub
    ensures Contains(s, sub)
    decreases |s|
  {
    if StartsWith(s, w) {
      assert s[j..][..|sub|] == w[j..j + |sub|];
      ContainsAt(s, sub, j);
    } else {
      ContainsPiece(s[1..], w, sub, j);
    }
  }

  /** The character classes that scans stop at. */
  datatype CharClass = Space | LineBreak | Digit | Exactly(c: char)

  predicate InClass(c: char, k: CharClass) {
    match k
    case Space => IsSpace(c)
    case LineBreak => IsLineBreak(c)
    case Digit => IsDigit(c)
    case Exactly(d) => c == d
  }

  /** The index of the first character of class `k`, or `|s|`. */
  function FirstIn(s: string, k: CharClass): (i: nat)
    ensures i <= |s|
    ensures forall j :: 0 <= j < i ==> !InClass(s[j], k)
    ensures i < |s| ==> InClass(s[i], k)
    decreases |s|
  {
    if s == [] || InClass(s[0], k) then 0 else 1 + FirstIn(s[1..], k)
  }

  /** The first index of a class is pinned down by the character there and
      those before it. */
  lemma FirstInAt(s: string, k: CharClass, i: nat)
    requires i <= |s|
    requires forall j :: 0 <= j < i ==> !InClass(s[j], k)
    requires i < |s| ==> InClass(s[i], k)
    ensures FirstIn(s, k) == i
  {
  }

  /** Python's `t.split(c, 1)` when `c` occurs in `t`: the text before
      the first `c` and the text after it. */
  function SplitFirst(t: string, c: char): (kv: (string, string))
    requires FirstIn(t, Exactly(c)) < |t|
    ensures t == kv.0 + [c] + kv.1
    ensures forall j :: 0 <= j < |kv.0| ==> kv.0[j] != c
  {
    var i := FirstIn(t, Exactly(c));
    var kv := (t[..i], t[i + 1..]);
    assert t == kv.0 + [c] + kv.1;
    kv
  }

  /** `p + v` starts with `p + q` exactly when `v` starts with `q`. */
  lemma StartsWithAppend(p: string, v: string, q: string)
    ensures StartsWith(p + v, p + q) <==> StartsWith(v, q)
  {
    if StartsWith(v, q) {
      assert (p + v)[..|p + q|] == p + v[..|q|];
    }
    if StartsWith(p + v, p + q) {
      assert v[..|q|] == (p + v)[..|p + q|][|p|..];
    }
  }

  /** Strings that differ in their first character do not start one another. */
  lemma StartsWithFirstChar(s: string, p: string)
    requires s != [] && p != [] && s[0] != p[0]
    ensures !StartsWith(s, p)
  {
  }

  // ------------------------------------------------------------------
  // Case folding
  // ------------------------------------------------------------------

  function LowerChar(c: char): char {
    if 'A' <= c <= 'Z' then (c as int + 32) as char else c
  }

  /** Python's `s.lower()` on ASCII letters. */
  function Lower(s: string): (r: string)
    ensures |r| == |s|
    ensures forall i :: 0 <= i < |s| ==> r[i] == LowerChar(s[i])
    decreases |s|
  {
    if s == [] then [] else [LowerChar(s[0])] + Lower(s[1..])
  }

  // ------------------------------------------------------------------
  // Stripping
  // ------------------------------------------------------------------

  /** Python's `s.lstrip()`: the suffix left after dropping leading whitespace. */
  function LStrip(s: string): (r: string)
    ensures |r| <= |s|
    ensures forall i :: 0 <= i < |s| - |r| ==> IsSpace(s[i])
    ensures r != [] ==> !IsSpace(r[0])
    decreases |s|
  {
    if s != [] && IsSpace(s[0]) then LStrip(s[1..]) else s
  }

  /** What `LStrip` keeps is a suffix of its input. */
  lemma {:induction false} LStripSuffix(s: string)
    ensures LStrip(s) == s[|s| - |LStrip(s)|..]
    decreases |s|
  {
    if s != [] && IsSpace(s[0]) {
      LStripSuffix(s[1..]);
      assert s[1..][|s| - 1 - |LStrip(s[1..])|..] == s[|s| - |LStrip(s)|..];
    }
  }

  /** Python's `s.rstrip()`: the prefix left after dropping trailing whitespace. */
  function RStrip(s: string): (r: string)
    ensures |r| <= |s| && r == s[..|r|]
    ensures forall i :: |r| <= i < |s| ==> IsSpace(s[i])
    ensures r != [] ==> !IsSpace(r[|r| - 1])
    decreases |s|
  {
    if s != [] && IsSpace(s[|s| - 1]) then RStrip(s[..|s| - 1]) else s
  }

  /** Python's `s.strip()`. */
  function Strip(s: string): (r: string)
    ensures |r| <= |s|
  {
    RStrip(LStrip(s))
  }

  /** What `strip` keeps: the infix of `s` that neither begins nor ends with
      whitespace and is surrounded only by whitespace. */
  lemma StripShape(s: string)
    ensures var r := Strip(s);
            var a := |s| - |LStrip(s)|;
            && a + |r| <= |s| && (forall i :: 0 <= i < |r| ==> r[i] == s[a + i])
            && (forall i :: 0 <= i < a ==> IsSpace(s[i]))
            && (forall i :: a + |r| <= i < |s| ==> IsSpace(s[i]))
            && (r != [] ==> !IsSpace(r[0]) && !IsSpace(r[|r| - 1]))
  {
    var t := LStrip(s);
    var r := RStrip(t);
    var a := |s| - |t|;
    LStripSuffix(s);
    PrefixOfSuffix(s, a, r);
    SpaceAfterPrefix(s, a, r);
    if r != [] {
      assert r[0] == t[0];
    }
  }

  /** A prefix of the suffix from `a` sits at `a` in the text. */
  lemma PrefixOfSuffix(s: string, a: nat, r: string)
    requires a <= |s| && |r| <= |s| - a && r == s[a..][..|r|]
    ensures a + |r| <= |s| && forall i :: 0 <= i < |r| ==> r[i] == s[a + i]
  {
    forall i | 0 <= i < |r| ensures r[i] == s[a + i] {
      assert r[i] == s[a..][i];
    }
  }

  /** Whitespace behind a prefix of the suffix from `a` is whitespace
      behind the same stretch of the text. */
  lemma SpaceAfterPrefix(s: string, a: nat, r: string)
    requires a <= |s| && |r| <= |s| - a
    requires forall i :: |r| <= i < |s| - a ==> IsSpace(s[a..][i])
    ensures forall i :: a + |r| <= i < |s| ==> IsSpace(s[i])
  {
    forall i | a + |r| <= i < |s| ensures IsSpace(s[i]) {
      assert s[i] == s[a..][i - a];
    }
  }

  /** Text without surrounding whitespace is left alone by `strip`. */
  lemma StripStripped(s: string)
    requires s == [] || (!IsSpace(s[0]) && !IsSpace(s[|s| - 1]))
    ensures Strip(s) == s
  {
    if s != [] {
      assert LStrip(s) == s;
    }
  }

  /** Leading whitespace stops at the first non-space character. */
  lemma {:induction false} LStripAppend(a: string, b: string)
    requires b != [] && !IsSpace(b[0])
    ensures LStrip(a + b) == LStrip(a) + b
    decreases |a|
  {
    if a == [] {
      assert a + b == b;
    } else if IsSpace(a[0]) {
      assert (a + b)[1..] == a[1..] + b;
      LStripAppend(a[1..], b);
    } else {
      assert (a + b)[0] == a[0];
    }
  }

  /** Trailing whitespace after a non-space character is all that `rstrip` removes. */
  lemma {:induction false} RStripAppendSpace(c: string, w: string)
    requires c != [] && !IsSpace(c[|c| - 1])
    requires AllSpace(w)
    ensures RStrip(c + w) == c
    decreases |w|
  {
    if w == [] {
      assert c + w == c;
    } else {
      assert (c + w)[..|c + w| - 1] == c + w[..|w| - 1];
      RStripAppendSpace(c, w[..|w| - 1]);
    }
  }

  // ------------------------------------------------------------------
  // Lines and words
  // ------------------------------------------------------------------

  /** Python's `s.splitlines()`: lines without their terminators; a final
      terminator does not start an empty line, and "\r\n" is one break. */
  function SplitLines(s: string): (lines: seq<string>)
    ensures forall k :: 0 <= k < |lines| ==> NoBreak(lines[k])
    decreases |s|
  {
    if s == [] then []
    else
      var i := FirstIn(s, LineBreak);
      if i == |s| then [s]
      else
        var next := if s[i] == '\r' && i + 1 < |s| && s[i + 1] == '\n' then i + 2 else i + 1;
        [s[..i]] + SplitLines(s[next..])
  }

  /** Python's `sep.join(parts)`. */
  function Join(parts: seq<string>, sep: string): string
    decreases |parts|
  {
    if parts == [] then []
    else if |parts| == 1 then parts[0]
    else parts[0] + sep + Join(parts[1..], sep)
  }

  /** Joining lines with "\n" and splitting them again gives the lines back,
      as long as no line holds a break and the last one is not empty. */
  lemma {:induction false} SplitJoinLines(lines: seq<string>)
    requires forall k :: 0 <= k < |lines| ==> NoBreak(lines[k])
    requires lines == [] || lines[|lines| - 1] != []
    ensures SplitLines(Join(lines, "\n")) == lines
    decreases |lines|
  {
    if |lines| == 1 {
      var s := lines[0];
      assert FirstIn(s, LineBreak) == |s|;
    } else if |lines| > 1 {
      var l0 := lines[0];
      var rest := Join(lines[1..], "\n");
      var s := l0 + "\n" + rest;
      assert s[|l0|] == '\n';
      assert forall j :: 0 <= j < |l0| ==> s[j] == l0[j];
      assert FirstIn(s, LineBreak) == |l0|;
      assert s[..|l0|] == l0;
      assert s[|l0| + 1..] == rest;
      SplitJoinLines(lines[1..]);
      assert [l0] + lines[1..] == lines;
    }
  }

  /** Non-empty, whitespace-free words. */
  predicate Words(toks: seq<string>)
    decreases |toks|
  {
    toks == [] || (toks[0] != [] && NoSpace(toks[0]) && Words(toks[1..]))
  }

  /** Python's `s.split()` with no separator: the maximal runs of
      non-whitespace characters, in order. */
  function Tokens(s: string): (toks: seq<string>)
    ensures Words(toks)
    decreases |s|
  {
    var t := LStrip(s);
    if t == [] then []
    else
      var i := FirstIn(t, Space);
      assert i != 0;
      var w := t[..i];
      assert NoSpace(w) by {
        forall j | 0 <= j < |w| ensures !IsSpace(w[j]) {
          assert w[j] == t[j] && !InClass(t[j], Space);
        }
      }
      var rest := Tokens(t[i..]);
      assert ([w] + rest)[1..] == rest;
      [w] + rest
  }

  /** A single word tokenises to itself. */
  lemma TokensOne(w: string)
    requires w != [] && NoSpace(w)
    ensures Tokens(w) == [w]
  {
    assert LStrip(w) == w;
    FirstInAt(w, Space, |w|);
    assert w[..|w|] == w && w[|w|..] == [];
  }

  /** A word followed by a space is the first token. */
  lemma TokensCons(w: string, rest: string)
    requires w != [] && NoSpace(w)
    ensures Tokens(w + " " + rest) == [w] + Tokens(rest)
  {
    var s := w + " " + rest;
    assert s[0] == w[0] && !IsSpace(w[0]);
    assert LStrip(s) == s;
    forall j | 0 <= j < |w| ensures !InClass(s[j], Space) {
      assert s[j] == w[j] && !IsSpace(w[j]);
    }
    assert InClass(s[|w|], Space);
    FirstInAt(s, Space, |w|);
    assert s[..|w|] == w;
    assert s[|w|..] == " " + rest;
    assert (" " + rest)[1..] == rest;
  }

  /** Joining words with a space and tokenising again gives the words back. */
  lemma {:induction false} TokensJoin(words: seq<string>)
    requires Words(words)
    ensures Tokens(Join(words, " ")) == words
    decreases |words|
  {
    if |words| == 1 {
      TokensOne(words[0]);
    } else if |words| > 1 {
      TokensCons(words[0], Join(words[1..], " "));
      TokensJoin(words[1..]);
      assert [words[0]] + words[1..] == words;
    }
  }

  // ------------------------------------------------------------------
  // Decimal numbers
  // ------------------------------------------------------------------

  function DigitValue(c: char): nat
    requires IsDigit(c)
  {
    c as int - '0' as int
  }

  /** Python's `int(s)` on a run of decimal digits. */
  function DigitsValue(s: string): nat
    requires AllDigits(s)
    decreases |s|
  {
    if s == [] then 0 else 10 * DigitsValue(s[..|s| - 1]) + DigitValue(s[|s| - 1])
  }

  function DigitChar(d: nat): (c: char)
    requires d < 10
    ensures IsDigit(c) && DigitValue(c) == d
  {
    ('0' as int + d) as char
  }

  /** Python's `str(n)` for a natural number: a run of digits without a
      leading zero that reads back as `n`. */
  function DecimalString(n: nat): (r: string)
    ensures r != [] && AllDigits(r) && DigitsValue(r) == n
    ensures r[0] == '0' <==> n == 0
    ensures n == 0 ==> r == "0"
    decreases n
  {
    if n < 10 then [DigitChar(n)]
    else
      var r := DecimalString(n / 10) + [DigitChar(n % 10)];
      assert r[..|r| - 1] == DecimalString(n / 10);
      r
  }

  /** The end of the run of digits that starts at `i`. */
  function DigitRunEnd(s: string, i: nat): (j: nat)
    requires i <= |s|
    ensures i <= j <= |s|
    ensures AllDigits(s[i..j])
    ensures j < |s| ==> !IsDigit(s[j])
    decreases |s| - i
  {
    if i < |s| && IsDigit(s[i]) then DigitRunEnd(s, i + 1) else i
  }

  /** The value of the first run of digits in `s` (the regular expression
      `(\d+)` searched once), or None when `s` holds no digit. */
  function FirstInt(s: string): (r: Option<nat>)
    ensures r.None? <==> NoDigits(s)
    ensures r.Some? ==> exists i, j :: FirstRun(s, i, j) && r.value == DigitsValue(s[i..j])
  {
    var i := FirstIn(s, Digit);
    if i == |s| then None
    else
      var j := DigitRunEnd(s, i);
      assert FirstRun(s, i, j);
      Some(DigitsValue(s[i..j]))
  }

  /** `s[i..j]` is the first run of digits of `s`: no digit before it,
      only digits in it, and no digit right after it. */
  predicate FirstRun(s: string, i: int, j: int) {
    && 0 <= i < j <= |s|
    && NoDigits(s[..i])
    && AllDigits(s[i..j])
    && (j == |s| || !IsDigit(s[j]))
  }

  /** A string has at most one first run of digits. */
  lemma FirstRunUnique(s: string, i: int, j: int, i': int, j': int)
    requires FirstRun(s, i, j) && FirstRun(s, i', j')
    ensures i == i' && j == j'
  {
    assert forall k :: 0 <= k < i ==> !IsDigit(s[k]) by {
      forall k | 0 <= k < i ensures !IsDigit(s[k]) { assert s[..i][k] == s[k]; }
    }
    assert forall k :: 0 <= k < i' ==> !IsDigit(s[k]) by {
      forall k | 0 <= k < i' ensures !IsDigit(s[k]) { assert s[..i'][k] == s[k]; }
    }
    assert IsDigit(s[i]) && IsDigit(s[i']) by {
      assert s[i..j][0] == s[i];
      assert s[i'..j'][0] == s[i'];
    }
    assert forall k :: i <= k < j ==> IsDigit(s[k]) by {
      forall k | i <= k < j ensures IsDigit(s[k]) { assert s[i..j][k - i] == s[k]; }
    }
    assert forall k :: i' <= k < j' ==> IsDigit(s[k]) by {
      forall k | i' <= k < j' ensures IsDigit(s[k]) { assert s[i'..j'][k - i'] == s[k]; }
    }
  }

  /** Whatever the first run of digits is, leading zeros included,
      `FirstInt` reads its value. */
  lemma FirstIntOfRun(s: string, i: int, j: int)
    requires FirstRun(s, i, j)
    ensures FirstInt(s) == Some(DigitsValue(s[i..j]))
  {
    assert s[..i][..i] == s[..i];
    assert s[i..j][0] == s[i];
    assert !NoDigits(s);
    var r := FirstInt(s);
    var i', j' :| FirstRun(s, i', j') && r.value == DigitsValue(s[i'..j']);
    FirstRunUnique(s, i, j, i', j');
  }

  /** The run that starts at `i` and ends where the digits stop has the
      value the digits spell. */
  lemma DigitRunOfDecimal(p: string, n: nat, q: string)
    requires q == [] || !IsDigit(q[0])
    ensures var s := p + DecimalString(n) + q;
            DigitRunEnd(s, |p|) == |p| + |DecimalString(n)|
            && s[|p|..DigitRunEnd(s, |p|)] == DecimalString(n)
  {
    var d := DecimalString(n);
    var s := p + d + q;
    var k := |p|;
    while k < |p| + |d|
      invariant |p| <= k <= |p| + |d|
      invariant DigitRunEnd(s, |p|) == DigitRunEnd(s, k)
    {
      assert s[k] == d[k - |p|];
      k := k + 1;
    }
    assert s[|p|..|p| + |d|] == d;
  }

  /** Reading the first integer back out of text that prints `n` after
      digit-free text finds `n`. */
  lemma FirstIntOfDecimal(p: string, n: nat, q: string)
    requires forall j :: 0 <= j < |p| ==> !IsDigit(p[j])
    requires q == [] || !IsDigit(q[0])
    ensures FirstInt(p + DecimalString(n) + q) == Some(n)
  {
    var d := DecimalString(n);
    var s := p + d + q;
    assert forall j :: 0 <= j < |p| ==> s[j] == p[j];
    assert s[|p|] == d[0];
    assert FirstIn(s, Digit) == |p|;
    DigitRunOfDecimal(p, n, q);
  }
}

=== FILE: topology.dfy ===
/**
  The sysfs side of the DRM topology: the /sys/class/drm listing, the
  `cardN` devices and their `cardN-<connector>` children, the bound
  driver, the device identity, runtime power information, the /dev/dri
  nodes and the KMS-gating module parameters (gfx.py:285-361,
  drm.py:334-410).

  The file system is an injected snapshot: a directory entry carries its
  name, whether it is a directory, and the reads of the files below it.
*/
module Topology {
  import opened Wrappers
  import opened Text
  import opened Reader
  import Assoc
  import Seqs

  /** The `edid` file of a connector: absent, present with a size, or
      present but `stat` failed. */
  datatype Edid = NoEdid | EdidSize(bytes: nat) | EdidStatError

  /** The `device` directory of a card: the name the `driver` symlink
      points at (None when it is not a symlink), the attribute files
      (vendor, uevent, ...) and the `power` directory (None when absent). */
  datatype Device = Device(
    driver: Option<string>,
    attrs: map<string, FileRead>,
    power: Option<map<string, FileRead>>)

  /** One entry of /sys/class/drm. */
  datatype SysEntry = SysEntry(
    name: string,
    isDir: bool,
    files: map<string, FileRead>,
    edid: Edid,
    device: Device)

  /** The read of a named file; a name that is not there is Missing. */
  function FileIn(files: map<string, FileRead>, key: string): FileRead {
    if key in files then files[key] else Missing
  }

  /** A read through `read_text` with its default bound. */
  function TextOf(files: map<string, FileRead>, key: string): Option<string> {
    ReadText(FileIn(files, key), MaxBytes)
  }

  // ------------------------------------------------------------------
  // Cards and connectors
  // ------------------------------------------------------------------

  /** `list_sys_class_drm`: the directories of the listing. The listing
      is taken in the sorted order the source produces. */
  function DrmDirs(listing: seq<SysEntry>): (r: seq<SysEntry>)
    ensures forall e :: e in r <==> e in listing && e.isDir
  {
    Seqs.Filter(listing, (e: SysEntry) => e.isDir)
  }

  /** The full match of `card\d+`. */
  predicate IsCardName(n: string) {
    |n| > 4 && n[..4] == "card" && AllDigits(n[4..])
  }

  /** `drm_cards`: the directories named "card" and one or more digits. */
  function DrmCards(listing: seq<SysEntry>): (r: seq<SysEntry>)
    ensures forall e :: e in r <==> e in listing && e.isDir && IsCardName(e.name)
  {
    Seqs.Filter(DrmDirs(listing), (e: SysEntry) => IsCardName(e.name))
  }

  /** The name prefix of the connectors of a card. */
  function ConnectorPrefix(cardName: string): string {
    cardName + "-"
  }

  /** `drm_connectors_for`: directories named `<card>-...` that have a
      `status` file (an unreadable one still exists). */
  function ConnectorsOf(listing: seq<SysEntry>, cardName: string): (r: seq<SysEntry>)
    ensures forall e :: e in r <==>
      e in listing && e.isDir && StartsWith(e.name, ConnectorPrefix(cardName))
      && Exists(FileIn(e.files, "status"))
  {
    Seqs.Filter(DrmDirs(listing),
      (e: SysEntry) => StartsWith(e.name, ConnectorPrefix(cardName)) && Exists(FileIn(e.files, "status")))
  }

  /** A connector name belongs to at most one card: the digits of a card
      name cannot be followed by "-" and by another digit at once, so
      `card1` never claims `card10-DP-1`. */
  lemma ConnectorOwnerUnique(a: string, b: string, n: string)
    requires IsCardName(a) && IsCardName(b)
    requires StartsWith(n, ConnectorPrefix(a)) && StartsWith(n, ConnectorPrefix(b))
    ensures a == b
  {
    NoShorterOwner(a, b, n);
    NoShorterOwner(b, a, n);
    assert a == ConnectorPrefix(a)[..|a|] == n[..|a|];
    assert b == ConnectorPrefix(b)[..|b|] == n[..|b|];
  }

  /** The character after a card name's digits in a connector name is
      "-", which no longer card name has there. */
  lemma NoShorterOwner(a: string, b: string, n: string)
    requires IsCardName(a) && IsCardName(b)
    requires StartsWith(n, ConnectorPrefix(a)) && StartsWith(n, ConnectorPrefix(b))
    ensures |a| >= |b|
  {
    forall j | 4 <= j < |b| ensures IsDigit(n[j]) {
      assert n[j] == ConnectorPrefix(b)[j] == b[j] == b[4..][j - 4];
    }
    assert n[|a|] == ConnectorPrefix(a)[|a|] == '-';
  }

  // ------------------------------------------------------------------
  // Driver, identity and runtime power
  // ------------------------------------------------------------------

  /** `get_driver_for_card` tested for truth: a symlink whose target has
      a non-empty last component. */
  predicate Bound(d: Device) {
    d.driver.Some? && d.driver.value != ""
  }

  /** The identity attributes read from the device directory. */
  const IdentityAttrs: set<string> :=
    {"vendor", "device", "subsystem_vendor", "subsystem_device", "class"}

  /** The uevent keys kept in the identity. */
  const UeventKeys: seq<string> := ["DRIVER", "PCI_ID", "MODALIAS"]

  /** An identity attribute as read, or "" when it cannot be read. */
  function AttrText(d: Device, k: string): string {
    TextOf(d.attrs, k).GetOr("")
  }

  /** The uevent key a line starts with (followed by "="), if any; the
      keys are tried in the source's order. */
  function UeventKeyOf(line: string): (k: Option<string>)
    ensures k.Some? ==> k.value in UeventKeys && StartsWith(line, k.value + "=")
    ensures k.None? <==> forall j :: 0 <= j < |UeventKeys| ==> !StartsWith(line, UeventKeys[j] + "=")
  {
    if StartsWith(line, "DRIVER=") then Some("DRIVER")
    else if StartsWith(line, "PCI_ID=") then Some("PCI_ID")
    else if StartsWith(line, "MODALIAS=") then Some("MODALIAS")
    else None
  }

  /** Splitting a line `K=v` at its first "=" gives `K` and `v` when `K`
      holds no "=". */
  lemma SplitAtKey(line: string, k: string)
    requires forall j :: 0 <= j < |k| ==> k[j] != '='
    requires StartsWith(line, k + "=")
    ensures FirstIn(line, Exactly('=')) == |k| < |line|
    ensures SplitFirst(line, '=') == (k, line[|k| + 1..])
  {
    var w := k + "=";
    assert line[..|w|] == w;
    forall j | 0 <= j < |k| ensures !InClass(line[j], Exactly('=')) {
      assert line[j] == w[j];
    }
    assert line[|k|] == w[|k|];
    FirstInAt(line, Exactly('='), |k|);
    assert line[..|k|] == w[..|k|] == k;
  }

  /** The kept uevent lines as (key, value) pairs, in line order; the
      pair comes from splitting the line at its first "=". */
  function UeventPairs(lines: seq<string>): (kvs: seq<(string, string)>)
    ensures forall i :: 0 <= i < |kvs| ==> kvs[i].0 in UeventKeys
    decreases |lines|
  {
    if lines == [] then []
    else
      var key := UeventKeyOf(lines[0]);
      if key.None? then UeventPairs(lines[1..])
      else
        SplitAtKey(lines[0], key.value);
        [SplitFirst(lines[0], '=')] + UeventPairs(lines[1..])
  }

  /** The lines of the uevent file ("" when it cannot be read). */
  function UeventLines(d: Device): seq<string> {
    SplitLines(TextOf(d.attrs, "uevent").GetOr(""))
  }

  /** The non-empty identity attributes. */
  function AttrPart(d: Device): (m: map<string, string>)
    ensures forall k :: k in m <==> k in IdentityAttrs && AttrText(d, k) != ""
    ensures forall k :: k in m ==> m[k] == AttrText(d, k)
  {
    map k | k in IdentityAttrs && AttrText(d, k) != "" :: AttrText(d, k)
  }

  /** The kept uevent lines assigned in line order. */
  function UeventPart(d: Device): (m: map<string, string>)
    ensures forall k :: k in m ==> k in UeventKeys
  {
    var kvs := UeventPairs(UeventLines(d));
    var m := Assoc.Assign(kvs);
    assert forall k :: k in m ==> k in UeventKeys by {
      forall k | k in m ensures k in UeventKeys {
        var i :| 0 <= i < |kvs| && kvs[i].0 == k;
      }
    }
    m
  }

  /** `device_identity`: the non-empty identity attributes, then the
      `DRIVER=`, `PCI_ID=` and `MODALIAS=` uevent lines keyed by the text
      before their first "=". */
  function DeviceIdentity(d: Device): (m: map<string, string>)
    ensures forall k :: k in m ==> k in IdentityAttrs || k in UeventKeys
  {
    AttrPart(d) + UeventPart(d)
  }

  /** A line starting with `K=` for a kept key `K` is keyed by `K`. */
  lemma KeyOfLine(line: string, k: string)
    requires k in UeventKeys && StartsWith(line, k + "=")
    ensures UeventKeyOf(line) == Some(k)
  {
    var w := k + "=";
    assert line[..|w|] == w;
    if k != "DRIVER" {
      assert line[0] == w[0] != 'D';
      StartsWithFirstChar(line, "DRIVER=");
    }
    if k == "MODALIAS" {
      assert line[0] == w[0] != 'P';
      StartsWithFirstChar(line, "PCI_ID=");
    }
  }

  /** The pairs of a single line followed by the rest. */
  lemma UeventPairsCons(line: string, rest: seq<string>)
    ensures UeventPairs([line] + rest) == (
      match UeventKeyOf(line)
      case None => []
      case Some(k) => [(k, line[|k| + 1..])]) + UeventPairs(rest)
  {
    var lines := [line] + rest;
    assert lines[0] == line && lines[1..] == rest;
    match UeventKeyOf(line)
    case None =>
    case Some(k) => SplitAtKey(line, k);
  }

  /** An identity attribute is kept exactly when its read is non-empty,
      and then with that value. */
  lemma IdentityAttr(d: Device, k: string)
    requires k in IdentityAttrs
    ensures k in DeviceIdentity(d) <==> AttrText(d, k) != ""
    ensures k in DeviceIdentity(d) ==> DeviceIdentity(d)[k] == AttrText(d, k)
  {
    assert k != "DRIVER" && k != "PCI_ID" && k != "MODALIAS";
    assert k !in UeventPart(d);
  }

  /** A uevent line `K=v` with a kept key `K` and no later `K=` line
      puts `v` into the identity under `K`. */
  lemma IdentityUevent(d: Device, before: seq<string>, line: string, after: seq<string>, k: string)
    requires UeventLines(d) == before + [line] + after && k in UeventKeys
    requires StartsWith(line, k + "=")
    requires forall j :: 0 <= j < |after| ==> UeventKeyOf(after[j]) != Some(k)
    ensures k in DeviceIdentity(d)
    ensures DeviceIdentity(d)[k] == line[|k| + 1..]
  {
    LastUeventLineWins(before, line, after, k);
  }

  /** The last line `K=v` of a kept key decides the assignment of `K`. */
  lemma LastUeventLineWins(before: seq<string>, line: string, after: seq<string>, k: string)
    requires k in UeventKeys && StartsWith(line, k + "=")
    requires forall j :: 0 <= j < |after| ==> UeventKeyOf(after[j]) != Some(k)
    ensures k in Assoc.Assign(UeventPairs(before + [line] + after))
    ensures Assoc.Assign(UeventPairs(before + [line] + after))[k] == line[|k| + 1..]
  {
    PairsAround(before, line, after, k);
    UeventPairsAvoid(after, k);
    PairWins(UeventPairs(before), k, line[|k| + 1..], UeventPairs(after));
  }

  /** The pairs of the lines around a kept line `K=v`. */
  lemma PairsAround(before: seq<string>, line: string, after: seq<string>, k: string)
    requires k in UeventKeys && StartsWith(line, k + "=")
    ensures UeventPairs(before + [line] + after) ==
      UeventPairs(before) + [(k, line[|k| + 1..])] + UeventPairs(after)
  {
    assert before + [line] + after == before + ([line] + after);
    UeventPairsConcat(before, [line] + after);
    PairsOfKeyLine(line, k, after);
  }

  /** The pairs of a kept line `K=v` followed by the rest. */
  lemma PairsOfKeyLine(line: string, k: string, rest: seq<string>)
    requires k in UeventKeys && StartsWith(line, k + "=")
    ensures UeventPairs([line] + rest) == [(k, line[|k| + 1..])] + UeventPairs(rest)
  {
    KeyOfLine(line, k);
    UeventPairsCons(line, rest);
  }

  /** A pair followed only by pairs of other keys wins. */
  lemma PairWins(pre: seq<(string, string)>, k: string, v: string, post: seq<(string, string)>)
    requires forall j :: 0 <= j < |post| ==> post[j].0 != k
    ensures k in Assoc.Assign(pre + [(k, v)] + post)
    ensures Assoc.Assign(pre + [(k, v)] + post)[k] == v
  {
    var kvs := pre + [(k, v)] + post;
    assert kvs[|pre|] == (k, v);
    assert kvs[|pre| + 1..] == post;
    forall j | |pre| < j < |kvs| ensures kvs[j].0 != k {
      assert kvs[j] == kvs[|pre| + 1..][j - |pre| - 1];
    }
    Assoc.LastWins(kvs, |pre|);
  }

  /** Pairs of a concatenation are the concatenated pairs. */
  lemma {:induction false} UeventPairsConcat(a: seq<string>, b: seq<string>)
    ensures UeventPairs(a + b) == UeventPairs(a) + UeventPairs(b)
    decreases |a|
  {
    if a != [] {
      assert (a + b)[0] == a[0] && (a + b)[1..] == a[1..] + b;
      UeventPairsConcat(a[1..], b);
    } else {
      assert a + b == b;
    }
  }

  /** Lines none of which start with `K=` give no pair keyed `K`. */
  lemma {:induction false} UeventPairsAvoid(lines: seq<string>, k: string)
    requires forall j :: 0 <= j < |lines| ==> UeventKeyOf(lines[j]) != Some(k)
    ensures forall j :: 0 <= j < |UeventPairs(lines)| ==> UeventPairs(lines)[j].0 != k
    decreases |lines|
  {
    if lines != [] {
      UeventPairsAvoid(lines[1..], k);
      UeventPairsCons(lines[0], lines[1..]);
      assert lines == [lines[0]] + lines[1..];
    }
  }

  /** The runtime power attributes read by `runtime_pm_info`. */
  const PmKeys: set<string> :=
    {"runtime_status", "runtime_suspended_time", "runtime_active_time", "control", "autosuspend_delay_ms"}

  /** `runtime_pm_info`: the readable power attributes, none when the
      `power` directory is absent. */
  function RuntimePm(d: Device): (m: map<string, string>)
    ensures d.power.None? ==> m == map[]
    ensures d.power.Some? ==> forall k :: k in m <==> k in PmKeys && TextOf(d.power.value, k).Some?
    ensures forall k :: k in m ==> TextOf(d.power.value, k) == Some(m[k])
  {
    match d.power
    case None => map[]
    case Some(files) => map k | k in PmKeys && TextOf(files, k).Some? :: TextOf(files, k).value
  }

  // ------------------------------------------------------------------
  // /dev/dri and module parameters
  // ------------------------------------------------------------------

  predicate HasCardNode(nodes: seq<string>) {
    exists i :: 0 <= i < |nodes| && StartsWith(nodes[i], "card")
  }

  predicate HasRenderNode(nodes: seq<string>) {
    exists i :: 0 <= i < |nodes| && StartsWith(nodes[i], "renderD")
  }

  /** A kernel module parameter under /sys/module. */
  datatype Param = Param(kmodule: string, name: string)

  const NvidiaModeset: Param := Param("nvidia_drm", "modeset")

  /** The parameters that gate KMS, in the order they are reported. */
  const KmsParams: seq<Param> :=
    [NvidiaModeset, Param("i915", "modeset"), Param("amdgpu", "dc"), Param("radeon", "modeset")]

  /** The read of a parameter; one not in the snapshot is Missing. */
  function ParamRead(paramReads: map<Param, FileRead>, p: Param): FileRead {
    if p in paramReads then paramReads[p] else Missing
  }

  /** The value of a parameter as `read_text` returns it. */
  function ParamValue(paramReads: map<Param, FileRead>, p: Param): Option<string> {
    ReadText(ParamRead(paramReads, p), MaxBytes)
  }

  /** The report form `module.param=value`. */
  function SettingText(p: Param, v: string): string {
    p.kmodule + "." + p.name + "=" + v
  }

  /** The report entry of one parameter: none when it cannot be read. */
  function Setting(p: Param, value: Option<string>): (r: seq<string>)
    ensures |r| <= 1
    ensures r != [] <==> value.Some?
    ensures r != [] ==> r[0] == SettingText(p, value.value)
  {
    match value
    case None => []
    case Some(v) => [SettingText(p, v)]
  }

  /** The entries of the four KMS parameters given their values. */
  function SettingsOf(values: seq<Option<string>>): (r: seq<string>)
    requires |values| == |KmsParams|
    ensures |r| <= |KmsParams|
  {
    Setting(KmsParams[0], values[0]) + Setting(KmsParams[1], values[1])
      + Setting(KmsParams[2], values[2]) + Setting(KmsParams[3], values[3])
  }

  /** The values of the four KMS parameters as `read_text` returns them. */
  function KmsValues(paramReads: map<Param, FileRead>): (r: seq<Option<string>>)
    ensures |r| == |KmsParams|
    ensures forall i :: 0 <= i < |KmsParams| ==> r[i] == ParamValue(paramReads, KmsParams[i])
    ensures r == [ParamValue(paramReads, Param("nvidia_drm", "modeset")),
                  ParamValue(paramReads, Param("i915", "modeset")),
                  ParamValue(paramReads, Param("amdgpu", "dc")),
                  ParamValue(paramReads, Param("radeon", "modeset"))]
  {
    seq(|KmsParams|, i requires 0 <= i < |KmsParams| => ParamValue(paramReads, KmsParams[i]))
  }

  /** The readable KMS parameters as `module.param=value` strings. */
  function ParamSettings(paramReads: map<Param, FileRead>): (r: seq<string>)
    ensures |r| <= |KmsParams|
  {
    SettingsOf(KmsValues(paramReads))
  }

  const NvidiaOff: string := "nvidia_drm.modeset=0"

  /** The gate of step 4: some setting starts with `nvidia_drm.modeset=0`. */
  predicate NvidiaKmsOff(settings: seq<string>) {
    exists i :: 0 <= i < |settings| && StartsWith(settings[i], NvidiaOff)
  }

  /** The NVIDIA gate fires exactly when `nvidia_drm.modeset` can be read
      and its value begins with "0" (so "0" and "00" both fire, "N" and
      "1" do not). */
  lemma NvidiaGateIff(paramReads: map<Param, FileRead>)
    ensures NvidiaKmsOff(ParamSettings(paramReads)) <==>
      var v := ParamValue(paramReads, NvidiaModeset);
      v.Some? && StartsWith(v.value, "0")
  {
    var values := KmsValues(paramReads);
    assert values[0] == ParamValue(paramReads, NvidiaModeset);
    NvidiaGateOfValues(values);
  }

  /** The gate decided on the parameter values alone. */
  lemma NvidiaGateOfValues(values: seq<Option<string>>)
    requires |values| == |KmsParams|
    ensures NvidiaKmsOff(SettingsOf(values)) <==> values[0].Some? && StartsWith(values[0].value, "0")
  {
    var s0 := Setting(KmsParams[0], values[0]);
    var rest := Setting(KmsParams[1], values[1]) + Setting(KmsParams[2], values[2])
      + Setting(KmsParams[3], values[3]);
    assert SettingsOf(values) == s0 + rest;
    OtherSettingsOn(values);
    OffConcat(s0, rest);
    if values[0].Some? {
      NvidiaSettingOff(values[0].value);
      assert s0 == [SettingText(NvidiaModeset, values[0].value)];
    }
  }

  /** The gate over two lists is the gate over either. */
  lemma OffConcat(a: seq<string>, b: seq<string>)
    ensures NvidiaKmsOff(a + b) <==> NvidiaKmsOff(a) || NvidiaKmsOff(b)
  {
    var ab := a + b;
    if NvidiaKmsOff(a) {
      var i :| 0 <= i < |a| && StartsWith(a[i], NvidiaOff);
      assert ab[i] == a[i];
    }
    if NvidiaKmsOff(b) {
      var i :| 0 <= i < |b| && StartsWith(b[i], NvidiaOff);
      assert ab[|a| + i] == b[i];
    }
    if NvidiaKmsOff(ab) {
      var i :| 0 <= i < |ab| && StartsWith(ab[i], NvidiaOff);
      if i >= |a| {
        assert ab[i] == b[i - |a|];
      } else {
        assert ab[i] == a[i];
      }
    }
  }

  /** No setting of the i915, amdgpu or radeon parameters starts with
      the NVIDIA prefix. */
  lemma OtherSettingsOn(values: seq<Option<string>>)
    requires |values| == |KmsParams|
    ensures var rest := Setting(KmsParams[1], values[1]) + Setting(KmsParams[2], values[2])
      + Setting(KmsParams[3], values[3]);
      !NvidiaKmsOff(rest)
  {
    var s1 := Setting(KmsParams[1], values[1]);
    var s2 := Setting(KmsParams[2], values[2]);
    var s3 := Setting(KmsParams[3], values[3]);
    if s1 != [] { OtherSettingOn(KmsParams[1], values[1].value); }
    if s2 != [] { OtherSettingOn(KmsParams[2], values[2].value); }
    if s3 != [] { OtherSettingOn(KmsParams[3], values[3].value); }
    var rest := s1 + s2 + s3;
    forall i | 0 <= i < |rest| ensures !StartsWith(rest[i], NvidiaOff) {
      assert rest[i] in s1 || rest[i] in s2 || rest[i] in s3;
    }
  }

  /** A setting of a module whose name does not start with "n". */
  lemma OtherSettingOn(p: Param, v: string)
    requires p.kmodule != [] && p.kmodule[0] != 'n'
    ensures !StartsWith(SettingText(p, v), NvidiaOff)
  {
    var s := SettingText(p, v);
    assert s[0] == p.kmodule[0];
    assert NvidiaOff[0] == 'n';
    StartsWithFirstChar(s, NvidiaOff);
  }

  /** The NVIDIA setting starts with `nvidia_drm.modeset=0` exactly when
      the value starts with "0". */
  lemma NvidiaSettingOff(v: string)
    ensures StartsWith(SettingText(NvidiaModeset, v), NvidiaOff) <==> StartsWith(v, "0")
  {
    assert SettingText(NvidiaModeset, v) == "nvidia_drm.modeset=" + v;
    StartsWithAppend("nvidia_drm.modeset=", v, "0");
    assert NvidiaOff == "nvidia_drm.modeset=" + "0";
  }
}

=== FILE: trace.dfy ===
/**
  The trace capture of `drm.py`: `_exists_enable_file`,
  `disable_all_drm_events`, `count_trace_lines` and the write sequence of
  `capture_drm_trace` (drm.py:127-231).

  tracefs is modelled as a small state: whether it is mounted, whether
  tracing is on, the event enable switches that exist, the targets whose
  writes are refused for lack of permission, and what reading `trace`
  gives after the capture (None when the read is refused). Every write
  either succeeds and updates the state or raises `PermissionError`.
*/
module Trace {
  import opened Wrappers
  import opened Text
  import Seqs

  /** An event `<category>:<name>`. */
  datatype EventId = EventId(category: string, name: string)

  /** The files the capture writes. */
  datatype Target = TracingOn | TraceBuffer | Enable(ev: EventId)

  datatype Write = Write(target: Target, value: string)

  datatype TraceFs = TraceFs(
    mounted: bool,
    tracingOn: bool,
    switches: map<EventId, bool>,
    denied: set<Target>,
    trace: Option<string>)

  /** The category `disable_all_drm_events` cleans up. */
  const DrmCategory: string := "drm"

  /** The events captured when the caller names none. */
  const DefaultEvents: seq<string> := ["drm:drm_atomic_commit", "drm:drm_vblank_event", "drm:drm_vblank_event_delivered"]

  // ------------------------------------------------------------------
  // `_exists_enable_file`
  // ------------------------------------------------------------------

  /** The event an event name refers to, if its enable file exists: the
      name is split at its first ':'. */
  function ExistsEnableFile(fs: TraceFs, ev: string): (r: Option<EventId>)
    ensures FirstIn(ev, Exactly(':')) == |ev| ==> r.None?
    ensures r.Some? ==> r.value in fs.switches && ev == r.value.category + ":" + r.value.name
  {
    if FirstIn(ev, Exactly(':')) == |ev| then None
    else
      var (cat, name) := SplitFirst(ev, ':');
      if EventId(cat, name) in fs.switches then Some(EventId(cat, name)) else None
  }

  /** Naming an event by `<category>:<name>` finds it exactly when its
      enable file exists, as long as the category holds no ':'. */
  lemma EnableFileOfName(fs: TraceFs, e: EventId)
    requires forall j :: 0 <= j < |e.category| ==> e.category[j] != ':'
    ensures ExistsEnableFile(fs, e.category + ":" + e.name) == (if e in fs.switches then Some(e) else None)
  {
    var s := e.category + ":" + e.name;
    assert s[|e.category|] == ':';
    assert forall j :: 0 <= j < |e.category| ==> s[j] == e.category[j];
    FirstInAt(s, Exactly(':'), |e.category|);
    assert s[..|e.category|] == e.category;
    assert s[|e.category| + 1..] == e.name;
  }

  // ------------------------------------------------------------------
  // Writes
  // ------------------------------------------------------------------

  /** The effect of a write that is not refused. */
  function Apply(fs: TraceFs, w: Write): (r: TraceFs)
    ensures r.mounted == fs.mounted && r.denied == fs.denied && r.trace == fs.trace
    ensures r.switches.Keys == fs.switches.Keys
  {
    match w.target
    case TracingOn => fs.(tracingOn := w.value == "1")
    case TraceBuffer => fs
    case Enable(ev) =>
      if ev in fs.switches then fs.(switches := fs.switches[ev := w.value == "1"]) else fs
  }

  /** Writes in order up to the first refused one: the writes done, the
      state after them, and whether all of them were done. */
  function Run(fs: TraceFs, plan: seq<Write>): (r: (seq<Write>, TraceFs, bool))
    ensures |r.0| <= |plan| && r.0 == plan[..|r.0|]
    ensures r.2 <==> r.0 == plan
    ensures !r.2 ==> plan[|r.0|].target in fs.denied
    ensures forall k :: 0 <= k < |r.0| ==> r.0[k].target !in fs.denied
    ensures r.1.mounted == fs.mounted && r.1.denied == fs.denied && r.1.trace == fs.trace
    ensures r.1.switches.Keys == fs.switches.Keys
    decreases |plan|
  {
    if plan == [] then ([], fs, true)
    else if plan[0].target in fs.denied then ([], fs, false)
    else
      var (done, after, ok) := Run(Apply(fs, plan[0]), plan[1..]);
      assert plan == [plan[0]] + plan[1..];
      ([plan[0]] + done, after, ok)
  }

  /** The writes a plan switches an event on with. */
  predicate SwitchedOn(done: seq<Write>, ev: EventId) {
    Write(Enable(ev), "1") in done
  }

  /** Every enable write of the plan switches its event on. */
  predicate OnlySwitchesOn(plan: seq<Write>) {
    forall w :: w in plan && w.target.Enable? ==> w.value == "1"
  }

  /** A write that can only switch events on, applied to one switch. */
  lemma ApplySwitch(fs: TraceFs, w: Write, ev: EventId)
    requires ev in fs.switches
    requires w.target.Enable? ==> w.value == "1"
    ensures ev in Apply(fs, w).switches
    ensures Apply(fs, w).switches[ev] == (fs.switches[ev] || w == Write(Enable(ev), "1"))
  {
  }

  lemma SwitchedOnCons(w: Write, done: seq<Write>, ev: EventId)
    ensures SwitchedOn([w] + done, ev) <==> w == Write(Enable(ev), "1") || SwitchedOn(done, ev)
  {
  }

  /** A plan that only switches events on: after running it, an event is
      on exactly when it was on before or a done write switched it on. */
  lemma {:induction false} RunSwitches(fs: TraceFs, plan: seq<Write>, ev: EventId)
    requires ev in fs.switches
    requires OnlySwitchesOn(plan)
    ensures ev in Run(fs, plan).1.switches
    ensures Run(fs, plan).1.switches[ev] == (fs.switches[ev] || SwitchedOn(Run(fs, plan).0, ev))
    decreases |plan|
  {
    if plan != [] && plan[0].target !in fs.denied {
      var fs1 := Apply(fs, plan[0]);
      assert plan[0] in plan;
      ApplySwitch(fs, plan[0], ev);
      assert forall w :: w in plan[1..] ==> w in plan;
      RunSwitches(fs1, plan[1..], ev);
      var rest := Run(fs1, plan[1..]);
      assert Run(fs, plan) == ([plan[0]] + rest.0, rest.1, rest.2);
      SwitchedOnCons(plan[0], rest.0, ev);
    }
  }

  // ------------------------------------------------------------------
  // `disable_all_drm_events` and `count_trace_lines`
  // ------------------------------------------------------------------

  /** The enable files `events/drm/<event>/enable`. */
  function DrmSwitches(fs: TraceFs): set<EventId> {
    set ev | ev in fs.switches && ev.category == DrmCategory
  }

  /** `disable_all_drm_events`: writes 0 to every drm enable file,
      ignoring refused writes, and counts the files attempted. The writes
      touch distinct files, so their order does not matter. */
  function DisableAll(fs: TraceFs): (r: (nat, TraceFs))
    ensures r.0 == |DrmSwitches(fs)|
    ensures r.1.switches.Keys == fs.switches.Keys
    ensures forall ev :: ev in fs.switches ==>
      r.1.switches[ev] == (fs.switches[ev] && (ev.category != DrmCategory || Enable(ev) in fs.denied))
    ensures r.1.mounted == fs.mounted && r.1.denied == fs.denied && r.1.tracingOn == fs.tracingOn
      && r.1.trace == fs.trace
  {
    var after := map ev | ev in fs.switches ::
      if ev.category == DrmCategory && Enable(ev) !in fs.denied then false else fs.switches[ev];
    (|DrmSwitches(fs)|, fs.(switches := after))
  }

  /** `count_trace_lines`: the number of lines of the trace, -1 when it
      cannot be read. */
  function CountTraceLines(fs: TraceFs): (n: int)
    ensures n == -1 <==> fs.trace.None?
    ensures fs.trace.Some? ==> n == |SplitLines(fs.trace.value)|
  {
    if fs.trace.Some? then |SplitLines(fs.trace.value)| else -1
  }

  // ------------------------------------------------------------------
  // `capture_drm_trace`
  // ------------------------------------------------------------------

  /** How a capture ends: tracefs absent, a `PermissionError`, or the
      captured line count. */
  datatype Outcome =
    | NotMounted
    | Denied(writes: seq<Write>, switches: map<EventId, bool>, tracingOn: bool)
    | Captured(enabled: seq<string>, lineCount: int, disabled: nat,
               writes: seq<Write>, switches: map<EventId, bool>, tracingOn: bool)

  /** The requested events whose enable file exists, in request order. */
  function Existing(fs: TraceFs, events: seq<string>): (r: seq<string>)
    ensures |r| <= |events|
    ensures forall k :: 0 <= k < |r| ==> r[k] in events && ExistsEnableFile(fs, r[k]).Some?
    ensures forall k :: 0 <= k < |events| && ExistsEnableFile(fs, events[k]).Some? ==> events[k] in r
  {
    Seqs.Filter(events, HasEnableFile(fs))
  }

  /** The test that a requested event has an enable file. */
  function HasEnableFile(fs: TraceFs): (p: string -> bool)
    ensures forall e :: p(e) == ExistsEnableFile(fs, e).Some?
  {
    (e: string) => ExistsEnableFile(fs, e).Some?
  }

  /** Every requested event with an enable file is switched on, once
      and in request order. */
  lemma ExistingInOrder(fs: TraceFs, events: seq<string>)
    ensures exists idx :: Seqs.TakenAt(events, Existing(fs, events), idx, HasEnableFile(fs))
  {
    var p := HasEnableFile(fs);
    Seqs.FilterInOrder(events, p);
    var idx :| Seqs.TakenAt(events, Seqs.Filter(events, p), idx, p);
    assert Seqs.TakenAt(events, Existing(fs, events), idx, p);
  }

  /** The enable writes for the existing events. */
  function EnableWrites(fs: TraceFs, events: seq<string>): (ws: seq<Write>)
    requires forall k :: 0 <= k < |events| ==> ExistsEnableFile(fs, events[k]).Some?
    ensures |ws| == |events|
    ensures forall k :: 0 <= k < |ws| ==> ws[k] == Write(Enable(ExistsEnableFile(fs, events[k]).value), "1")
  {
    seq(|events|, k requires 0 <= k < |events| => Write(Enable(ExistsEnableFile(fs, events[k]).value), "1"))
  }

  /** The writes of a capture, in order: stop tracing, clear the buffer,
      switch on each requested event that exists, start and stop tracing.
      Existence does not change under these writes, so the plan can be
      drawn up before the first one. */
  function Plan(fs: TraceFs, events: seq<string>): (p: seq<Write>)
    ensures OnlySwitchesOn(p)
  {
    [Write(TracingOn, "0"), Write(TraceBuffer, "")]
      + EnableWrites(fs, Existing(fs, events))
      + [Write(TracingOn, "1"), Write(TracingOn, "0")]
  }

  /** `capture_drm_trace` as written: a refused write ends the capture
      with `PermissionError` before the cleanup; after the writes the
      lines are counted, the drm events are disabled when `cleanup` is
      set, and then the trace is read once more, which is refused when
      it cannot be read. */
  function Capture(fs: TraceFs, events: Option<seq<string>>, cleanup: bool): (o: Outcome)
    ensures o.NotMounted? <==> !fs.mounted
  {
    if !fs.mounted then NotMounted
    else
      var evs := events.GetOr(DefaultEvents);
      var (done, after, ok) := Run(fs, Plan(fs, evs));
      if !ok then Denied(done, after.switches, after.tracingOn)
      else
        var lineCount := CountTraceLines(after);
        var (n, cleaned) := if cleanup then DisableAll(after) else (0, after);
        if cleaned.trace.None? then Denied(done, cleaned.switches, cleaned.tracingOn)
        else Captured(Existing(fs, evs), lineCount, n, done, cleaned.switches, cleaned.tracingOn)
  }

  /** A capture issues no write when tracefs is absent, the whole plan
      when it completes, and otherwise the plan up to the refused write;
      a completed capture leaves tracing off and counts the lines of the
      trace. */
  lemma CaptureWrites(fs: TraceFs, events: Option<seq<string>>, cleanup: bool)
    ensures var o := Capture(fs, events, cleanup);
      var plan := Plan(fs, events.GetOr(DefaultEvents));
      && (o.Captured? ==> o.writes == plan && !o.tracingOn && o.lineCount >= 0)
      && (o.Captured? ==> fs.trace.Some? && o.lineCount == |SplitLines(fs.trace.value)|)
      && (o.Denied? ==> |o.writes| <= |plan| && o.writes == plan[..|o.writes|])
  {
    var plan := Plan(fs, events.GetOr(DefaultEvents));
    if fs.mounted {
      var (done, after, ok) := Run(fs, plan);
      if ok {
        RunTracingOff(fs, plan);
      }
    }
  }

  /** The last write of a completed plan stops tracing. */
  lemma RunTracingOff(fs: TraceFs, plan: seq<Write>)
    requires plan != [] && plan[|plan| - 1] == Write(TracingOn, "0")
    requires Run(fs, plan).2
    ensures !Run(fs, plan).1.tracingOn
    decreases |plan|
  {
    if |plan| > 1 {
      RunTracingOff(Apply(fs, plan[0]), plan[1..]);
    }
  }

  /** With cleanup, a completed capture leaves every drm switch off
      except those whose disable write is refused, which keep their
      value. */
  lemma CapturedCleansUp(fs: TraceFs, events: Option<seq<string>>, ev: EventId)
    requires Capture(fs, events, true).Captured?
    requires ev in fs.switches && ev.category == DrmCategory && Enable(ev) !in fs.denied
    ensures ev in Capture(fs, events, true).switches && !Capture(fs, events, true).switches[ev]
  {
  }

  /** A refused write ends the capture with the writes done so far and
      the state they left: the cleanup is skipped, so every event switched
      on before the refusal stays on. */
  lemma CaptureDenied(fs: TraceFs, events: Option<seq<string>>, cleanup: bool)
    requires fs.mounted && !Run(fs, Plan(fs, events.GetOr(DefaultEvents))).2
    ensures var r := Run(fs, Plan(fs, events.GetOr(DefaultEvents)));
      Capture(fs, events, cleanup) == Denied(r.0, r.1.switches, r.1.tracingOn)
  {
  }

  /** A switch a plan turned on is on after the plan. */
  lemma RunLeavesOn(fs: TraceFs, plan: seq<Write>, ev: EventId)
    requires ev in fs.switches
    requires OnlySwitchesOn(plan)
    requires SwitchedOn(Run(fs, plan).0, ev)
    ensures ev in Run(fs, plan).1.switches && Run(fs, plan).1.switches[ev]
  {
    RunSwitches(fs, plan, ev);
  }

  /** Two drm events, the second one's enable file refused. */
  function LeakExample(): TraceFs {
    TraceFs(true, false,
      map[EventId("drm", "a") := false, EventId("drm", "b") := false],
      {Enable(EventId("drm", "b"))},
      Some(""))
  }

  /** The writes planned for `drm:a` and `drm:b` on the example. */
  function LeakPlan(): seq<Write> {
    [Write(TracingOn, "0"), Write(TraceBuffer, "")]
      + [Write(Enable(EventId("drm", "a")), "1"), Write(Enable(EventId("drm", "b")), "1")]
      + [Write(TracingOn, "1"), Write(TracingOn, "0")]
  }

  /** Both example events have enable files. */
  lemma LeakEventsExist()
    ensures ExistsEnableFile(LeakExample(), "drm:a") == Some(EventId("drm", "a"))
    ensures ExistsEnableFile(LeakExample(), "drm:b") == Some(EventId("drm", "b"))
  {
    var a := EventId("drm", "a");
    var b := EventId("drm", "b");
    EnableFileOfName(LeakExample(), a);
    EnableFileOfName(LeakExample(), b);
    assert "drm:a" == a.category + ":" + a.name;
    assert "drm:b" == b.category + ":" + b.name;
  }

  lemma LeakExisting()
    ensures Existing(LeakExample(), ["drm:a", "drm:b"]) == ["drm:a", "drm:b"]
  {
    var evs := ["drm:a", "drm:b"];
    var p := HasEnableFile(LeakExample());
    LeakEventsExist();
    assert forall k :: 0 <= k < |evs| ==> p(evs[k]);
    Seqs.FilterAll(evs, p);
  }

  /** Both events exist, so both are switched on in request order. */
  lemma LeakPlanned()
    ensures Plan(LeakExample(), ["drm:a", "drm:b"]) == LeakPlan()
  {
    var fs := LeakExample();
    var evs := ["drm:a", "drm:b"];
    LeakExisting();
    LeakEventsExist();
    assert EnableWrites(fs, evs)
      == [Write(Enable(EventId("drm", "a")), "1"), Write(Enable(EventId("drm", "b")), "1")];
  }

  /** The run stops at the refused fourth write, after switching `drm:a`
      on. */
  lemma LeakRun()
    ensures var r := Run(LeakExample(), LeakPlan()); !r.2 && SwitchedOn(r.0, EventId("drm", "a"))
  {
    var fs := LeakExample();
    var plan := LeakPlan();
    var r := Run(fs, plan);
    assert plan[3].target in fs.denied;
    assert |r.0| == 3;
    assert r.0[2] == plan[2];
  }

  /** The capture as written, with cleanup requested, ends on the refused
      write and leaves `drm:a` switched on. */
  lemma LeakWitness()
    ensures Capture(LeakExample(), Some(["drm:a", "drm:b"]), true).Denied?
    ensures Capture(LeakExample(), Some(["drm:a", "drm:b"]), true).switches[EventId("drm", "a")]
  {
    var fs := LeakExample();
    var events := Some(["drm:a", "drm:b"]);
    LeakPlanned();
    assert Plan(fs, events.GetOr(DefaultEvents)) == LeakPlan();
    LeakRun();
    RunLeavesOn(fs, LeakPlan(), EventId("drm", "a"));
    CaptureDenied(fs, events, true);
  }

  // ------------------------------------------------------------------
  // The cleanup on every exit path
  // ------------------------------------------------------------------

  /** The capture with the cleanup scoped around the writes: it also runs
      when a write is refused. */
  function CaptureScoped(fs: TraceFs, events: Option<seq<string>>, cleanup: bool): (o: Outcome)
    ensures o.NotMounted? <==> !fs.mounted
  {
    if !fs.mounted then NotMounted
    else
      var evs := events.GetOr(DefaultEvents);
      var (done, after, ok) := Run(fs, Plan(fs, evs));
      var lineCount := if ok then CountTraceLines(after) else -1;
      var (n, cleaned) := if cleanup then DisableAll(after) else (0, after);
      if !ok || cleaned.trace.None? then Denied(done, cleaned.switches, cleaned.tracingOn)
      else Captured(Existing(fs, evs), lineCount, n, done, cleaned.switches, cleaned.tracingOn)
  }

  /** With cleanup, every exit of the scoped capture other than an absent
      tracefs leaves each drm switch off, except those whose enable file
      refuses writes, which the capture could not have switched on and
      which keep their value. */
  lemma ScopedCleansUp(fs: TraceFs, events: Option<seq<string>>, ev: EventId)
    requires fs.mounted && ev in fs.switches && ev.category == DrmCategory
    ensures var o := CaptureScoped(fs, events, true);
      !o.NotMounted? && ev in o.switches
      && o.switches[ev] == (Enable(ev) in fs.denied && fs.switches[ev])
  {
    var plan := Plan(fs, events.GetOr(DefaultEvents));
    RunSwitches(fs, plan, ev);
    var r := Run(fs, plan);
    forall k | 0 <= k < |r.0| ensures r.0[k] != Write(Enable(ev), "1") || Enable(ev) !in fs.denied {
      assert r.0[k].target !in fs.denied;
    }
  }

  /** Where the scoped capture completes, it agrees with the capture as
      written. */
  lemma ScopedAgrees(fs: TraceFs, events: Option<seq<string>>, cleanup: bool)
    requires Capture(fs, events, cleanup).Captured?
    ensures CaptureScoped(fs, events, cleanup) == Capture(fs, events, cleanup)
  {
  }

  /** `capture_drm_trace` with the cleanup on every exit: nothing is
      written when tracefs is absent; a refused write ends the capture
      after a prefix of the plan; a completed capture performed the whole
      plan and left tracing off; and with cleanup, whatever the exit,
      every drm event is off afterwards unless its enable file refuses
      writes, in which case it keeps its value. */
  method CaptureDrmTrace(fs: TraceFs, events: Option<seq<string>>, cleanup: bool) returns (o: Outcome)
    ensures o.NotMounted? <==> !fs.mounted
    ensures o.Denied? ==>
      var plan := Plan(fs, events.GetOr(DefaultEvents));
      |o.writes| <= |plan| && o.writes == plan[..|o.writes|]
    ensures o.Captured? ==> o.writes == Plan(fs, events.GetOr(DefaultEvents)) && !o.tracingOn
    ensures fs.mounted && cleanup ==>
      forall ev :: ev in fs.switches && ev.category == DrmCategory ==>
        ev in o.switches && o.switches[ev] == (Enable(ev) in fs.denied && fs.switches[ev])
  {
    var plan := Plan(fs, events.GetOr(DefaultEvents));
    o := CaptureScoped(fs, events, cleanup);
    if fs.mounted {
      if Run(fs, plan).2 {
        RunTracingOff(fs, plan);
      }
      if cleanup {
        forall ev | ev in fs.switches && ev.category == DrmCategory
          ensures ev in o.switches && o.switches[ev] == (Enable(ev) in fs.denied && fs.switches[ev])
        {
          ScopedCleansUp(fs, events, ev);
        }
      }
    }
  }

  /** The correction does not change the verdict: both captures complete
      on the same inputs, and then agree. */
  lemma VerdictAgrees(fs: TraceFs, events: Option<seq<string>>, cleanup: bool)
    ensures TracePass(CaptureScoped(fs, events, cleanup)) == TracePass(Capture(fs, events, cleanup))
  {
    if Capture(fs, events, cleanup).Captured? {
      ScopedAgrees(fs, events, cleanup);
    }
  }

  /** `drm.py`'s verdict on the capture: the returned line count is
      truthy when non-zero; the absent-tracefs and refused cases are read
      as failed checks. */
  predicate TracePass(o: Outcome) {
    o.Captured? && o.lineCount != 0
  }
}

=== FILE: vblank.dfy ===
/**
  The vblank probe: `_read_int` and `check_vblank_events`
  (gfx.py:121-173).

  The card's debugfs directory is an input: its `crtc-*` entries with the
  counter files as first read, and the second read of the same files
  after the wait. The wait itself is not modelled.
*/
module VBlank {
  import opened Wrappers
  import opened Text
  import opened Reader

  /** A counter file: the CRTC directory and the file name. */
  datatype CounterId = CounterId(crtc: string, file: string)

  /** An entry of the card's debugfs directory, with the first read of
      the files below it. */
  datatype CrtcEntry = CrtcEntry(isDir: bool, files: map<string, FileRead>)

  /** What the probe reports: whether any counter file exists, and the
      change of every counter readable both times. */
  datatype VBlankResult = VBlankResult(supported: bool, deltas: map<CounterId, int>)

  /** The counter files looked for under every CRTC directory. */
  const CounterFiles: set<string> := {"vblank_count", "vblank", "vblank_event"}

  /** `_read_int`: the first run of digits of the text, if the file can
      be read and has one. */
  function ReadInt(f: FileRead): (r: Option<nat>)
    ensures r.Some? ==> f.Content?
    ensures f.Content? && r.None? ==> NoDigits(ReadText(f, MaxBytes).value)
    ensures r.Some? ==>
      var t := ReadText(f, MaxBytes).value;
      exists i, j :: FirstRun(t, i, j) && r.value == DigitsValue(t[i..j])
  {
    match ReadText(f, MaxBytes)
    case None => None
    case Some(t) => FirstInt(t)
  }

  /** A readable counter file whose text has a first run of digits,
      leading zeros included, reads as that run's value. */
  lemma ReadIntOfRun(f: FileRead, i: int, j: int)
    requires ReadText(f, MaxBytes).Some?
    requires FirstRun(ReadText(f, MaxBytes).value, i, j)
    ensures ReadInt(f) == Some(DigitsValue(ReadText(f, MaxBytes).value[i..j]))
  {
    FirstIntOfRun(ReadText(f, MaxBytes).value, i, j);
  }

  /** A counter file holding a number in decimal, within the read bound,
      reads back as that number. */
  lemma ReadIntOfDecimal(n: nat)
    requires |DecimalString(n)| <= MaxBytes
    ensures ReadInt(Content(DecimalString(n))) == Some(n)
  {
    var d := DecimalString(n);
    assert !IsSpace(d[0]) && !IsSpace(d[|d| - 1]);
    Reader.ReadTextRoundTrip(d, MaxBytes);
    FirstIntOfDecimal([], n, []);
    assert [] + d + [] == d;
  }

  /** The counter files that exist under the `crtc-*` directories. */
  function Counters(dir: map<string, CrtcEntry>): set<CounterId> {
    set c, f | c in dir && StartsWith(c, "crtc-") && dir[c].isDir && f in CounterFiles
      && Exists(FileIn(dir[c].files, f)) :: CounterId(c, f)
  }

  function FileIn(files: map<string, FileRead>, name: string): FileRead {
    if name in files then files[name] else Missing
  }

  /** The first read of a counter. */
  function FirstRead(dir: map<string, CrtcEntry>, id: CounterId): FileRead {
    if id.crtc in dir then FileIn(dir[id.crtc].files, id.file) else Missing
  }

  /** A read in a map of reads; one not observed is Missing. */
  function ReadOf(readMap: map<CounterId, FileRead>, id: CounterId): FileRead {
    if id in readMap then readMap[id] else Missing
  }

  /** The first reads of the counters. */
  function FirstReads(dir: map<string, CrtcEntry>, ids: set<CounterId>): (m: map<CounterId, FileRead>)
    ensures forall id :: id in ids ==> ReadOf(m, id) == FirstRead(dir, id)
  {
    map id | id in ids :: FirstRead(dir, id)
  }

  /** The values read in one pass over the counters, as the loops that
      fill `before` and `after` do: only counters that parse. */
  function Pass(ids: set<CounterId>, readMap: map<CounterId, FileRead>): (m: map<CounterId, nat>)
    ensures forall id :: id in m <==> id in ids && ReadInt(ReadOf(readMap, id)).Some?
    ensures forall id :: id in m ==> Some(m[id]) == ReadInt(ReadOf(readMap, id))
  {
    map id | id in ids && ReadInt(ReadOf(readMap, id)).Some? :: ReadInt(ReadOf(readMap, id)).value
  }

  /** The changes of the counters present in both passes. */
  function Deltas(before: map<CounterId, nat>, after: map<CounterId, nat>): (m: map<CounterId, int>)
    ensures forall id :: id in m <==> id in before && id in after
    ensures forall id :: id in m ==> m[id] == after[id] as int - before[id] as int
  {
    map id | id in before && id in after :: after[id] as int - before[id] as int
  }

  /** `check_vblank_events`: unsupported when the card directory is
      absent or has no counter file; otherwise the per-counter change for
      the counters both passes could read. */
  function VBlankProbe(dir: Option<map<string, CrtcEntry>>, later: map<CounterId, FileRead>): (r: VBlankResult)
    ensures r.supported <==> dir.Some? && Counters(dir.value) != {}
    ensures !r.supported ==> r.deltas == map[]
    ensures r.supported ==> forall id :: id in r.deltas <==>
      id in Counters(dir.value)
      && ReadInt(FirstRead(dir.value, id)).Some? && ReadInt(ReadOf(later, id)).Some?
    ensures r.supported ==> forall id :: id in r.deltas ==>
      r.deltas[id] == ReadInt(ReadOf(later, id)).value - ReadInt(FirstRead(dir.value, id)).value
  {
    match dir
    case None => VBlankResult(false, map[])
    case Some(d) =>
      var counters := Counters(d);
      if counters == {} then VBlankResult(false, map[])
      else
        var before := Pass(counters, FirstReads(d, counters));
        var after := Pass(counters, later);
        VBlankResult(true, Deltas(before, after))
  }
}

=== FILE: wrappers.dfy ===
/** Optional values: the model's stand-in for Python's `None`. */
module Wrappers {

  datatype Option<+T> = None | Some(value: T) {

    /** Returns the value held in Some, or the given default for None
        (Python's `x or default` on an optional). */
    function GetOr(default: T): T {
      match this
      case Some(v) => v
      case None => default
    }
  }
}
